=== FILE: README.md ===
# Barber booking core, modelled in Dafny

This project models the booking back end of a barbershop assistant, and the data table
of its web dashboard. It covers:

- **Staging** (`schedule_appointment` tool): a tentative booking is written into a
  conversation's context after an availability check.
- **Commit** (`confirm_booking` tool): a staged booking becomes an appointment through
  the scheduling service. The context is cleared only when that succeeds.
- **Booking helpers**: name-to-id resolution, `endsAt` derivation, cancellation with a
  reason, and service and barber listings and status snapshots.
- **Appointment store**: create, field-by-field update with rescheduling, status
  update, delete, lookup, and the filtered list.
- **Date/time resolver**: keyword day offsets (`hoy`, `mañana`, `pasado mañana`), the
  `H:MM am/pm` pattern, and the 15:00 default.
- **Record stores** for services, customers and barbers. A barber's weekly schedule rows
  live in their own table and are replaced wholesale.
- **Dashboard table**: search filter, three-state sort toggle, null-last comparator,
  dotted key paths, and pagination.

Each database table is a `Repositories.Repository<R>` object holding `rows: map<Id, R>`.
The services that change tables are methods with `modifies` clauses. Each is tied by
its `ensures` to a pure outcome function or to the new contents of the table, and the
lemmas state the properties of those functions.

Timestamps are integer milliseconds. The server's local time zone is a fixed `offset`.
Uuids are natural numbers. Calls whose code is not part of this model become function
parameters with no body assumed:

- the availability check (`available`)
- the scheduling service (`schedule`)
- `new Date(text)` parsing (`parse`)
- locale formatting (`localeFormat`)
- the time-zone check (`validZone`)

| file | module | models |
|---|---|---|
| common.dfy | Common | `Option`, `Result` with the NestJS exceptions as values, ids, timestamps |
| text.dfy | Text | `toLowerCase`, `trim`, `includes`, number-to-text renderings, `join`, code-point order |
| clock.dfy | Clock | the `Date` getters and `setHours` in a fixed local zone, the `Date` range, calendar fields |
| entities.dfy | Entities | the stored records |
| repository.dfy | Repositories | a TypeORM repository as a map held in an object |
| query.dfy | Query | `find({ where, order })` |
| appointments.dfy | Appointments | src/appointments/appointments.service.ts |
| bookings.dfy | Bookings | src/bookings/bookings.service.ts |
| tools.dfy | Tools | replies shared by the two tools |
| schedule_tool.dfy | ScheduleTool | src/agent/tools/schedule.tool.ts |
| confirm_booking_tool.dfy | ConfirmBookingTool | src/agent/tools/confirm-booking.tool.ts |
| booking_flow.dfy | BookingFlow | staging followed by confirming |
| resolve_datetime.dfy | ResolveDatetime | src/agent/tools/resolve-datetime.tool.ts |
| services.dfy | Services | src/services/services.service.ts |
| customers.dfy | Customers | src/customers/customers.service.ts |
| barbers.dfy | Barbers | src/barbers/barbers.service.ts |
| table.dfy | Table | apps/web/src/components/kibo-ui/table.tsx |

## Model

| member | source | states |
|---|---|---|
| Common.Pick | src/services/services.service.ts:49-63 | a supplied value replaces the current one; an absent one keeps it |
| Text.ToLower | src/agent/tools/resolve-datetime.tool.ts:24 | same length, each character lower-cased |
| Text.Trim | src/agent/tools/resolve-datetime.tool.ts:24 | the result is a slice of the input, with only white space cut on either side and none left at its ends |
| Text.PadStart2 | src/agent/tools/confirm-booking.tool.ts:31-32 | texts of two or more characters are kept; shorter ones are left-padded with zeros to length two |
| Text.TwoDigitsRoundTrip | src/agent/tools/confirm-booking.tool.ts:31-32 | a number below 100 renders as two digits that read back as the number |
| Text.Fixed2RoundTrip | src/agent/tools/schedule.tool.ts:90 | `(cents / 100).toFixed(2)` reads back as the same number of cents |
| Text.CentsTextRoundTrip | src/bookings/bookings.service.ts:143 | `String(cents / 100)` reads back as the same number of cents |
| Text.Join | src/bookings/bookings.service.ts:152-157 | joining no lines gives "", joining one line gives that line |
| Text.JoinSnoc | src/bookings/bookings.service.ts:152-157 | joining one more line appends the separator and that line |
| Text.Split | apps/web/src/components/kibo-ui/table.tsx:92 | `split(sep)` gives at least one part, no part holds the separator, and joining with it restores the text |
| Text.SplitPlainKey | apps/web/src/components/kibo-ui/table.tsx:92 | a text without the separator splits into itself |
| Text.SplitAppend | apps/web/src/components/kibo-ui/table.tsx:92 | splitting after a trailing separator adds one part |
| Text.SplitJoin | src/bookings/bookings.service.ts:152-157 | lines without the separator split back out of their join |
| Text.Contains | apps/web/src/components/kibo-ui/table.tsx:57 | a contained text is no longer than the text containing it |
| Text.LexLe | src/services/services.service.ts:23 | a prefix is ordered before the text it starts |
| Text.CentsToNumberText | src/bookings/bookings.service.ts:143 | `String(cents / 100)`: the sign, then `String` of the whole units, then no fraction when the cents are a multiple of 100, one digit when they are a multiple of 10, two otherwise; reads back as the cents |
| Text.CentsTextDigits | src/bookings/bookings.service.ts:143 | the shortest rendering of a non-negative amount: no fraction, one fraction digit or two, by the trailing zeros of the cents |
| Text.CentsToFixed2 | src/agent/tools/schedule.tool.ts:90 | `toFixed(2)`: the sign, `String` of the whole units, "." and exactly the two digits of the cents; reads back as the cents |
| Text.CentsTextOneLine | src/bookings/bookings.service.ts:155 | a price text holds no line break |
| Text.ToLowerIdempotent | src/agent/tools/resolve-datetime.tool.ts:24 | lower-casing twice is lower-casing once |
| Text.LexLeTotal | src/services/services.service.ts:23 | any two names are ordered one way or the other by code points |
| Text.LexLeTransitive | src/services/services.service.ts:23 | the name order is transitive |
| Text.LexLeAntisymmetric | src/services/services.service.ts:23 | two names each ordered before the other are equal |
| Clock.LocalDayStart | src/agent/tools/resolve-datetime.tool.ts:15-19 | local midnight is at or before the instant, less than a day earlier, and on a local day boundary |
| Clock.LocalHours | src/agent/tools/confirm-booking.tool.ts:31 | `getHours()` lies in 0..23 |
| Clock.LocalMinutes | src/agent/tools/confirm-booking.tool.ts:32 | `getMinutes()` lies in 0..59 |
| Clock.SetLocalTimeOwnTime | src/appointments/appointments.service.ts:204-207 | setting an instant's own hours and minutes only drops its seconds and milliseconds |
| Clock.SetLocalTime | src/agent/tools/resolve-datetime.tool.ts:56 | `setHours(h, m, 0, 0)` with an in-range time keeps the local day, reads back as h:m and has no seconds |
| Clock.MidnightPlusTimeReadsBack | src/agent/tools/resolve-datetime.tool.ts:56 | local midnight plus h hours and m minutes keeps that local day and reads back as h:m |
| Clock.DaysLaterIsMidnight | src/agent/tools/resolve-datetime.tool.ts:27 | a whole number of days after local midnight is again local midnight |
| Clock.CivilFromDays | src/agent/tools/confirm-booking.tool.ts:28-30 | the calendar month lies in 1..12 and the day in 1..31; `CivilFromDaysRoundTrip` shows the date is the one that many days after 1970-01-01 |
| Clock.CivilFromDaysRoundTrip | src/agent/tools/confirm-booking.tool.ts:28-30 | the calendar date counts back to the same number of days since 1970-01-01 |
| Clock.CivilEpoch | src/agent/tools/confirm-booking.tool.ts:28-30 | day 0 is 1970-01-01, and 1970-01-01 is day 0 |
| Clock.LocalParts | src/agent/tools/confirm-booking.tool.ts:28-32 | the fields are in range; the date counts exactly the days from 1970-01-01 to the local day of the instant, and the hours and minutes are its local ones |
| Clock.ClockTextRoundTrip | src/appointments/appointments.service.ts:204-205 | an "HH:MM" rendering splits on ':' back into the same hours and minutes |
| Clock.ParseTime | src/appointments/appointments.service.ts:204-205 | `split(':').map(Number)` of two-digit fields gives those two numbers, each below 100 |
| Repositories.Lookup | src/services/services.service.ts:28 | `findOne` by id finds a row exactly when the id is stored, and returns that row |
| Repositories.Repository.Insert | src/services/services.service.ts:43 | `save` of a new row adds it under a fresh id and changes nothing else |
| Repositories.Repository.Save | src/services/services.service.ts:65 | `save` of a stored row replaces it and changes nothing else |
| Repositories.Repository.Remove | src/services/services.service.ts:76 | `remove` deletes that row only |
| Repositories.Repository.DeleteWhere | src/barbers/barbers.service.ts:126 | `delete(criteria)` keeps exactly the rows that do not match |
| Repositories.Repository.FindOne | src/customers/customers.service.ts:38 | returns the row stored under the id, if any |
| Query.SelectOrdered | src/services/services.service.ts:21-24 | `find({ where, order })` returns each matching row once, no other rows, in the requested order |
| Query.ByTextIsTotalPreorder | src/services/services.service.ts:23 | `ORDER BY name ASC` is total and transitive |
| Query.ByIntDescIsTotalPreorder | src/customers/customers.service.ts:24 | `ORDER BY createdAt DESC` is total and transitive |
| Query.AnyOrderIsTotalPreorder | src/barbers/barbers.service.ts:48-51 | a query without ORDER BY may list rows in any order |
| Appointments.FormatTimeFromDate | src/appointments/appointments.service.ts:34-36 | the "HH:MM" text reads back as the instant's local hours and minutes |
| Appointments.NewAppointment | src/appointments/appointments.service.ts:139-155 | the new row is `reserved` and copies the ids and notes; it starts at the given local time on the given date and ends `durationMinutes·60·1000` ms later, so after its start when the duration is at least 1 |
| Appointments.Create | src/appointments/appointments.service.ts:127-159 | an unknown service gives BadRequest; an unknown barber, or a named customer that does not exist, fails the save on its foreign key; both store nothing; otherwise exactly one new row, `NewAppointment`, is added, its keys hold, and the reply is `FindOne` of it |
| Appointments.InsertChecked | src/appointments/appointments.service.ts:139-158 | for a known service, the database inserts exactly the `NewAppointment` row under a fresh id when its keys hold, and otherwise stores nothing and fails with an internal error |
| Appointments.Edited | src/appointments/appointments.service.ts:174-183 | customer, barber, service and notes change only where supplied; times and status are kept |
| Appointments.RescheduledStartAsWritten | src/appointments/appointments.service.ts:202-207 | as written: an in-range time lands on the local day of the supplied date or, by default, of the UTC midnight of the start's UTC date, and reads back as the requested h:m |
| Appointments.RescheduledStart | src/appointments/appointments.service.ts:202-207 | corrected: the same, with the default day being the start's own local day |
| Appointments.RescheduledStartAsWrittenAgreesInUtc | src/appointments/appointments.service.ts:202-207 | on a UTC server the UTC-date default and the local-date default agree |
| Appointments.RescheduledStartAsWrittenShiftsADay | src/appointments/appointments.service.ts:203-207 | at UTC-3, changing only the service of a 10:00 appointment moves it a day earlier as written; the corrected default keeps it |
| Appointments.RescheduledStartKeepsWallClock | src/appointments/appointments.service.ts:202-207 | without a new date or time the corrected reschedule keeps the start, minus seconds |
| Appointments.UpdateOutcome | src/appointments/appointments.service.ts:161-214 | corrected: NotFound for an unknown id and BadRequest for an unknown new service; otherwise success exactly when the edited row's service, barber and customer exist; only supplied fields change, the supplied service included; the status is kept; start and end are recomputed exactly when date, time or service is supplied, with end = start + the duration of the stored service |
| Appointments.UpdateOutcomeAsWritten | src/appointments/appointments.service.ts:165-212 | as written: the same errors; customer, barber and notes change where supplied, but the stored service stays the joined one whenever the old service row exists (a supplied service is stored only when it does not); a reschedule still ends the duration of `Pick(dto.serviceId, …)` after its start; success exactly when the saved row's keys exist |
| Appointments.UpdateOutcomesAgree | src/appointments/appointments.service.ts:165-212 | without a service change, with the same service, or with no joined service, the update as written and the corrected one agree |
| Appointments.ServiceChangeKeptAsWritten | src/appointments/appointments.service.ts:185-212 | an appointment on a 30-minute service updated to a 60-minute one keeps the 30-minute service with a 60-minute slot as written; the corrected update stores the 60-minute service |
| Appointments.Update | src/appointments/appointments.service.ts:161-214 | saves the row of `UpdateOutcomeAsWritten`, only on success, and then replies `FindOne` of it (so the view shows the kept service); otherwise the outcome's error and nothing stored |
| Appointments.EditOutcome | src/appointments/appointments.service.ts:165-210 | the loaded row after the field edits and the reschedule: BadRequest for an unknown new service, an internal error or the edited row with only its times recomputed |
| Appointments.ChangeService | src/appointments/appointments.service.ts:185-200 | an unknown supplied service is a BadRequest; a known one replaces the entity's `serviceId` and the local `service` whose duration sets the end (not the joined `service` relation); without one the row and the joined service are kept |
| Appointments.Edit | src/appointments/appointments.service.ts:165-210 | the steps between loading and saving compute `EditOutcome` |
| Appointments.SaveChecked | src/appointments/appointments.service.ts:212 | `save` takes `service_id` from the joined relation when there is one, and writes that row exactly when its foreign keys hold; otherwise it fails with nothing written |
| Appointments.ApplyFieldEdits | src/appointments/appointments.service.ts:174-182 | copies exactly the supplied customer, barber and notes onto the loaded row (`Edited` without a service change); everything else is kept |
| Appointments.Reschedule | src/appointments/appointments.service.ts:202-210 | with the joined service, the new start is `RescheduledStartAsWritten` and the end lies the service's duration after it; without one it is an internal error |
| Appointments.RescheduledStartReadsOnlyTheStart | src/appointments/appointments.service.ts:203-207 | the field edits cannot move the new start: it depends on the stored row only through its start |
| Appointments.UpdateStatus | src/appointments/appointments.service.ts:216-226 | NotFound for an unknown id; otherwise writes any status, with no transition check, and nothing else, and replies `FindOne` of the row, which shows the new status |
| Appointments.Remove | src/appointments/appointments.service.ts:228-234 | NotFound for an unknown id; otherwise hard-deletes that row only |
| Appointments.ToView | src/appointments/appointments.service.ts:38-73 | the view copies ids, status, notes and date; start and end texts read back as the local times; a customer view (id, name, phone, email) is present iff the relation is; the service view is its id, name, duration and price and the barber view its id, name and specialty |
| Appointments.FindOne | src/appointments/appointments.service.ts:114-125 | NotFound for an unknown id; otherwise the view of that row, dated at its start, when its service and barber exist, and an internal error when they do not |
| Appointments.OnDay | src/appointments/appointments.service.ts:87-96 | the 00:00:00.000–23:59:59.999 window holds exactly the instants on the same local day as the filter date |
| Appointments.MatchesFilters | src/appointments/appointments.service.ts:87-108 | a row matching a date filter is on that local day; no filters match every row |
| Appointments.FindAll | src/appointments/appointments.service.ts:75-112 | exactly the views (`mapToAppointmentWithRelations`) of the rows matching all supplied filters, each once, latest start first; an internal error iff some matching row cannot be mapped |
| Appointments.ViewsOf | src/appointments/appointments.service.ts:111 | `Promise.all` of the mapping: every row's view in order, or an internal error iff some row cannot be mapped |
| Appointments.ViewsOrdered | src/appointments/appointments.service.ts:85 | views taken from rows latest first are latest first, one per appointment |
| Appointments.ViewsCover | src/appointments/appointments.service.ts:110-111 | views of the matching rows are exactly the views of the matching appointments |
| Bookings.FindByName | src/bookings/bookings.service.ts:36-39 | finds a row whose lower-cased name equals the trimmed, lower-cased query iff one exists |
| Bookings.NameMatches | src/bookings/bookings.service.ts:36-39 | a matching name is as long as the trimmed query |
| Bookings.NameMatchesIgnoresCase | src/bookings/bookings.service.ts:36-39 | the query matches whatever its letter case |
| Bookings.NotesOrEmpty | src/bookings/bookings.service.ts:84 | `notes \|\| ''` |
| Bookings.ResolvedEnd | src/bookings/bookings.service.ts:64-76 | a given end is parsed as is; otherwise end = start + `durationMinutes·60000` of the resolved service, and that end is valid exactly when it lies in the `Date` range (`toISOString` throws beyond it) |
| Bookings.NewBooking | src/bookings/bookings.service.ts:78-85 | a row is built iff barber and service are known and both times parse; it is `reserved` with the resolved ids and `notes \|\| ''` |
| Bookings.CreateAppointment | src/bookings/bookings.service.ts:19-103 | names are resolved only when the id is missing; an unmatched barber or service name fails with its code and message and saves nothing; when both resolve, a row that cannot be built gives SCHEDULE_FAILED and otherwise the booking succeeds with exactly the `NewBooking` row added |
| Bookings.CancelledRow | src/bookings/bookings.service.ts:118-122 | status becomes cancelled; with a reason the notes are exactly the old notes (or "") followed by "\nMotivo cancelación: " and the reason; otherwise the notes are kept; nothing else changes |
| Bookings.CancelOutcome | src/bookings/bookings.service.ts:105-126 | three outcomes: not found and already cancelled change nothing; otherwise only that row is replaced by `CancelledRow` |
| Bookings.CancelAppointment | src/bookings/bookings.service.ts:105-126 | replies and leaves the table as `CancelOutcome` says |
| Bookings.CancelIsFinal | src/bookings/bookings.service.ts:114-118 | after a cancel the row is cancelled, and cancelling again replies "already cancelled" and changes nothing |
| Bookings.CancelTouchesOneRow | src/bookings/bookings.service.ts:118-123 | cancelling leaves every other row as it was |
| Bookings.PriceLine | src/bookings/bookings.service.ts:155 | "<name>: $", then exactly `CentsToNumberText(priceCents)`, then " (<durationMinutes> minutos)"; the price reads back as the cents |
| Bookings.PriceLineOneLine | src/bookings/bookings.service.ts:155 | a price line of a name without line breaks is one line |
| Bookings.ToInfo | src/bookings/bookings.service.ts:139-145 | id, name, description and duration are copied; the price reads back as the cents |
| Bookings.InfoReplyFor | src/bookings/bookings.service.ts:133-160 | no active services gives the "no services" text; `services` maps each one; `prices` is text (split back into lines by `PricesReplyLines`); any other type gives the invalid-type text |
| Bookings.PricesReplyLines | src/bookings/bookings.service.ts:151-157 | the `prices` reply split on newlines gives back exactly one `PriceLine` per active service, in order |
| Bookings.GetServices | src/bookings/bookings.service.ts:128-161 | selects exactly the active services, each once, and replies `InfoReplyFor` them |
| Bookings.ToListing | src/bookings/bookings.service.ts:169-175 | id, name, description and duration are copied; `priceArs` is `CentsToFixed2` of the cents and reads back as them |
| Bookings.ListServices | src/bookings/bookings.service.ts:163-176 | exactly the active services, each once, in name order |
| Bookings.ListBarbers | src/bookings/bookings.service.ts:178-189 | exactly the active barbers, each once, in name order, as `{id, name, isAvailable}` |
| Bookings.ToBarberListing | src/bookings/bookings.service.ts:184-188 | id and name copied, `isAvailable` is `isActive` |
| Bookings.CheckStatus | src/bookings/bookings.service.ts:191-238 | a not-found text for a missing appointment or barber, the stored fields otherwise, and the invalid-type text for any other type |
| Tools.TextOrUndefined | src/agent/tools/confirm-booking.tool.ts:127 | a missing name is interpolated as "undefined" |
| ScheduleTool.PendingFor | src/agent/tools/schedule.tool.ts:69-77 | the pending booking holds exactly the supplied ids, names, date text and price, unconfirmed |
| ScheduleTool.StagedContext | src/agent/tools/schedule.tool.ts:68-77 | the pending booking is replaced and `lastMentionedAppointmentId` is kept; a null context starts as `{}` |
| ScheduleTool.SummaryText | src/agent/tools/schedule.tool.ts:90 | the summary names the service, the barber, the formatted date and the price `$<toFixed(2)> ARS` |
| ScheduleTool.SummaryPriceRoundTrip | src/agent/tools/schedule.tool.ts:90 | the price in the summary reads back as the staged cents |
| ScheduleTool.StageOutcome | src/agent/tools/schedule.tool.ts:40-98 | an unknown conversation, a busy slot or a failing check fails and changes nothing; staging succeeds iff the conversation exists and the slot is free, and then only that conversation's context changes; it never books |
| ScheduleTool.Stage | src/agent/tools/schedule.tool.ts:31-99 | replies and leaves the conversations as `StageOutcome` says |
| ScheduleTool.RestageReplacesPending | src/agent/tools/schedule.tool.ts:68-77 | staging again in the same conversation overwrites the pending booking: last write wins |
| ScheduleTool.StageKeepsRestOfConversation | src/agent/tools/schedule.tool.ts:68-79 | messages, user, `lastMentionedAppointmentId` and every other conversation are kept |
| ConfirmBookingTool.FormatDateSpanish | src/agent/tools/confirm-booking.tool.ts:22-35 | exactly "<day> de <month name> de <year> a las <HH:MM>" from the local calendar fields; an invalid date gives "NaN de undefined de NaN a las NaN:NaN" |
| ConfirmBookingTool.FormatDateSpanishReadsBack | src/agent/tools/confirm-booking.tool.ts:22-35 | the text starts with the day and " de "; its date counts the days since 1970-01-01 to the local day; its last five characters are "HH:MM" and read back as the local time |
| ConfirmBookingTool.ConfirmedText | src/agent/tools/confirm-booking.tool.ts:127 | the message names the service, the barber and the formatted date |
| ConfirmBookingTool.RequestFor | src/agent/tools/confirm-booking.tool.ts:88-95 | the scheduling request carries the pending ids, the parsed date text and the customer fields |
| ConfirmBookingTool.ConfirmOutcome | src/agent/tools/confirm-booking.tool.ts:54-136 | each failure (no conversation, nothing pending, missing data, a scheduling error, a refused booking with its message or the default, no id) gives its text and changes nothing; when every check passes it confirms with the new id and the message, clears the pending booking and records the id |
| ConfirmBookingTool.Confirm | src/agent/tools/confirm-booking.tool.ts:48-137 | replies and leaves the conversations as `ConfirmOutcome` says |
| BookingFlow.StagedBookingConfirms | src/agent/tools/confirm-booking.tool.ts:68-128 | a booking just staged, when scheduling succeeds, is confirmed with that id and a message naming the service and barber |
| BookingFlow.ConfirmConsumesPending | src/agent/tools/confirm-booking.tool.ts:68-118 | a second confirm right after a successful one fails with "no pending booking" and changes nothing |
| BookingFlow.EmptyDateIsNotConfirmable | src/agent/tools/confirm-booking.tool.ts:79-85 | a booking staged with an empty date text fails the missing-data check |
| ResolveDatetime.DayAfterTomorrowMentionsTomorrow | src/agent/tools/resolve-datetime.tool.ts:26-32 | text that mentions the day after tomorrow also mentions tomorrow |
| ResolveDatetime.DayOffsetAsWritten | src/agent/tools/resolve-datetime.tool.ts:26-34 | as written: +1 iff tomorrow is mentioned (also by "pasado mañana"), 0 iff only today is, none iff neither is |
| ResolveDatetime.DayOffsetAsWrittenNeverTwo | src/agent/tools/resolve-datetime.tool.ts:26-32 | as written, the +2 branch is never taken |
| ResolveDatetime.PasadoMananaIsTomorrowAsWritten | src/agent/tools/resolve-datetime.tool.ts:26-27 | as written, "pasado mañana 10:00" resolves to tomorrow |
| ResolveDatetime.DayOffset | src/agent/tools/resolve-datetime.tool.ts:24-34 | +2 iff the day after tomorrow is mentioned, +1 iff only tomorrow is, 0 iff only today is, none otherwise |
| ResolveDatetime.DayOffsetAgreesAsWritten | src/agent/tools/resolve-datetime.tool.ts:26-34 | without the day-after-tomorrow phrases, the corrected offsets are those as written |
| ResolveDatetime.PeriodAt | src/agent/tools/resolve-datetime.tool.ts:44 | `am`/`pm` is matched case-insensitively |
| ResolveDatetime.MatchAt | src/agent/tools/resolve-datetime.tool.ts:44 | a match has one- or two-digit hours and two-digit minutes |
| ResolveDatetime.FirstMatchIndex | src/agent/tools/resolve-datetime.tool.ts:44 | the leftmost position where the pattern matches, or none if there is none |
| ResolveDatetime.FirstTimeMatch | src/agent/tools/resolve-datetime.tool.ts:44-45 | the first match has hours and minutes below 100 |
| ResolveDatetime.NoDigitNoTime | src/agent/tools/resolve-datetime.tool.ts:44-45 | text without digits has no time |
| ResolveDatetime.ClockTextMatches | src/agent/tools/resolve-datetime.tool.ts:44-48 | an "HH:MM" text is matched as those hours and minutes |
| ResolveDatetime.ConvertHour | src/agent/tools/resolve-datetime.tool.ts:50-54 | no period keeps the hours; for 1..12 the result is below 24, the same modulo 12, and afternoon iff `pm` |
| ResolveDatetime.RequestedTime | src/agent/tools/resolve-datetime.tool.ts:43-60 | the converted matched time, or 15:00 when there is no match |
| Clock.TimeClip | src/agent/tools/resolve-datetime.tool.ts:66 | an instant outside the `Date` range is invalid, and `toISOString` then fails |
| ResolveDatetime.TargetDay | src/agent/tools/resolve-datetime.tool.ts:15-41 | today's local midnight for "hoy", that moved by the offset as written for a keyword, and otherwise the parsed date or today |
| ResolveDatetime.ResolveOutcome | src/agent/tools/resolve-datetime.tool.ts:9-81 | resolved exactly when the zone (default Cordoba) is valid, `TargetDay` gives a day and the requested time on it is an instant a `Date` holds; then it echoes the text and the zone and is `setHours` of that time on that day, formatted in that zone; otherwise the fixed error text |
| ResolveDatetime.ParsedDateResolves | src/agent/tools/resolve-datetime.tool.ts:34-39 | a text with no day keyword that the date parser reads resolves, in a known zone, to the parsed date at the requested time |
| ResolveDatetime.PickDay | src/agent/tools/resolve-datetime.tool.ts:21-41 | the if/else chain, tomorrow first, computes `TargetDay` |
| ResolveDatetime.PickTime | src/agent/tools/resolve-datetime.tool.ts:44-60 | the hours and minutes set are `RequestedTime` |
| ResolveDatetime.Resolve | src/agent/tools/resolve-datetime.tool.ts:9-81 | replies `ResolveOutcome`, the tool as written |
| ResolveDatetime.DefaultTimeIsThreePm | src/agent/tools/resolve-datetime.tool.ts:57-60 | without a time in the text the result is 15:00:00.000 local |
| ResolveDatetime.KeywordPicksTheDay | src/agent/tools/resolve-datetime.tool.ts:26-56 | a keyword moves today's local midnight by its day offset as written (+1 for any text mentioning tomorrow), at the requested local time |
| ResolveDatetime.UnparsableKeepsToday | src/agent/tools/resolve-datetime.tool.ts:35-40 | text that is neither a keyword nor a date resolves on today instead of failing |
| ResolveDatetime.KeywordResolves | src/agent/tools/resolve-datetime.tool.ts:26-66 | with a keyword, an in-range time, a valid zone and a clock away from the end of the `Date` range, the tool resolves |
| ResolveDatetime.KeywordTargetDay | src/agent/tools/resolve-datetime.tool.ts:26-32 | a day keyword moves today by its number of days when that stays in the `Date` range |
| Services.FindAll | src/services/services.service.ts:14-18 | every service once, newest first |
| Services.FindActive | src/services/services.service.ts:20-25 | exactly the active services, each once, by name ascending |
| Services.FindOne | src/services/services.service.ts:27-33 | the stored service, or NotFound |
| Services.NewService | src/services/services.service.ts:35-42 | `duration` becomes `durationMinutes` and `price` becomes `priceCents`; the service is active and well-formed |
| Services.Create | src/services/services.service.ts:35-44 | adds exactly `NewService` under a fresh id and keeps every row well-formed |
| Services.Updated | src/services/services.service.ts:46-66 | the five updatable fields change only where supplied; `createdAt` is kept |
| Services.UpdateWithNothingKeepsService | src/services/services.service.ts:46-66 | an empty update is the identity |
| Services.UpdateIsIdempotent | src/services/services.service.ts:46-66 | applying an update twice is applying it once |
| Services.UpdateKeepsWellFormed | src/services/dto/service.dto.ts:29-37 | a validated update keeps duration ≥ 1 and price ≥ 0 |
| Services.Update | src/services/services.service.ts:46-66 | NotFound for an unknown id; otherwise saves `Updated` and changes nothing else |
| Services.ApplyFieldEdits | src/services/services.service.ts:49-63 | copies exactly the supplied name, description, duration, price and active flag onto the loaded service (`Updated`) |
| Services.Toggled | src/services/services.service.ts:68-72 | negates `isActive` and keeps every other field |
| Services.ToggleTwiceRestores | src/services/services.service.ts:70 | toggling twice restores the service |
| Services.ToggleActive | src/services/services.service.ts:68-72 | NotFound for an unknown id; otherwise saves `Toggled` |
| Services.Remove | src/services/services.service.ts:74-77 | NotFound for an unknown id; a service some appointment books is kept and the delete fails (the appointments' foreign key); otherwise deletes that row only; no appointment is left naming a deleted service |
| Customers.WithStats | src/customers/customers.service.ts:28-34 | the customer with every statistic zero and no favourite services |
| Customers.FindAll | src/customers/customers.service.ts:22-35 | every customer once, with zeroed statistics, newest first |
| Customers.FindOne | src/customers/customers.service.ts:37-52 | the customer with zeroed statistics, or NotFound |
| Customers.FindByPhone | src/customers/customers.service.ts:54-56 | some customer with that phone, or none iff no customer has it |
| Customers.NewCustomer | src/customers/customers.service.ts:58-66 | copies name, phone, email and notes |
| Customers.Create | src/customers/customers.service.ts:58-66 | adds exactly `NewCustomer` under a fresh id |
| Customers.Updated | src/customers/customers.service.ts:75-86 | the four fields change only where supplied; `createdAt` is kept |
| Customers.UpdateWithNothingKeepsCustomer | src/customers/customers.service.ts:75-86 | an empty update is the identity |
| Customers.UpdateIsIdempotent | src/customers/customers.service.ts:75-86 | applying an update twice is applying it once |
| Customers.Update | src/customers/customers.service.ts:68-89 | NotFound for an unknown id; otherwise saves `Updated` and changes nothing else |
| Customers.ApplyFieldEdits | src/customers/customers.service.ts:75-86 | copies exactly the supplied name, phone, email and notes onto the loaded customer (`Updated`) |
| Customers.Remove | src/customers/customers.service.ts:91-97 | NotFound for an unknown id; a customer some appointment names is kept and the delete fails; otherwise deletes that row only; no appointment is left naming a deleted customer |
| Barbers.ScheduleOf | src/barbers/barbers.service.ts:125-126 | the ids of exactly the schedule rows naming the barber |
| Barbers.FindAll | src/barbers/barbers.service.ts:24-37 | every barber once, newest first, each with all its schedule rows and zeroed statistics |
| Barbers.FindActive | src/barbers/barbers.service.ts:39-45 | exactly the active barbers, each once, by name ascending |
| Barbers.FindOne | src/barbers/barbers.service.ts:47-64 | NotFound for an unknown id; otherwise the barber, each of its schedule rows once, and zeroed statistics |
| Barbers.NewBarber | src/barbers/barbers.service.ts:67-73 | copies the four fields; the barber is active |
| Barbers.InsertSlots | src/barbers/barbers.service.ts:78-88 | one new row per slot, in order, for the barber; every older row is kept |
| Barbers.Create | src/barbers/barbers.service.ts:66-94 | adds the active barber and one schedule row per slot (none for an empty list); keeps every schedule row owned by a stored barber |
| Barbers.CreatedScheduleIsTheSlots | src/barbers/barbers.service.ts:78-88 | a new barber's schedule is exactly the rows created for it |
| Barbers.Updated | src/barbers/barbers.service.ts:106-120 | name, phone, email, specialty and `isActive` change only where supplied |
| Barbers.UpdateIsIdempotent | src/barbers/barbers.service.ts:106-120 | applying an update twice is applying it once |
| Barbers.Update | src/barbers/barbers.service.ts:96-142 | NotFound for an unknown id changes nothing; otherwise saves `Updated`; a supplied schedule (even empty) makes the barber's schedule exactly the new rows, keeps other barbers' rows and adds no other row; an absent one leaves the schedule table alone |
| Barbers.ApplyFieldEdits | src/barbers/barbers.service.ts:106-120 | copies exactly the supplied name, phone, email, specialty and active flag onto the loaded barber (`Updated`) |
| Barbers.Toggled | src/barbers/barbers.service.ts:154 | negates `isActive` and keeps every other field |
| Barbers.ToggleTwiceRestores | src/barbers/barbers.service.ts:154 | toggling twice restores the barber |
| Barbers.ToggleActive | src/barbers/barbers.service.ts:144-156 | NotFound for an unknown id; otherwise saves `Toggled` |
| Barbers.Remove | src/barbers/barbers.service.ts:158-164 | NotFound for an unknown id; a barber some appointment books is kept, with its schedule, and the delete fails; otherwise deletes the barber and, by cascade, exactly its schedule rows; keeps every schedule row owned by a stored barber; no appointment is left naming a deleted barber |
| Table.Field | apps/web/src/components/kibo-ui/table.tsx:65-66 | `row[key]` is undefined when no field has that name, and otherwise a field of that name |
| Table.ToText | apps/web/src/components/kibo-ui/table.tsx:57 | `String(v)` of a text is the text and of a natural is its decimal digits |
| Table.SplitOfTwo | apps/web/src/components/kibo-ui/table.tsx:92 | "a.b" splits into a and b |
| Table.PathConcat | apps/web/src/components/kibo-ui/table.tsx:94-96 | walking a path in two pieces is walking it whole |
| Table.PathFromUndefined | apps/web/src/components/kibo-ui/table.tsx:95 | `?.` keeps undefined once it is reached |
| Table.GetValue | apps/web/src/components/kibo-ui/table.tsx:91-98 | the loop computes `ValueAt`: the value at the dotted path |
| Table.ValueAtPlainKey | apps/web/src/components/kibo-ui/table.tsx:91-98 | for a key without dots `getValue` is `row[key]` |
| Table.ValueAtNested | apps/web/src/components/kibo-ui/table.tsx:91-98 | "outer.inner" reads the inner field of the outer object |
| Table.Keep | apps/web/src/components/kibo-ui/table.tsx:55-59 | keeps exactly the rows some value of which contains the search text, no more rows than given |
| Table.KeepConcat | apps/web/src/components/kibo-ui/table.tsx:55-59 | filtering preserves order: it distributes over concatenation |
| Table.FilteredData | apps/web/src/components/kibo-ui/table.tsx:52-60 | an empty search keeps the data; otherwise `Keep` of the lower-cased search: exactly the matching rows, in their order |
| Table.ObjectSearchKeepsNestedRows | apps/web/src/components/kibo-ui/table.tsx:56-57 | a row with a nested object matches the search "object", via "[object Object]" |
| Table.NullsLast | apps/web/src/components/kibo-ui/table.tsx:67-69 | equal blanks compare 0; a blank sorts after every other value, in both directions |
| Table.ToNumber | apps/web/src/components/kibo-ui/table.tsx:70 | a number is itself; a text of digits is its value; null is a number and undefined is not |
| Table.Less | apps/web/src/components/kibo-ui/table.tsx:70 | texts compare by code points and numbers numerically |
| Table.Compare | apps/web/src/components/kibo-ui/table.tsx:64-72 | -1, 0 or 1; 0 iff `===`; a blank first gives 1 and a blank second gives -1; otherwise -1 iff `<` agrees with the direction |
| Table.DescNegatesOnlyValues | apps/web/src/components/kibo-ui/table.tsx:67-71 | descending negates the comparison of two values and not the placement of blanks |
| Table.NullAndUndefinedBothLast | apps/web/src/components/kibo-ui/table.tsx:67-69 | null and undefined each claim to go after the other |
| Table.TextOrder | apps/web/src/components/kibo-ui/table.tsx:70-71 | texts sort by code points, reversed when descending |
| Table.NumberOrder | apps/web/src/components/kibo-ui/table.tsx:70-71 | numbers sort numerically, reversed when descending |
| Table.ColumnIsTotalPreorder | apps/web/src/components/kibo-ui/table.tsx:64-72 | on a column of texts or numbers with one kind of blank the comparator is total and transitive |
| Table.Insert | apps/web/src/components/kibo-ui/table.tsx:64 | inserting adds exactly one element |
| Table.Sort | apps/web/src/components/kibo-ui/table.tsx:64 | `sort` permutes the rows |
| Table.SortSorted | apps/web/src/components/kibo-ui/table.tsx:64-72 | with a total preorder the result is ordered |
| Table.SortByMissingKeyKeepsOrder | apps/web/src/components/kibo-ui/table.tsx:62-73 | sorting by a key that no row holds at top level leaves the rows as they were |
| Table.DottedKeyNeverSortsAsWritten | apps/web/src/components/kibo-ui/table.tsx:62-73 | as written, sorting by a dotted key never reorders rows whose field names have no dots |
| Table.SortedDataAsWritten | apps/web/src/components/kibo-ui/table.tsx:62-73 | as written, by `a[sortKey]`: a permutation; without a key or a direction, the rows as they were |
| Table.SortedData | apps/web/src/components/kibo-ui/table.tsx:62-73 | the corrected sort, by the dotted path: a permutation; without a key or a direction, the rows as they were |
| Table.SortedDataAgreesOnPlainKeys | apps/web/src/components/kibo-ui/table.tsx:62-73 | for keys without dots the corrected sort is the sort as written |
| Table.AfterBlankIsBlank | apps/web/src/components/kibo-ui/table.tsx:68-69 | only a blank may follow a blank |
| Table.SortedDataOrdersColumn | apps/web/src/components/kibo-ui/table.tsx:62-73 | on a column of texts or numbers the result is a permutation ordered by the column, blanks last |
| Table.ColumnRowsArePreordered | apps/web/src/components/kibo-ui/table.tsx:64-72 | rows compared by such a column are totally preordered |
| Table.NestedColumnSortsOnlyThroughGetValue | apps/web/src/components/kibo-ui/table.tsx:65-66 | on two rows out of order by "outer.inner", the sort as written keeps them and the corrected sort swaps them |
| Table.TotalPages | apps/web/src/components/kibo-ui/table.tsx:75 | `ceil(n / pageSize)`: the pages hold all rows, and no page is empty |
| Table.PageRows | apps/web/src/components/kibo-ui/table.tsx:76 | at most `pageSize` rows, all from the data; none past the end |
| Table.PageSizes | apps/web/src/components/kibo-ui/table.tsx:75-76 | every page before the last is full and the last is not empty |
| Table.PagesArePrefix | apps/web/src/components/kibo-ui/table.tsx:76 | the first k pages together are the first k·pageSize rows |
| Table.PagesCoverRows | apps/web/src/components/kibo-ui/table.tsx:75-76 | all pages together are exactly the rows, in order |
| Table.PageKeepsOrder | apps/web/src/components/kibo-ui/table.tsx:76 | a page of rows in a column's order is in that order |
| Table.RangeShownCountsThePage | apps/web/src/components/kibo-ui/table.tsx:194 | "Mostrando a-b" counts exactly the rows on the page |
| Table.ShowsPaginationWhenRowsOverflow | apps/web/src/components/kibo-ui/table.tsx:191 | the controls show iff there are more rows than one page holds |
| Table.NextPageHasRows | apps/web/src/components/kibo-ui/table.tsx:216-220 | while "next" is enabled, the next page holds rows |
| Table.NextSort | apps/web/src/components/kibo-ui/table.tsx:78-89 | a new key sorts ascending; the same key goes from ascending to descending and from descending to unsorted; key and direction stay set together |
| Table.ThreeClicksUnsort | apps/web/src/components/kibo-ui/table.tsx:78-89 | three clicks on a new column give ascending, descending, then unsorted |
| Table.DataTable.constructor | apps/web/src/components/kibo-ui/table.tsx:47-50 | page 0, empty search, no sort |
| Table.DataTable.Shown | apps/web/src/components/kibo-ui/table.tsx:52-76 | the rows on screen are page `page` (`PageRows`) of the sort as written of the matching rows, a permutation of them; unsorted, the page of the matching rows in data order; at most `pageSize` rows, each from the data and matching the search |
| Table.DataTable.HandleSort | apps/web/src/components/kibo-ui/table.tsx:78-89 | the new sort state is `NextSort` of the old one; page and search stay |
| Table.DataTable.SetSearch | apps/web/src/components/kibo-ui/table.tsx:109-111 | changing the search resets the page to 0 |
| Table.DataTable.ClickFirst | apps/web/src/components/kibo-ui/table.tsx:197-201 | goes to page 0 unless disabled or hidden |
| Table.DataTable.ClickPrev | apps/web/src/components/kibo-ui/table.tsx:205-209 | goes back one page unless on page 0 or hidden |
| Table.DataTable.ClickNext | apps/web/src/components/kibo-ui/table.tsx:216-220 | goes forward one page unless on the last page or hidden, and stays within the pages |
| Table.DataTable.ClickLast | apps/web/src/components/kibo-ui/table.tsx:224-228 | goes to the last page unless already there or hidden |
| Table.ShownInColumnOrder | apps/web/src/components/kibo-ui/table.tsx:52-76 | sorted by a top-level column of texts or numbers, the rows on screen are in the column's order for the direction, blanks last |

## Left out

- The availability check and `scheduleAppointment` are called but have no body in these sources. They are the parameters `available` and `schedule`, and no overlap rule is assumed.
- `new Date(text)` parsing, `toLocaleString` and `toTimeString` locale formatting, and time-zone names are the parameters `parse`, `localeFormat` and `validZone`. `formatTimeFromDate` is modelled by its "HH:MM" prefix, read in the fixed local zone.
- Local time is UTC plus a fixed offset. Daylight-saving changes are not modelled.
- `ILike` is modelled as equality after lower-casing and trimming. The `%` and `_` wildcards are not modelled.
- `toLowerCase` covers ASCII and Latin-1 only. Lengths and indices are counted in code points, not UTF-16 units.
- JSON text: `JSON.stringify` replies are modelled as datatypes, not as the characters they print.
- Database error messages are not modelled. A thrown exception is one `Error` value or the tool's fixed failure text.
- Uuids are naturals and `createdAt` is the `now` parameter. The `updatedAt` columns are not modelled.
- Concurrency between requests is not modelled. Each operation runs atomically.
- Bookings.CreateAppointment: a barber name is looked up through `displayName`, which is not a column of the barber entity; TypeORM's `find` would reject that criterion, so as written a booking by barber name ends in SCHEDULE_FAILED. The model resolves the name against `name` instead.
- Bookings.ListBarbers: ordering by and reading `displayName`, which the barber entity lacks, would make the query fail as written; the model orders by and reports `name`.
- Bookings.CheckStatus: for a barber the source reads `displayName`, which is undefined, so the JSON has no `name` key; the model reports the barber's `name`.
- Customers.Create: the customer entity's columns are `fullName`, `phone`, `email` and `createdAt`. TypeORM's `create` drops `name` and `notes`, which are not columns, and the NOT NULL `full_name` stays empty, so every create fails as written. The model stores a record with `name` and `notes` and the create succeeds.
- Customers.Update: `name` and `notes` are not columns, so as written `save` never stores them; the model stores them.
- Customers.NewCustomer: the record follows the fields the customers service writes (`name`, `phone`, `email`, `notes`), not the entity's `fullName`.
- Appointments.ToView: the customer's `name` is read from the customer record; the source reads `customer.name`, which the entity lacks (`fullName`), so that field is undefined as written.
- The customer fields of `createAppointment`'s input are accepted and ignored, as in the source.
- Bookings.CreateAppointment: SCHEDULE_FAILED is returned as `Failed(ScheduleFailed, None)` whenever the row cannot be stored (a missing or unknown id, an Invalid Date). The database's error text, which the source puts in `error`, is not modelled.
- `ORDER BY name` uses the database's collation; the model orders names by code points (`LexLe`).
- Barbers.FindActive: returns the barber rows without the schedule rows that the eager relation attaches.
- Services.Remove, Customers.Remove, Barbers.Remove: the delete of a row an appointment still references is refused by the appointments' foreign keys, which have no ON DELETE rule. This holds when the schema is generated from the entities; a schema without those constraints would delete the row and leave the appointments dangling, which the model does not cover.
- Appointments.Create, Appointments.UpdateOutcome, Appointments.UpdateOutcomeAsWritten: a broken foreign key is refused by the database on save, so nothing is stored. Under a schema without the constraints the row would be stored and the following `findOne` would throw on the missing barber or service; the model does not cover that schema.
- Appointments.UpdateOutcomeAsWritten, Appointments.SaveChecked: every key of the saved row is checked. The database checks only the key columns the `UPDATE` changes; the two differ only for a row whose unchanged key already dangles, which the foreign keys prevent.
- Text.CentsToFixed2, ScheduleTool.SummaryText: the price is printed exactly. The source divides a JavaScript number by 100, so an agent-supplied price above about 7·10^15 cents prints rounded digits, and from 10^21 units `toFixed` switches to exponent form; the model's integers are unbounded and have neither effect.
- Services.Updated, Customers.Updated, Barbers.Updated, Appointments.Edited: the DTO fields are `Option`s whose `None` is "not supplied". An explicit `null` passes `@IsOptional` and is `!== undefined`, so the source writes it: it clears a nullable column and makes the save fail on a NOT NULL one (`name`, `duration_minutes`, `price_cents`, `is_active`). The model has no value for an explicit null.
- Barbers.Update: an explicit `null` schedule deletes the barber's schedule rows and then throws on `.map`, after the barber was saved. The model treats it as an absent schedule.
- Appointments.Create, Appointments.Edited: `startTime` is a `TimeOfDay`. The source accepts any string: `split(':').map(Number)` of a text that is not "H:M" gives NaN, `setHours` yields an Invalid Date and the save fails.
- Services.Create, Services.Updated: `price_cents` and `duration_minutes` are 32-bit `int` columns. The model's integers are unbounded, while the database rejects values above 2147483647.
- `WorkSlot` times are plain text. The DTO's "HH:mm" validation is not modelled.
- `getValue` on a primitive or an array: reading a property of a string, number or array value is undefined in the model. JavaScript gives `length` and indices.
- Table.Less: `ToNumber` reads only unsigned decimal integers. Signs, fractions, exponents and surrounding white space are not modelled.
- Table.Compare: objects and arrays are never `===` to each other, even when they are the same reference.
- Table.Sort: JavaScript's `sort` is stable, but its order is implementation-defined when the comparator is not a preorder, for example for mixed kinds. The model is one stable insertion sort.
- Table.TotalPages: requires `pageSize` ≥ 1. The default is 10 and no caller passes another size.
- Rendering, icons, CSS classes and the row-click callback of the table are not modelled.

## Findings

| source | as written | input that shows it | evidently intended | confidence | as-written member | corrected member |
|---|---|---|---|---|---|---|
| src/agent/tools/resolve-datetime.tool.ts:26-32 | the "mañana"/"tomorrow" test runs first, so text that says "pasado mañana" or "day after tomorrow" also matches it and the +2 branch is unreachable | "pasado mañana 10:00" resolves to tomorrow | the day after tomorrow is today + 2 | not executed | ResolveDatetime.PasadoMananaIsTomorrowAsWritten | ResolveDatetime.DayOffset |
| apps/web/src/components/kibo-ui/table.tsx:65-66 | the comparator reads `a[sortKey]`, while cells read `getValue(row, key)` along the dotted path; the appointments table declares sortable columns "customer.name", "service.name", "barber.name" and "service.price" | two rows with `service.name` "B" then "A", sorted ascending by "service.name", stay in that order | sort by the value the column shows | not executed | Table.NestedColumnSortsOnlyThroughGetValue | Table.SortedData |
| src/appointments/appointments.service.ts:165-212 | the row is loaded with its `service` relation, whose join column `service_id` is also the `serviceId` column; a new service is written only to `serviceId` and to a local variable, and `save` reads `service_id` from the joined relation, so the old service is stored while the end is recomputed from the new one | an appointment on a 30-minute service updated with the id of a 60-minute one keeps the 30-minute service and gets a 60-minute slot | store the supplied service | not executed | Appointments.ServiceChangeKeptAsWritten | Appointments.UpdateOutcome |
| src/appointments/appointments.service.ts:203-207 | when no new date is given, the default date is the `YYYY-MM-DD` of `toISOString()`; `new Date` reads that text as UTC midnight, and `setHours` then sets the local time on the local day of that instant, which west of UTC is the day before | on a server at UTC-3, an appointment at 10:00 local (13:00 UTC) whose service alone is changed moves to 10:00 the previous day | keep the appointment's own local date | not executed | Appointments.RescheduledStartAsWrittenShiftsADay | Appointments.RescheduledStartKeepsWallClock |

=== FILE: appointments.dfy ===
/**
 * The appointment store behind the dashboard: create, read, edit, change status and
 * delete appointments (src/appointments/appointments.service.ts).
 */
module Appointments {
  import opened Common
  import opened Clock
  import opened Entities
  import opened Repositories
  import opened Query
  import opened Text

  datatype CreateAppointmentDto = CreateAppointmentDto(
    customerId: Option<Id>,
    barberId: Id,
    serviceId: Id,
    date: Timestamp,          // `new Date(dto.date)`
    startTime: TimeOfDay,
    notes: Option<string>)

  datatype UpdateAppointmentDto = UpdateAppointmentDto(
    customerId: Option<Id>,
    barberId: Option<Id>,
    serviceId: Option<Id>,
    date: Option<Timestamp>,
    startTime: Option<TimeOfDay>,
    notes: Option<string>)

  datatype Filters = Filters(date: Option<Timestamp>, barberId: Option<Id>, status: Option<Status>)

  datatype CustomerView = CustomerView(id: Id, name: string, phone: Option<string>, email: Option<string>)
  datatype ServiceView = ServiceView(id: Id, name: string, duration: int, price: int)
  datatype BarberView = BarberView(id: Id, name: string, specialty: Option<string>)

  /** `AppointmentWithRelations`: a row joined with its customer, service and barber. */
  datatype AppointmentView = AppointmentView(
    id: Id,
    customerId: Option<Id>,
    customer: Option<CustomerView>,
    serviceId: Id,
    service: ServiceView,
    barberId: Id,
    barber: BarberView,
    date: Timestamp,
    startTime: string,
    endTime: string,
    status: Status,
    notes: Option<string>)

  // ---------------------------------------------------------------------
  // Wall-clock helpers

  /** `formatTimeFromDate`: the "HH:MM" at the head of `toTimeString()`. */
  function FormatTimeFromDate(t: Timestamp, offset: int): (s: string)
    ensures IsTimeText(s)
    ensures ParseTime(s) == TimeOfDay(LocalHours(t, offset), LocalMinutes(t, offset))
  {
    ClockTextRoundTrip(LocalHours(t, offset), LocalMinutes(t, offset));
    ClockText(LocalHours(t, offset), LocalMinutes(t, offset))
  }

  // ---------------------------------------------------------------------
  // create

  /** The row `create` inserts for `dto`, given the service it books. */
  function NewAppointment(dto: CreateAppointmentDto, service: Service, offset: int): (a: Appointment)
    ensures a.status == Reserved
    ensures a.customerId == dto.customerId && a.barberId == dto.barberId
    ensures a.serviceId == dto.serviceId && a.notes == dto.notes
    ensures a.startsAt == SetLocalTime(dto.date, offset, dto.startTime.hours, dto.startTime.minutes)
    ensures a.endsAt - a.startsAt == service.durationMinutes * 60 * 1000
    ensures service.durationMinutes >= 1 ==> a.endsAt > a.startsAt
  {
    var startsAt := SetLocalTime(dto.date, offset, dto.startTime.hours, dto.startTime.minutes);
    Appointment(dto.customerId, dto.barberId, dto.serviceId, startsAt,
                startsAt + service.durationMinutes * MinuteMs, Reserved, dto.notes)
  }

  /**
   * The row's foreign keys hold: its service and barber exist, and so does its customer
   * when it names one. The database refuses to save a row that breaks one of them.
   */
  predicate KeysExist(a: Appointment, customers: map<Id, Customer>, services: map<Id, Service>,
                      barbers: map<Id, Barber>)
  {
    && a.serviceId in services && a.barberId in barbers
    && (a.customerId.Some? ==> a.customerId.value in customers)
  }

  /**
   * `create`: BadRequest for an unknown service; an unknown barber, or a named customer
   * that does not exist, makes the save fail on its foreign key, with nothing stored;
   * otherwise exactly the new row is added and `findOne` of it is returned.
   */
  method Create(appointments: Repository<Appointment>, services: Repository<Service>,
                customers: map<Id, Customer>, barbers: map<Id, Barber>,
                dto: CreateAppointmentDto, offset: int) returns (r: Result<AppointmentView>)
    requires appointments.Valid()
    modifies appointments
    ensures appointments.Valid()
    ensures dto.serviceId !in services.rows ==>
              r == Err(BadRequest) && appointments.rows == old(appointments.rows)
    ensures dto.serviceId in services.rows
            && (dto.barberId !in barbers || (dto.customerId.Some? && dto.customerId.value !in customers)) ==>
              r == Err(Internal) && appointments.rows == old(appointments.rows)
    ensures dto.serviceId in services.rows && dto.barberId in barbers
            && (dto.customerId.Some? ==> dto.customerId.value in customers) ==>
              && r.Ok? && r.value.id !in old(appointments.rows)
              && appointments.rows
                 == old(appointments.rows)[r.value.id := NewAppointment(dto, services.rows[dto.serviceId], offset)]
              && r == FindOne(appointments.rows, customers, services.rows, barbers, r.value.id, offset)
    ensures r.Ok? ==> KeysExist(appointments.rows[r.value.id], customers, services.rows, barbers)
  {
    var service := services.FindOne(dto.serviceId);
    if service.None? {
      return Err(BadRequest);
    }
    var inserted := InsertChecked(appointments, customers, services.rows, barbers, dto, service.value, offset);
    if inserted.Err? {
      return Err(inserted.error);
    }
    r := FindOne(appointments.rows, customers, services.rows, barbers, inserted.value, offset);
  }

  /**
   * The `create` and `save` steps of `create` for a known service: the database inserts
   * the new row exactly when its foreign keys hold.
   */
  method InsertChecked(appointments: Repository<Appointment>, customers: map<Id, Customer>,
                       services: map<Id, Service>, barbers: map<Id, Barber>,
                       dto: CreateAppointmentDto, service: Service, offset: int) returns (r: Result<Id>)
    requires appointments.Valid()
    modifies appointments
    ensures appointments.Valid()
    ensures var a := NewAppointment(dto, service, offset);
            && (KeysExist(a, customers, services, barbers) ==>
                  && r.Ok? && r.value !in old(appointments.rows)
                  && appointments.rows == old(appointments.rows)[r.value := a])
            && (!KeysExist(a, customers, services, barbers) ==>
                  r == Err(Internal) && appointments.rows == old(appointments.rows))
  {
    var startsAt := SetLocalTime(dto.date, offset, dto.startTime.hours, dto.startTime.minutes);
    var endsAt := startsAt + service.durationMinutes * 60 * 1000;
    var appointment := Appointment(dto.customerId, dto.barberId, dto.serviceId, startsAt, endsAt,
                                   Reserved, dto.notes);
    if !KeysExist(appointment, customers, services, barbers) {
      return Err(Internal);
    }
    var id := appointments.Insert(appointment);
    r := Ok(id);
  }

  // ---------------------------------------------------------------------
  // update

  /** Date, start time or service supplied: the update moves the appointment. */
  predicate NeedsReschedule(dto: UpdateAppointmentDto) {
    dto.date.Some? || dto.startTime.Some? || dto.serviceId.Some?
  }

  /** The plain field edits: only the supplied ones take effect. */
  function Edited(a: Appointment, dto: UpdateAppointmentDto): (e: Appointment)
    ensures e.customerId == (if dto.customerId.Some? then dto.customerId else a.customerId)
    ensures e.barberId == Pick(dto.barberId, a.barberId)
    ensures e.serviceId == Pick(dto.serviceId, a.serviceId)
    ensures e.notes == (if dto.notes.Some? then dto.notes else a.notes)
    ensures e.startsAt == a.startsAt && e.endsAt == a.endsAt && e.status == a.status
  {
    a.(customerId := if dto.customerId.Some? then dto.customerId else a.customerId,
       barberId := Pick(dto.barberId, a.barberId),
       serviceId := Pick(dto.serviceId, a.serviceId),
       notes := if dto.notes.Some? then dto.notes else a.notes)
  }

  /** The wall-clock time a reschedule asks for: the new start time, else the current local one. */
  function RequestedTime(a: Appointment, dto: UpdateAppointmentDto, offset: int): TimeOfDay {
    if dto.startTime.Some? then dto.startTime.value
    else TimeOfDay(LocalHours(a.startsAt, offset), LocalMinutes(a.startsAt, offset))
  }

  /**
   * The new start as the source computes it: the date defaults to the UTC calendar date
   * of `toISOString()`, re-read as UTC midnight, while the time defaults to the local
   * "HH:MM"; `setHours` then applies that local time on the local day of the UTC midnight.
   */
  function RescheduledStartAsWritten(a: Appointment, dto: UpdateAppointmentDto, offset: int): (r: Timestamp)
    ensures var t := RequestedTime(a, dto, offset);
            0 <= t.hours < 24 && 0 <= t.minutes < 60 ==>
              && LocalDayStart(r, offset)
                 == LocalDayStart(if dto.date.Some? then dto.date.value else LocalDayStart(a.startsAt, 0), offset)
              && LocalHours(r, offset) == t.hours && LocalMinutes(r, offset) == t.minutes
  {
    var day := if dto.date.Some? then dto.date.value else LocalDayStart(a.startsAt, 0);
    var time := if dto.startTime.Some? then dto.startTime.value
                else ParseTime(FormatTimeFromDate(a.startsAt, offset));
    SetLocalTime(day, offset, time.hours, time.minutes)
  }

  /** The new start with the date defaulting to the appointment's own local day. */
  function RescheduledStart(a: Appointment, dto: UpdateAppointmentDto, offset: int): (r: Timestamp)
    ensures var t := RequestedTime(a, dto, offset);
            0 <= t.hours < 24 && 0 <= t.minutes < 60 ==>
              && LocalDayStart(r, offset) == LocalDayStart(if dto.date.Some? then dto.date.value else a.startsAt, offset)
              && LocalHours(r, offset) == t.hours && LocalMinutes(r, offset) == t.minutes
  {
    var day := if dto.date.Some? then dto.date.value else a.startsAt;
    var time := if dto.startTime.Some? then dto.startTime.value
                else ParseTime(FormatTimeFromDate(a.startsAt, offset));
    SetLocalTime(day, offset, time.hours, time.minutes)
  }

  /** The new start depends on the stored row only through its start. */
  lemma RescheduledStartReadsOnlyTheStart(a: Appointment, b: Appointment, dto: UpdateAppointmentDto, offset: int)
    requires a.startsAt == b.startsAt
    ensures RescheduledStartAsWritten(a, dto, offset) == RescheduledStartAsWritten(b, dto, offset)
  {
  }

  /** On a server whose local time is UTC the two defaults agree. */
  lemma RescheduledStartAsWrittenAgreesInUtc(a: Appointment, dto: UpdateAppointmentDto)
    ensures RescheduledStartAsWritten(a, dto, 0) == RescheduledStart(a, dto, 0)
  {
  }

  /**
   * West of UTC the source's default date moves the appointment: at UTC-3 an appointment
   * at 10:00 local whose service alone changes lands at 10:00 of the previous day.
   */
  lemma RescheduledStartAsWrittenShiftsADay()
    ensures var a := Appointment(None, 0, 0, 13 * HourMs, 13 * HourMs + 30 * MinuteMs, Reserved, None);
            var dto := UpdateAppointmentDto(None, None, Some(1), None, None, None);
            && RescheduledStartAsWritten(a, dto, -3 * HourMs) == a.startsAt - DayMs
            && RescheduledStart(a, dto, -3 * HourMs) == a.startsAt
  {
    var a := Appointment(None, 0, 0, 13 * HourMs, 13 * HourMs + 30 * MinuteMs, Reserved, None);
    var offset := -3 * HourMs;
    assert LocalHours(a.startsAt, offset) == 10;
    assert LocalMinutes(a.startsAt, offset) == 0;
    assert LocalDayStart(a.startsAt, 0) == 0;
    assert LocalDayStart(0, offset) == -21 * HourMs;
    assert LocalDayStart(a.startsAt, offset) == 3 * HourMs;
  }

  /** Without a new date or time, a rescheduled appointment keeps its local day and time. */
  lemma RescheduledStartKeepsWallClock(a: Appointment, dto: UpdateAppointmentDto, offset: int)
    requires dto.date.None? && dto.startTime.None?
    ensures RescheduledStart(a, dto, offset) == a.startsAt - LocalSecondsMs(a.startsAt, offset)
  {
    SetLocalTimeOwnTime(a.startsAt, offset);
  }

  /**
   * What `update` makes of the loaded row before saving it, or the exception it throws:
   * BadRequest for an unknown new service; rescheduling with no joined service dereferences
   * `undefined`, an internal error.
   */
  function EditOutcome(a: Appointment, services: map<Id, Service>, dto: UpdateAppointmentDto, offset: int)
    : (r: Result<Appointment>)
    ensures dto.serviceId.Some? && dto.serviceId.value !in services ==> r == Err(BadRequest)
    ensures r.Err? ==> r == Err(BadRequest) || r == Err(Internal)
  {
    if dto.serviceId.Some? && dto.serviceId.value !in services then Err(BadRequest)
    else
      var e := Edited(a, dto);
      if !NeedsReschedule(dto) then Ok(e)
      else if e.serviceId !in services then Err(Internal)
      else
        var startsAt := RescheduledStartAsWritten(e, dto, offset);
        Ok(e.(startsAt := startsAt, endsAt := startsAt + services[e.serviceId].durationMinutes * MinuteMs))
  }

  /**
   * Corrected `update` of row `id`: the row the DTO asks for, or the exception thrown:
   * NotFound, the edit's errors, and a broken foreign key when saving, an internal error.
   * The stored service is the one whose duration sets the new end.
   */
  function UpdateOutcome(rows: map<Id, Appointment>, customers: map<Id, Customer>, services: map<Id, Service>,
                         barbers: map<Id, Barber>, id: Id, dto: UpdateAppointmentDto, offset: int)
    : (r: Result<Appointment>)
    ensures id !in rows ==> r == Err(NotFound)
    ensures id in rows && dto.serviceId.Some? && dto.serviceId.value !in services ==> r == Err(BadRequest)
    ensures id in rows && (dto.serviceId.Some? ==> dto.serviceId.value in services) ==>
              (r.Ok? <==> KeysExist(Edited(rows[id], dto), customers, services, barbers))
    ensures r.Err? ==> r == Err(NotFound) || r == Err(BadRequest) || r == Err(Internal)
    ensures r.Ok? ==> id in rows && r.value.status == rows[id].status
    ensures r.Ok? ==> r.value.customerId == (if dto.customerId.Some? then dto.customerId else rows[id].customerId)
    ensures r.Ok? ==> r.value.barberId == Pick(dto.barberId, rows[id].barberId)
    ensures r.Ok? ==> r.value.serviceId == Pick(dto.serviceId, rows[id].serviceId)
    ensures r.Ok? ==> r.value.notes == (if dto.notes.Some? then dto.notes else rows[id].notes)
    ensures r.Ok? ==> KeysExist(r.value, customers, services, barbers)
    ensures r.Ok? && !NeedsReschedule(dto) ==>
              r.value.startsAt == rows[id].startsAt && r.value.endsAt == rows[id].endsAt
    ensures r.Ok? && NeedsReschedule(dto) ==>
              && r.value.startsAt == RescheduledStartAsWritten(rows[id], dto, offset)
              && r.value.endsAt == r.value.startsAt + services[r.value.serviceId].durationMinutes * MinuteMs
  {
    if id !in rows then Err(NotFound)
    else
      RescheduledStartReadsOnlyTheStart(Edited(rows[id], dto), rows[id], dto, offset);
      var edited := EditOutcome(rows[id], services, dto, offset);
      if edited.Err? then edited
      else if KeysExist(edited.value, customers, services, barbers) then edited
      else Err(Internal)
  }

  /**
   * The id of the `service` relation `findOne({ relations: ['service'] })` joins to the
   * loaded row, or `None` when no service row matches (a left join gives `null`).
   */
  function JoinedServiceId(a: Appointment, services: map<Id, Service>): Option<Id> {
    if a.serviceId in services then Some(a.serviceId) else None
  }

  /**
   * `update` of row `id` as written. `service_id` is both the `serviceId` column and the
   * join column of the `service` relation, and `save` reads it from the relation object
   * when one was joined: a supplied service sets the new end, but the row keeps its old
   * service.
   */
  function UpdateOutcomeAsWritten(rows: map<Id, Appointment>, customers: map<Id, Customer>,
                                  services: map<Id, Service>, barbers: map<Id, Barber>, id: Id,
                                  dto: UpdateAppointmentDto, offset: int)
    : (r: Result<Appointment>)
    ensures id !in rows ==> r == Err(NotFound)
    ensures id in rows && dto.serviceId.Some? && dto.serviceId.value !in services ==> r == Err(BadRequest)
    ensures id in rows && (dto.serviceId.Some? ==> dto.serviceId.value in services) ==>
              (r.Ok? <==> KeysExist(Edited(rows[id], dto).(serviceId := Pick(JoinedServiceId(rows[id], services),
                                                                              Pick(dto.serviceId, rows[id].serviceId))),
                                    customers, services, barbers))
    ensures r.Err? ==> r == Err(NotFound) || r == Err(BadRequest) || r == Err(Internal)
    ensures r.Ok? ==> id in rows && r.value.status == rows[id].status
    ensures r.Ok? ==> r.value.customerId == (if dto.customerId.Some? then dto.customerId else rows[id].customerId)
    ensures r.Ok? ==> r.value.barberId == Pick(dto.barberId, rows[id].barberId)
    ensures r.Ok? && rows[id].serviceId in services ==> r.value.serviceId == rows[id].serviceId
    ensures r.Ok? && rows[id].serviceId !in services ==> r.value.serviceId == Pick(dto.serviceId, rows[id].serviceId)
    ensures r.Ok? ==> r.value.notes == (if dto.notes.Some? then dto.notes else rows[id].notes)
    ensures r.Ok? ==> KeysExist(r.value, customers, services, barbers)
    ensures r.Ok? && !NeedsReschedule(dto) ==>
              r.value.startsAt == rows[id].startsAt && r.value.endsAt == rows[id].endsAt
    ensures r.Ok? && NeedsReschedule(dto) ==>
              && r.value.startsAt == RescheduledStartAsWritten(rows[id], dto, offset)
              && r.value.endsAt
                 == r.value.startsAt + services[Pick(dto.serviceId, rows[id].serviceId)].durationMinutes * MinuteMs
  {
    if id !in rows then Err(NotFound)
    else
      RescheduledStartReadsOnlyTheStart(Edited(rows[id], dto), rows[id], dto, offset);
      var edited := EditOutcome(rows[id], services, dto, offset);
      if edited.Err? then edited
      else
        var saved := edited.value.(serviceId := Pick(JoinedServiceId(rows[id], services), edited.value.serviceId));
        if KeysExist(saved, customers, services, barbers) then Ok(saved) else Err(Internal)
  }

  /** Without a service change, or when the joined service is missing, the two agree. */
  lemma UpdateOutcomesAgree(rows: map<Id, Appointment>, customers: map<Id, Customer>, services: map<Id, Service>,
                            barbers: map<Id, Barber>, id: Id, dto: UpdateAppointmentDto, offset: int)
    requires id in rows ==> dto.serviceId.None? || dto.serviceId == Some(rows[id].serviceId)
                            || rows[id].serviceId !in services
    ensures UpdateOutcomeAsWritten(rows, customers, services, barbers, id, dto, offset)
            == UpdateOutcome(rows, customers, services, barbers, id, dto, offset)
  {
  }

  /**
   * An appointment on a 30-minute service moved to a 60-minute one: as written it stays
   * on the 30-minute service but is given a 60-minute slot; the corrected update stores
   * the 60-minute service.
   */
  lemma ServiceChangeKeptAsWritten()
    ensures var rows := map[0 := Appointment(None, 0, 1, 13 * HourMs, 13 * HourMs + 30 * MinuteMs, Reserved, None)];
            var services := map[1 := Service("Corte", None, 30, 500000, true, 0),
                                 2 := Service("Color", None, 60, 900000, true, 0)];
            var barbers := map[0 := Barber("Juan", None, None, None, true, 0)];
            var dto := UpdateAppointmentDto(None, None, Some(2), None, None, None);
            var written := UpdateOutcomeAsWritten(rows, map[], services, barbers, 0, dto, 0);
            var intended := UpdateOutcome(rows, map[], services, barbers, 0, dto, 0);
            && written.Ok? && written.value.serviceId == 1
            && written.value.endsAt - written.value.startsAt == 60 * MinuteMs
            && written.value.endsAt - written.value.startsAt != services[written.value.serviceId].durationMinutes * MinuteMs
            && intended.Ok? && intended.value.serviceId == 2
            && intended.value.endsAt - intended.value.startsAt == services[intended.value.serviceId].durationMinutes * MinuteMs
  {
  }

  /** The plain field edits of `update`: each supplied field is copied onto the loaded row. */
  method ApplyFieldEdits(a: Appointment, dto: UpdateAppointmentDto) returns (e: Appointment)
    ensures e == Edited(a, dto.(serviceId := None))
  {
    e := a;
    if dto.customerId.Some? {
      e := e.(customerId := dto.customerId);
    }
    if dto.barberId.Some? {
      e := e.(barberId := dto.barberId.value);
    }
    if dto.notes.Some? {
      e := e.(notes := dto.notes);
    }
  }

  /**
   * The rescheduling step of `update`: the date (or the stored start's UTC date) at the time
   * (or the stored local time), ending after the joined service's duration; no joined service
   * is a TypeError, an internal error.
   */
  method Reschedule(appointment: Appointment, dto: UpdateAppointmentDto, service: Option<Service>, offset: int)
    returns (r: Result<Appointment>)
    ensures service.None? ==> r == Err(Internal)
    ensures service.Some? ==>
              var startsAt := RescheduledStartAsWritten(appointment, dto, offset);
              r == Ok(appointment.(startsAt := startsAt, endsAt := startsAt + service.value.durationMinutes * MinuteMs))
  {
    var day := if dto.date.Some? then dto.date.value else LocalDayStart(appointment.startsAt, 0);
    var time := if dto.startTime.Some? then dto.startTime.value
                else ParseTime(FormatTimeFromDate(appointment.startsAt, offset));
    var startsAt := SetLocalTime(day, offset, time.hours, time.minutes);
    if service.None? {
      return Err(Internal);
    }
    r := Ok(appointment.(startsAt := startsAt, endsAt := startsAt + service.value.durationMinutes * 60 * 1000));
  }

  /**
   * The service step of `update`: a supplied service must exist, and then replaces the
   * entity's `serviceId` and the local `service` whose duration sets the new end (the joined
   * `service` relation itself is left as loaded); otherwise both stay.
   */
  method ChangeService(a: Appointment, services: Repository<Service>, dto: UpdateAppointmentDto)
    returns (r: Result<Appointment>, service: Option<Service>)
    ensures dto.serviceId.Some? && dto.serviceId.value !in services.rows ==> r == Err(BadRequest)
    ensures !(dto.serviceId.Some? && dto.serviceId.value !in services.rows) ==>
              && r == Ok(a.(serviceId := Pick(dto.serviceId, a.serviceId)))
              && service == Lookup(services.rows, r.value.serviceId)
  {
    service := Lookup(services.rows, a.serviceId);   // `appointment.service`, the joined relation
    if dto.serviceId.Some? {
      var newService := services.FindOne(dto.serviceId.value);
      if newService.None? {
        return Err(BadRequest), service;
      }
      service := newService;
      return Ok(a.(serviceId := dto.serviceId.value)), service;
    }
    r := Ok(a);
  }

  /** The steps of `update` between loading the row and saving it. */
  method Edit(appointment: Appointment, services: Repository<Service>, dto: UpdateAppointmentDto, offset: int)
    returns (r: Result<Appointment>)
    ensures r == EditOutcome(appointment, services.rows, dto, offset)
  {
    var edited := ApplyFieldEdits(appointment, dto);
    var changed, service := ChangeService(edited, services, dto);
    if changed.Err? {
      return changed;
    }
    edited := changed.value;
    assert edited == Edited(appointment, dto);

    if dto.date.Some? || dto.startTime.Some? || dto.serviceId.Some? {
      var moved := Reschedule(edited, dto, service, offset);
      if moved.Err? {
        return moved;
      }
      edited := moved.value;
    }
    r := Ok(edited);
  }

  /** `update`: saves the row `UpdateOutcomeAsWritten` gives and returns `findOne` of it. */
  method Update(appointments: Repository<Appointment>, services: Repository<Service>,
                customers: map<Id, Customer>, barbers: map<Id, Barber>, id: Id,
                dto: UpdateAppointmentDto, offset: int) returns (r: Result<AppointmentView>)
    requires appointments.Valid()
    modifies appointments`rows
    ensures appointments.Valid()
    ensures var out := UpdateOutcomeAsWritten(old(appointments.rows), customers, services.rows, barbers, id, dto, offset);
            && appointments.rows == (if out.Ok? then old(appointments.rows)[id := out.value] else old(appointments.rows))
            && r == (if out.Ok? then FindOne(appointments.rows, customers, services.rows, barbers, id, offset)
                     else Err(out.error))
    ensures r.Ok? <==> UpdateOutcomeAsWritten(old(appointments.rows), customers, services.rows, barbers, id, dto, offset).Ok?
  {
    var found := appointments.FindOne(id);
    if found.None? {
      return Err(NotFound);
    }
    var relation := JoinedServiceId(found.value, services.rows);
    var edited := Edit(found.value, services, dto, offset);
    if edited.Err? {
      return Err(edited.error);
    }
    var saved := SaveChecked(appointments, customers, services.rows, barbers, id, edited.value, relation);
    if saved.Err? {
      return Err(saved.error);
    }
    r := FindOne(appointments.rows, customers, services.rows, barbers, id, offset);
  }

  /**
   * `save` of a loaded row whose `service` relation has id `relation`: `service_id` is taken
   * from the relation when there is one; the database checks the foreign keys and writes
   * the row only when they hold.
   */
  method SaveChecked(appointments: Repository<Appointment>, customers: map<Id, Customer>,
                     services: map<Id, Service>, barbers: map<Id, Barber>, id: Id, a: Appointment,
                     relation: Option<Id>)
    returns (r: Result<Appointment>)
    requires appointments.Valid() && id in appointments.rows
    modifies appointments`rows
    ensures appointments.Valid()
    ensures var row := a.(serviceId := Pick(relation, a.serviceId));
            && r == (if KeysExist(row, customers, services, barbers) then Ok(row) else Err(Internal))
            && appointments.rows == if r.Ok? then old(appointments.rows)[id := row] else old(appointments.rows)
  {
    var row := a;
    if relation.Some? {
      row := row.(serviceId := relation.value);
    }
    if !KeysExist(row, customers, services, barbers) {
      return Err(Internal);
    }
    appointments.Save(id, row);
    r := Ok(row);
  }

  // ---------------------------------------------------------------------
  // updateStatus, remove

  /**
   * Any of the five statuses is written, whatever the current one: no transition rule.
   * Only `status` changes, so the save checks no foreign key; `findOne` of the row is returned.
   */
  method UpdateStatus(appointments: Repository<Appointment>, customers: map<Id, Customer>,
                      services: map<Id, Service>, barbers: map<Id, Barber>, id: Id, status: Status, offset: int)
    returns (r: Result<AppointmentView>)
    requires appointments.Valid()
    modifies appointments`rows
    ensures appointments.Valid()
    ensures id !in old(appointments.rows) ==>
              r == Err(NotFound) && appointments.rows == old(appointments.rows)
    ensures id in old(appointments.rows) ==>
              && appointments.rows == old(appointments.rows)[id := old(appointments.rows)[id].(status := status)]
              && r == FindOne(appointments.rows, customers, services, barbers, id, offset)
    ensures r.Ok? ==> r.value.status == status
  {
    var found := appointments.FindOne(id);
    if found.None? {
      return Err(NotFound);
    }
    var appointment := found.value.(status := status);
    appointments.Save(id, appointment);
    r := FindOne(appointments.rows, customers, services, barbers, id, offset);
  }

  /** Hard delete. */
  method Remove(appointments: Repository<Appointment>, id: Id) returns (r: Result<()>)
    requires appointments.Valid()
    modifies appointments`rows
    ensures appointments.Valid()
    ensures id !in old(appointments.rows) ==>
              r == Err(NotFound) && appointments.rows == old(appointments.rows)
    ensures id in old(appointments.rows) ==>
              r == Ok(()) && appointments.rows == old(appointments.rows) - {id}
  {
    var found := appointments.FindOne(id);
    if found.None? {
      return Err(NotFound);
    }
    appointments.Remove(id);
    r := Ok(());
  }

  // ---------------------------------------------------------------------
  // findOne, findAll

  /** `mapToAppointmentWithRelations` on a row and the relations joined to it. */
  function ToView(id: Id, a: Appointment, customer: Option<Customer>, service: Service,
                  barber: Barber, offset: int): (v: AppointmentView)
    ensures v.id == id && v.customerId == a.customerId && v.serviceId == a.serviceId
    ensures v.barberId == a.barberId && v.status == a.status && v.notes == a.notes
    ensures v.date == a.startsAt
    ensures IsTimeText(v.startTime) && IsTimeText(v.endTime)
    ensures ParseTime(v.startTime) == TimeOfDay(LocalHours(a.startsAt, offset), LocalMinutes(a.startsAt, offset))
    ensures ParseTime(v.endTime) == TimeOfDay(LocalHours(a.endsAt, offset), LocalMinutes(a.endsAt, offset))
    ensures v.customer.Some? <==> customer.Some?
    ensures customer.Some? && a.customerId.Some? ==>
              v.customer == Some(CustomerView(a.customerId.value, customer.value.name, customer.value.phone,
                                              customer.value.email))
    ensures v.service == ServiceView(a.serviceId, service.name, service.durationMinutes, service.priceCents)
    ensures v.barber == BarberView(a.barberId, barber.name, barber.specialty)
  {
    AppointmentView(
      id, a.customerId,
      if customer.Some? then
        Some(CustomerView(a.customerId.GetOr(0), customer.value.name, customer.value.phone, customer.value.email))
      else None,
      a.serviceId, ServiceView(a.serviceId, service.name, service.durationMinutes, service.priceCents),
      a.barberId, BarberView(a.barberId, barber.name, barber.specialty),
      a.startsAt, FormatTimeFromDate(a.startsAt, offset), FormatTimeFromDate(a.endsAt, offset),
      a.status, a.notes)
  }

  /**
   * `findOne`: the row with its relations. The customer is a left join; a missing service
   * or barber row makes the mapping dereference `undefined`, an internal error.
   */
  function FindOne(appointments: map<Id, Appointment>, customers: map<Id, Customer>,
                   services: map<Id, Service>, barbers: map<Id, Barber>, id: Id, offset: int)
    : (r: Result<AppointmentView>)
    ensures id !in appointments ==> r == Err(NotFound)
    ensures r.Ok? ==> id in appointments && r.value.id == id && r.value.status == appointments[id].status
    ensures r.Ok? ==> r.value.date == appointments[id].startsAt
    ensures r.Err? ==> r == Err(NotFound) || r == Err(Internal)
    ensures id in appointments ==>
              (r.Ok? <==> appointments[id].serviceId in services && appointments[id].barberId in barbers)
    ensures r.Ok? ==> (r.value.customer.Some? <==>
                       appointments[id].customerId.Some? && appointments[id].customerId.value in customers)
  {
    if id !in appointments then Err(NotFound)
    else
      var a := appointments[id];
      var customer := if a.customerId.Some? then Lookup(customers, a.customerId.value) else None;
      if a.serviceId !in services || a.barberId !in barbers then Err(Internal)
      else Ok(ToView(id, a, customer, services[a.serviceId], barbers[a.barberId], offset))
  }

  /** `startsAt BETWEEN` local 00:00:00.000 and 23:59:59.999 of the filter date. */
  predicate OnDay(t: Timestamp, date: Timestamp, offset: int)
    ensures OnDay(t, date, offset) <==> LocalDayStart(t, offset) == LocalDayStart(date, offset)
  {
    var d := LocalDayStart(date, offset);
    assert d <= t <= d + DayMs - 1 ==> LocalDayStart(t, offset) == d by {
      if d <= t <= d + DayMs - 1 {
        var u := t + offset;
        assert u == (d + offset) + (t - d);
        assert (d + offset) / DayMs * DayMs == d + offset;
        assert u % DayMs == t - d;
      }
    }
    d <= t <= d + DayMs - 1
  }

  /** The `andWhere` clauses of `findAll`, one per supplied filter. */
  predicate MatchesFilters(a: Appointment, filters: Filters, offset: int)
    ensures MatchesFilters(a, filters, offset) && filters.date.Some? ==>
              LocalDayStart(a.startsAt, offset) == LocalDayStart(filters.date.value, offset)
    ensures filters == Filters(None, None, None) ==> MatchesFilters(a, filters, offset)
  {
    && (filters.date.Some? ==> OnDay(a.startsAt, filters.date.value, offset))
    && (filters.barberId.Some? ==> a.barberId == filters.barberId.value)
    && (filters.status.Some? ==> a.status == filters.status.value)
  }

  function StartsAt(a: Appointment): int {
    a.startsAt
  }

  /**
   * `findAll(filters)`: every matching appointment with its relations, latest start first;
   * a matching row whose service or barber is missing fails the whole listing.
   */
  method FindAll(appointments: map<Id, Appointment>, customers: map<Id, Customer>,
                 services: map<Id, Service>, barbers: map<Id, Barber>, filters: Filters, offset: int)
    returns (r: Result<seq<AppointmentView>>)
    ensures r.Err? <==>
              exists id :: id in appointments && MatchesFilters(appointments[id], filters, offset)
                           && FindOne(appointments, customers, services, barbers, id, offset).Err?
    ensures r.Err? ==> r == Err(Internal)
    ensures r.Ok? ==>
              forall v :: v in r.value <==>
                && v.id in appointments && MatchesFilters(appointments[v.id], filters, offset)
                && FindOne(appointments, customers, services, barbers, v.id, offset) == Ok(v)
    ensures r.Ok? ==>
              forall i, j :: 0 <= i < j < |r.value| ==> r.value[i].date >= r.value[j].date && r.value[i].id != r.value[j].id
  {
    ByIntDescIsTotalPreorder(StartsAt);
    var rows := SelectOrdered(appointments, (a: Appointment) => MatchesFilters(a, filters, offset), ByIntDesc(StartsAt));
    r := ViewsOf(appointments, customers, services, barbers, rows, offset);
    if r.Err? {
      var k :| 0 <= k < |rows| && FindOne(appointments, customers, services, barbers, rows[k].0, offset).Err?;
      assert rows[k] in rows;
      return;
    }
    forall k | 0 <= k < |rows|
      ensures rows[k].0 in appointments && rows[k].1 == appointments[rows[k].0]
    {
      assert rows[k] in rows;
    }
    ViewsOrdered(appointments, customers, services, barbers, offset, rows, r.value);
    ViewsCover(appointments, customers, services, barbers, filters, offset, rows, r.value);
  }

  /** Views taken row by row from rows latest first are latest first, one per appointment. */
  lemma ViewsOrdered(appointments: map<Id, Appointment>, customers: map<Id, Customer>,
                     services: map<Id, Service>, barbers: map<Id, Barber>, offset: int,
                     rows: seq<(Id, Appointment)>, views: seq<AppointmentView>)
    requires Ordered(rows, ByIntDesc(StartsAt)) && DistinctIds(rows)
    requires forall k :: 0 <= k < |rows| ==> rows[k].0 in appointments && rows[k].1 == appointments[rows[k].0]
    requires |views| == |rows|
    requires forall k :: 0 <= k < |rows| ==> FindOne(appointments, customers, services, barbers, rows[k].0, offset) == Ok(views[k])
    ensures forall i, j :: 0 <= i < j < |views| ==> views[i].date >= views[j].date && views[i].id != views[j].id
  {
    forall i, j | 0 <= i < j < |views|
      ensures views[i].date >= views[j].date && views[i].id != views[j].id
    {
      ViewOfRow(appointments, customers, services, barbers, offset, rows[i], views[i]);
      ViewOfRow(appointments, customers, services, barbers, offset, rows[j], views[j]);
      assert ByIntDesc(StartsAt)(rows[i].1, rows[j].1);
      assert StartsAt(rows[i].1) >= StartsAt(rows[j].1);
      assert rows[i].0 != rows[j].0;
    }
  }

  lemma ViewOfRow(appointments: map<Id, Appointment>, customers: map<Id, Customer>,
                  services: map<Id, Service>, barbers: map<Id, Barber>, offset: int,
                  row: (Id, Appointment), view: AppointmentView)
    requires row.0 in appointments && row.1 == appointments[row.0]
    requires FindOne(appointments, customers, services, barbers, row.0, offset) == Ok(view)
    ensures view.id == row.0 && view.date == row.1.startsAt
  {
  }

  /** Views taken row by row from the matching rows are exactly the views of the matching appointments. */
  lemma ViewsCover(appointments: map<Id, Appointment>, customers: map<Id, Customer>,
                   services: map<Id, Service>, barbers: map<Id, Barber>, filters: Filters, offset: int,
                   rows: seq<(Id, Appointment)>, views: seq<AppointmentView>)
    requires forall e :: e in rows <==> e.0 in appointments && e.1 == appointments[e.0] && MatchesFilters(e.1, filters, offset)
    requires |views| == |rows|
    requires forall k :: 0 <= k < |rows| ==> FindOne(appointments, customers, services, barbers, rows[k].0, offset) == Ok(views[k])
    ensures forall id :: id in appointments && MatchesFilters(appointments[id], filters, offset) ==>
              FindOne(appointments, customers, services, barbers, id, offset).Ok?
    ensures forall v :: v in views <==>
              && v.id in appointments && MatchesFilters(appointments[v.id], filters, offset)
              && FindOne(appointments, customers, services, barbers, v.id, offset) == Ok(v)
  {
    forall id | id in appointments && MatchesFilters(appointments[id], filters, offset)
      ensures exists k :: 0 <= k < |rows| && rows[k].0 == id
    {
      assert (id, appointments[id]) in rows;
    }
    forall v | v in views
      ensures v.id in appointments && MatchesFilters(appointments[v.id], filters, offset)
      ensures FindOne(appointments, customers, services, barbers, v.id, offset) == Ok(v)
    {
      var k :| 0 <= k < |views| && views[k] == v;
      assert rows[k] in rows;
    }
  }

  /** `Promise.all` of the mapping: every row's view in order, or the first failure. */
  function ViewsOf(appointments: map<Id, Appointment>, customers: map<Id, Customer>,
                   services: map<Id, Service>, barbers: map<Id, Barber>,
                   rows: seq<(Id, Appointment)>, offset: int): (r: Result<seq<AppointmentView>>)
    ensures r.Err? <==>
              exists k :: 0 <= k < |rows| && FindOne(appointments, customers, services, barbers, rows[k].0, offset).Err?
    ensures r.Err? ==> r == Err(Internal)
    ensures r.Ok? ==>
              && |r.value| == |rows|
              && forall k :: 0 <= k < |rows| ==>
                   FindOne(appointments, customers, services, barbers, rows[k].0, offset) == Ok(r.value[k])
  {
    if exists k :: 0 <= k < |rows| && FindOne(appointments, customers, services, barbers, rows[k].0, offset).Err? then
      Err(Internal)
    else
      Ok(seq(|rows|, k requires 0 <= k < |rows| =>
           FindOne(appointments, customers, services, barbers, rows[k].0, offset).value))
  }
}

=== FILE: barbers.dfy ===
/**
 * The barber roster (src/barbers/barbers.service.ts). A barber's weekly schedule lives in
 * its own table of schedule rows, one per working slot, each naming its barber; the rows
 * are deleted with their barber (`ON DELETE CASCADE`). `create` inserts one row per slot
 * given, and an `update` that supplies a schedule replaces all of the barber's rows.
 *
 * The database stamps `createdAt` when a row is inserted; that clock is the `now`
 * parameter of `Create`.
 */
module Barbers {
  import opened Common
  import opened Entities
  import opened Repositories
  import opened Query
  import Text

  datatype CreateBarberDto = CreateBarberDto(
    name: string,
    phone: Option<string>,
    email: Option<string>,
    specialty: Option<string>,
    schedule: seq<WorkSlot>)

  datatype UpdateBarberDto = UpdateBarberDto(
    name: Option<string>,
    phone: Option<string>,
    email: Option<string>,
    specialty: Option<string>,
    schedule: Option<seq<WorkSlot>>,
    isActive: Option<bool>)

  /** `BarberWithStats`: the row, its schedule rows, and statistics not yet computed. */
  datatype BarberWithStats = BarberWithStats(
    id: Id,
    barber: Barber,
    schedules: seq<(Id, ScheduleRow)>,
    totalAppointments: int,
    completedAppointments: int,
    totalRevenue: int)

  /** The ids of a barber's schedule rows. */
  function ScheduleOf(schedules: map<Id, ScheduleRow>, barberId: Id): (ids: set<Id>)
    ensures forall k :: k in ids <==> k in schedules && schedules[k].barberId == barberId
  {
    set k | k in schedules && schedules[k].barberId == barberId
  }

  /** The foreign key: every schedule row belongs to a stored barber. */
  ghost predicate SchedulesOwned(barbers: map<Id, Barber>, schedules: map<Id, ScheduleRow>) {
    forall k :: k in schedules ==> schedules[k].barberId in barbers
  }

  /** `ids[i]` holds slot `i` of `slots` for the barber, and nothing else is in `ids`. */
  ghost predicate HoldsSlots(schedules: map<Id, ScheduleRow>, barberId: Id, ids: seq<Id>, slots: seq<WorkSlot>) {
    && |ids| == |slots|
    && (forall i :: 0 <= i < |ids| ==> ids[i] in schedules && schedules[ids[i]] == ScheduleRow(barberId, slots[i]))
    && (forall i, j :: 0 <= i < j < |ids| ==> ids[i] != ids[j])
  }

  /**
   * What the service returns for a stored barber: the row, every schedule row of that
   * barber once, and statistics that are all zero.
   */
  ghost predicate Describes(barbers: map<Id, Barber>, schedules: map<Id, ScheduleRow>, v: BarberWithStats) {
    && v.id in barbers && v.barber == barbers[v.id]
    && v.totalAppointments == 0 && v.completedAppointments == 0 && v.totalRevenue == 0
    && DistinctIds(v.schedules)
    && forall e :: e in v.schedules <==> e.0 in ScheduleOf(schedules, v.id) && e.1 == schedules[e.0]
  }

  // ---------------------------------------------------------------------
  // findAll, findActive, findOne

  /** `findAll`: every barber once, newest first, each with its schedule rows. */
  method FindAll(barbers: map<Id, Barber>, schedules: map<Id, ScheduleRow>) returns (out: seq<BarberWithStats>)
    ensures forall id :: id in barbers <==> exists i :: 0 <= i < |out| && out[i].id == id
    ensures forall i :: 0 <= i < |out| ==> Describes(barbers, schedules, out[i])
    ensures forall i, j :: 0 <= i < j < |out| ==>
              out[i].barber.createdAt >= out[j].barber.createdAt && out[i].id != out[j].id
  {
    ByIntDescIsTotalPreorder(BarberCreatedAt);
    var all := SelectOrdered(barbers, (b: Barber) => true, ByIntDesc(BarberCreatedAt));
    out := [];
    for k := 0 to |all|
      invariant |out| == k
      invariant forall i :: 0 <= i < k ==> out[i].id == all[i].0 && Describes(barbers, schedules, out[i])
    {
      assert all[k] in all;
      var r := FindOne(barbers, schedules, all[k].0);
      out := out + [r.value];
    }
    forall id | id in barbers
      ensures exists i :: 0 <= i < |out| && out[i].id == id
    {
      var e := (id, barbers[id]);
      assert e in all;
      var i :| 0 <= i < |all| && all[i] == e;
      assert out[i].id == id;
    }
    forall i, j | 0 <= i < j < |out|
      ensures out[i].barber.createdAt >= out[j].barber.createdAt && out[i].id != out[j].id
    {
      assert all[i] in all && all[j] in all;
      assert ByIntDesc(BarberCreatedAt)(all[i].1, all[j].1);
      assert BarberCreatedAt(all[i].1) >= BarberCreatedAt(all[j].1);
    }
  }

  /** `findActive`: exactly the active barbers, each once, by name ascending. */
  method FindActive(rows: map<Id, Barber>) returns (out: seq<(Id, Barber)>)
    ensures forall e :: e in out <==> e.0 in rows && e.1 == rows[e.0] && e.1.isActive
    ensures forall i, j :: 0 <= i < j < |out| ==> Text.LexLe(out[i].1.name, out[j].1.name)
    ensures DistinctIds(out)
  {
    ByTextIsTotalPreorder(BarberName);
    out := SelectOrdered(rows, IsActiveBarber, ByText(BarberName));
    forall i, j | 0 <= i < j < |out|
      ensures Text.LexLe(out[i].1.name, out[j].1.name)
    {
      assert ByText(BarberName)(out[i].1, out[j].1);
      assert Text.LexLe(BarberName(out[i].1), BarberName(out[j].1));
    }
  }

  /** `findOne`: the barber with its schedule rows and zeroed statistics, or NotFound. */
  method FindOne(barbers: map<Id, Barber>, schedules: map<Id, ScheduleRow>, id: Id)
    returns (r: Result<BarberWithStats>)
    ensures r.Ok? <==> id in barbers
    ensures r.Err? ==> r.error == NotFound
    ensures r.Ok? ==> r.value.id == id && Describes(barbers, schedules, r.value)
  {
    if id !in barbers {
      return Err(NotFound);
    }
    AnyOrderIsTotalPreorder<ScheduleRow>();
    var rows := SelectOrdered(schedules, (s: ScheduleRow) => s.barberId == id, AnyOrder());
    r := Ok(BarberWithStats(id, barbers[id], rows, 0, 0, 0));
  }

  // ---------------------------------------------------------------------
  // create

  /** The new row: the four fields copied from the input, active, stamped with the insertion time. */
  function NewBarber(dto: CreateBarberDto, now: Timestamp): (b: Barber)
    ensures b.isActive && b.createdAt == now
    ensures b.name == dto.name && b.phone == dto.phone && b.email == dto.email && b.specialty == dto.specialty
  {
    Barber(dto.name, dto.phone, dto.email, dto.specialty, true, now)
  }

  /** `scheduleRepository.save(schedules)`: one new row per slot, in order, for the barber. */
  method InsertSlots(schedules: Repository<ScheduleRow>, barberId: Id, slots: seq<WorkSlot>)
    returns (ids: seq<Id>)
    requires schedules.Valid()
    modifies schedules
    ensures schedules.Valid()
    ensures HoldsSlots(schedules.rows, barberId, ids, slots)
    ensures forall k :: k in schedules.rows <==> k in old(schedules.rows) || k in ids
    ensures forall k :: k in old(schedules.rows) ==> k !in ids && schedules.rows[k] == old(schedules.rows)[k]
  {
    ids := [];
    for i := 0 to |slots|
      invariant schedules.Valid()
      invariant HoldsSlots(schedules.rows, barberId, ids, slots[..i])
      invariant forall k :: k in schedules.rows <==> k in old(schedules.rows) || k in ids
      invariant forall k :: k in old(schedules.rows) ==> k !in ids && schedules.rows[k] == old(schedules.rows)[k]
    {
      var id := schedules.Insert(ScheduleRow(barberId, slots[i]));
      ids := ids + [id];
    }
  }

  /**
   * `create`: the barber is stored active, then one schedule row per slot given (none
   * when the list is empty). Returns the new barber's id and its schedule rows' ids.
   */
  method Create(barbers: Repository<Barber>, schedules: Repository<ScheduleRow>, dto: CreateBarberDto,
                now: Timestamp)
    returns (id: Id, slotIds: seq<Id>)
    requires barbers.Valid() && schedules.Valid()
    modifies barbers, schedules
    ensures barbers.Valid() && schedules.Valid()
    ensures id !in old(barbers.rows) && barbers.rows == old(barbers.rows)[id := NewBarber(dto, now)]
    ensures HoldsSlots(schedules.rows, id, slotIds, dto.schedule)
    ensures forall k :: k in schedules.rows <==> k in old(schedules.rows) || k in slotIds
    ensures forall k :: k in old(schedules.rows) ==> k !in slotIds && schedules.rows[k] == old(schedules.rows)[k]
    ensures SchedulesOwned(old(barbers.rows), old(schedules.rows)) ==> SchedulesOwned(barbers.rows, schedules.rows)
  {
    var barber := Barber(dto.name, dto.phone, dto.email, dto.specialty, true, now);
    id := barbers.Insert(barber);
    slotIds := [];
    if |dto.schedule| > 0 {
      slotIds := InsertSlots(schedules, id, dto.schedule);
    }
  }

  /** A new barber's schedule is exactly the rows created for it, when no row named it before. */
  lemma CreatedScheduleIsTheSlots(old_schedules: map<Id, ScheduleRow>, schedules: map<Id, ScheduleRow>,
                                  id: Id, slotIds: seq<Id>, slots: seq<WorkSlot>)
    requires ScheduleOf(old_schedules, id) == {}
    requires HoldsSlots(schedules, id, slotIds, slots)
    requires forall k :: k in schedules <==> k in old_schedules || k in slotIds
    requires forall k :: k in old_schedules ==> k !in slotIds && schedules[k] == old_schedules[k]
    ensures ScheduleOf(schedules, id) == (set i | 0 <= i < |slotIds| :: slotIds[i])
  {
    assert forall k :: k in old_schedules ==> k !in ScheduleOf(old_schedules, id);
    forall k | k in ScheduleOf(schedules, id)
      ensures k in slotIds
    {
    }
  }

  // ---------------------------------------------------------------------
  // update, toggleActive, remove

  /** The supplied fields replace the stored ones; the rest stay. */
  function Updated(b: Barber, dto: UpdateBarberDto): (u: Barber)
    ensures u.name == Pick(dto.name, b.name)
    ensures u.phone == (if dto.phone.Some? then dto.phone else b.phone)
    ensures u.email == (if dto.email.Some? then dto.email else b.email)
    ensures u.specialty == (if dto.specialty.Some? then dto.specialty else b.specialty)
    ensures u.isActive == Pick(dto.isActive, b.isActive)
    ensures u.createdAt == b.createdAt
  {
    b.(name := Pick(dto.name, b.name),
       phone := if dto.phone.Some? then dto.phone else b.phone,
       email := if dto.email.Some? then dto.email else b.email,
       specialty := if dto.specialty.Some? then dto.specialty else b.specialty,
       isActive := Pick(dto.isActive, b.isActive))
  }

  /** Applying the same update twice is applying it once. */
  lemma UpdateIsIdempotent(b: Barber, dto: UpdateBarberDto)
    ensures Updated(Updated(b, dto), dto) == Updated(b, dto)
  {
  }

  /** The field edits of `update`: each supplied field is copied onto the loaded barber. */
  method ApplyFieldEdits(b: Barber, dto: UpdateBarberDto) returns (u: Barber)
    ensures u == Updated(b, dto)
  {
    u := b;
    if dto.name.Some? {
      u := u.(name := dto.name.value);
    }
    if dto.phone.Some? {
      u := u.(phone := dto.phone);
    }
    if dto.email.Some? {
      u := u.(email := dto.email);
    }
    if dto.specialty.Some? {
      u := u.(specialty := dto.specialty);
    }
    if dto.isActive.Some? {
      u := u.(isActive := dto.isActive.value);
    }
  }

  /**
   * `update`: NotFound on an unknown id. Otherwise the supplied fields change; a supplied
   * schedule (even an empty one) replaces every schedule row of the barber, and rows of
   * other barbers stay; an absent schedule leaves the schedule table alone.
   */
  method Update(barbers: Repository<Barber>, schedules: Repository<ScheduleRow>, id: Id, dto: UpdateBarberDto)
    returns (r: Result<Barber>, slotIds: seq<Id>)
    requires barbers.Valid() && schedules.Valid()
    modifies barbers`rows, schedules
    ensures barbers.Valid() && schedules.Valid()
    ensures id !in old(barbers.rows) ==>
              && r == Err(NotFound) && barbers.rows == old(barbers.rows)
              && schedules.rows == old(schedules.rows)
    ensures id in old(barbers.rows) ==>
              && r == Ok(Updated(old(barbers.rows)[id], dto))
              && barbers.rows == old(barbers.rows)[id := r.value]
    ensures (id !in old(barbers.rows) || dto.schedule.None?) ==> schedules.rows == old(schedules.rows)
    ensures id in old(barbers.rows) && dto.schedule.Some? ==>
              && HoldsSlots(schedules.rows, id, slotIds, dto.schedule.value)
              && ScheduleOf(schedules.rows, id) == (set i | 0 <= i < |slotIds| :: slotIds[i])
              && (forall k :: k in old(schedules.rows) && old(schedules.rows)[k].barberId != id ==>
                    k in schedules.rows && schedules.rows[k] == old(schedules.rows)[k])
              && (forall k :: k in schedules.rows ==>
                    k in slotIds || (k in old(schedules.rows) && old(schedules.rows)[k].barberId != id))
    ensures SchedulesOwned(old(barbers.rows), old(schedules.rows)) ==> SchedulesOwned(barbers.rows, schedules.rows)
  {
    slotIds := [];
    var found := barbers.FindOne(id);
    if found.None? {
      return Err(NotFound), slotIds;
    }
    var barber := ApplyFieldEdits(found.value, dto);
    barbers.Save(id, barber);

    if dto.schedule.Some? {
      schedules.DeleteWhere((s: ScheduleRow) => s.barberId == id);
      ghost var cleared := schedules.rows;
      assert ScheduleOf(cleared, id) == {};
      slotIds := InsertSlots(schedules, id, dto.schedule.value);
      CreatedScheduleIsTheSlots(cleared, schedules.rows, id, slotIds, dto.schedule.value);
    }
    r := Ok(barber);
  }

  /** The barber with its `isActive` flag negated and nothing else changed. */
  function Toggled(b: Barber): (t: Barber)
    ensures t.isActive == !b.isActive
    ensures t.name == b.name && t.phone == b.phone && t.email == b.email && t.specialty == b.specialty
    ensures t.createdAt == b.createdAt
  {
    b.(isActive := !b.isActive)
  }

  /** Toggling twice restores the barber. */
  lemma ToggleTwiceRestores(b: Barber)
    ensures Toggled(Toggled(b)) == b
  {
  }

  method ToggleActive(barbers: Repository<Barber>, id: Id) returns (r: Result<Barber>)
    requires barbers.Valid()
    modifies barbers`rows
    ensures barbers.Valid()
    ensures id !in old(barbers.rows) ==> r == Err(NotFound) && barbers.rows == old(barbers.rows)
    ensures id in old(barbers.rows) ==>
              && r == Ok(Toggled(old(barbers.rows)[id]))
              && barbers.rows == old(barbers.rows)[id := r.value]
  {
    var found := barbers.FindOne(id);
    if found.None? {
      return Err(NotFound);
    }
    var barber := found.value.(isActive := !found.value.isActive);
    barbers.Save(id, barber);
    r := Ok(barber);
  }

  /** Some appointment books the barber. */
  predicate HasAppointments(appointments: map<Id, Appointment>, id: Id) {
    exists k :: k in appointments && appointments[k].barberId == id
  }

  /**
   * `remove`: NotFound on an unknown id. A barber some appointment books is kept: the
   * appointments' foreign key makes the delete fail, and nothing changes. Otherwise the
   * barber and, by cascade, its schedule rows go.
   */
  method Remove(barbers: Repository<Barber>, schedules: Repository<ScheduleRow>,
                appointments: map<Id, Appointment>, id: Id) returns (r: Result<()>)
    requires barbers.Valid() && schedules.Valid()
    modifies barbers`rows, schedules`rows
    ensures barbers.Valid() && schedules.Valid()
    ensures id !in old(barbers.rows) ==>
              r == Err(NotFound) && barbers.rows == old(barbers.rows) && schedules.rows == old(schedules.rows)
    ensures id in old(barbers.rows) && HasAppointments(appointments, id) ==>
              r == Err(Internal) && barbers.rows == old(barbers.rows) && schedules.rows == old(schedules.rows)
    ensures id in old(barbers.rows) && !HasAppointments(appointments, id) ==>
              && r == Ok(())
              && barbers.rows == old(barbers.rows) - {id}
              && schedules.rows == map k | k in old(schedules.rows) && k !in ScheduleOf(old(schedules.rows), id)
                                     :: old(schedules.rows)[k]
    ensures SchedulesOwned(old(barbers.rows), old(schedules.rows)) ==> SchedulesOwned(barbers.rows, schedules.rows)
    ensures forall k :: k in appointments && appointments[k].barberId in old(barbers.rows) ==>
              appointments[k].barberId in barbers.rows
  {
    var found := barbers.FindOne(id);
    if found.None? {
      return Err(NotFound);
    }
    if HasAppointments(appointments, id) {
      return Err(Internal);
    }
    barbers.Remove(id);
    schedules.DeleteWhere((s: ScheduleRow) => s.barberId == id);
    r := Ok(());
  }
}

=== FILE: booking_flow.dfy ===
/**
 * The two-step booking protocol the agent follows: `schedule_appointment` stages a booking
 * in the conversation, `confirm_booking` books it. These lemmas relate the two tools.
 */
module BookingFlow {
  import opened Common
  import opened Text
  import opened Entities
  import opened Tools
  import opened ScheduleTool
  import opened ConfirmBookingTool

  /** What staging a request leaves in the conversations table, when it succeeds. */
  function AfterStage(conversations: map<Id, Conversation>, req: StageRequest,
                      parse: string -> Option<Timestamp>,
                      available: (Id, Option<Timestamp>) -> Option<bool>,
                      localeFormat: Timestamp -> string): map<Id, Conversation>
  {
    StageOutcome(conversations, req, parse, available, localeFormat).1
  }

  /**
   * A staged booking is booked as staged: confirming it asks `scheduleAppointment` for the
   * staged barber, service and date, and a booking that comes back with an id is reported
   * with the staged names and remembered as the conversation's last appointment.
   */
  lemma {:induction false} StagedBookingConfirms(conversations: map<Id, Conversation>, sreq: StageRequest,
                                                 creq: ConfirmRequest,
                                                 parse: string -> Option<Timestamp>,
                                                 available: (Id, Option<Timestamp>) -> Option<bool>,
                                                 localeFormat: Timestamp -> string,
                                                 schedule: ScheduleRequest -> Option<ScheduleResult>,
                                                 offset: int, id: Id)
    requires StageOutcome(conversations, sreq, parse, available, localeFormat).0.ToolStaged?
    requires creq.conversationId == sreq.conversationId && sreq.dateTimeIso != ""
    requires schedule(ScheduleRequest(sreq.barberId, sreq.serviceId, parse(sreq.dateTimeIso),
                                      creq.customerName, creq.customerEmail, creq.customerPhone))
             == Some(ScheduleResult(true, None, Some(id)))
    ensures var after := AfterStage(conversations, sreq, parse, available, localeFormat);
            var r := ConfirmOutcome(after, creq, parse, schedule, offset);
            && r.0 == ToolBooked(id, ConfirmedText(PendingFor(sreq), FormatDateSpanish(parse(sreq.dateTimeIso), offset)))
            && Contains(r.0.message, sreq.serviceName) && Contains(r.0.message, sreq.barberName)
            && r.1[creq.conversationId].context == Some(ConversationContext(None, Some(id)))
  {
    var after := AfterStage(conversations, sreq, parse, available, localeFormat);
    var c := after[creq.conversationId];
    var p := PendingFor(sreq);
    assert PendingOf(c) == Some(p);
    assert Complete(p);
    assert RequestFor(p, creq, parse)
           == ScheduleRequest(sreq.barberId, sreq.serviceId, parse(sreq.dateTimeIso),
                              creq.customerName, creq.customerEmail, creq.customerPhone);
    var text := ConfirmedText(p, FormatDateSpanish(parse(sreq.dateTimeIso), offset));
    var r := ConfirmOutcome(after, creq, parse, schedule, offset);
    assert r.0 == ToolBooked(id, text);
    assert TextOrUndefined(p.serviceName) == sreq.serviceName && TextOrUndefined(p.barberName) == sreq.barberName;
  }

  /**
   * No double booking: once a conversation's booking is confirmed, confirming again is
   * refused without calling `scheduleAppointment`, and nothing changes.
   */
  lemma ConfirmConsumesPending(conversations: map<Id, Conversation>, req: ConfirmRequest, again: ConfirmRequest,
                               parse: string -> Option<Timestamp>,
                               schedule: ScheduleRequest -> Option<ScheduleResult>,
                               schedule2: ScheduleRequest -> Option<ScheduleResult>, offset: int)
    requires ConfirmOutcome(conversations, req, parse, schedule, offset).0.ToolBooked?
    requires again.conversationId == req.conversationId
    ensures var after := ConfirmOutcome(conversations, req, parse, schedule, offset).1;
            ConfirmOutcome(after, again, parse, schedule2, offset) == (ToolFailed(NoPendingText), after)
  {
  }

  /** A booking staged with an empty date cannot be confirmed: it lacks data. */
  lemma EmptyDateIsNotConfirmable(conversations: map<Id, Conversation>, sreq: StageRequest, creq: ConfirmRequest,
                                  parse: string -> Option<Timestamp>,
                                  available: (Id, Option<Timestamp>) -> Option<bool>,
                                  localeFormat: Timestamp -> string,
                                  schedule: ScheduleRequest -> Option<ScheduleResult>, offset: int)
    requires StageOutcome(conversations, sreq, parse, available, localeFormat).0.ToolStaged?
    requires creq.conversationId == sreq.conversationId && sreq.dateTimeIso == ""
    ensures var after := AfterStage(conversations, sreq, parse, available, localeFormat);
            ConfirmOutcome(after, creq, parse, schedule, offset) == (ToolFailed(MissingDataText), after)
  {
  }
}

=== FILE: bookings.dfy ===
/**
 * The booking operations the conversational agent calls (src/bookings/bookings.service.ts):
 * booking by id or by name, cancelling, and the service, barber and status look-ups.
 * Replies that the source serialises with `JSON.stringify` are modelled as the records
 * being serialised.
 */
module Bookings {
  import opened Common
  import opened Text
  import opened Entities
  import opened Repositories
  import opened Query
  import opened Clock

  // ---------------------------------------------------------------------
  // createAppointment

  /** The arguments of `createAppointment`; the customer fields are accepted and unused. */
  datatype BookingInput = BookingInput(
    barberName: Option<string>,
    serviceName: Option<string>,
    barberId: Option<Id>,
    serviceId: Option<Id>,
    startsAt: string,
    endsAt: string,
    notes: Option<string>)

  datatype FailCode = BarberNotFound | ServiceNotFound | ScheduleFailed

  /** The JSON reply of `createAppointment`; the database's own error text is not modelled. */
  datatype BookingReply =
    | Booked(appointmentId: Id, startsAt: Timestamp, endsAt: Timestamp, status: Status)
    | Failed(code: FailCode, error: Option<string>)

  /** `ILike(query.trim())` on a name without wildcard characters: equal up to case. */
  predicate NameMatches(name: string, query: string)
    ensures NameMatches(name, query) ==> |name| == |Trim(query)|
  {
    ToLower(name) == ToLower(Trim(query))
  }

  /** A stored name matches the query exactly when its lower-cased form does. */
  lemma NameMatchesIgnoresCase(name: string, query: string)
    ensures NameMatches(name, query) <==> NameMatches(ToLower(name), query)
  {
    ToLowerIdempotent(name);
  }

  /** `findOne({ where: { name: ILike(...) } })`: some row whose name matches, if any. */
  method FindByName<R>(rows: map<Id, R>, name: R -> string, query: string) returns (r: Option<Id>)
    ensures r.None? <==> forall id :: id in rows ==> !NameMatches(name(rows[id]), query)
    ensures r.Some? ==> r.value in rows && NameMatches(name(rows[r.value]), query)
  {
    if id :| id in rows && NameMatches(name(rows[id]), query) {
      r := Some(id);
    } else {
      r := None;
    }
  }


  /** `input.notes || ''`. */
  function NotesOrEmpty(notes: Option<string>): (r: string)
    ensures Truthy(notes) ==> r == notes.value
    ensures !Truthy(notes) ==> r == ""
  {
    if notes.Some? then notes.value else ""
  }

  /**
   * The end the row is saved with: the given text parsed, or, when none is given, the
   * start plus the duration of the service the id names. `None` stands for an Invalid Date,
   * including a computed end outside the `Date` range, on which `toISOString` throws.
   */
  function ResolvedEnd(services: map<Id, Service>, serviceId: Option<Id>, input: BookingInput,
                       parse: string -> Option<Timestamp>): (r: Option<Timestamp>)
    ensures input.endsAt != "" ==> r == parse(input.endsAt)
    ensures input.endsAt == "" && r.Some? ==>
              && serviceId.Some? && serviceId.value in services
              && parse(input.startsAt).Some?
              && r.value == parse(input.startsAt).value + services[serviceId.value].durationMinutes * 60000
              && -MaxTime <= r.value <= MaxTime
    ensures input.endsAt == "" && serviceId.Some? && serviceId.value in services && parse(input.startsAt).Some? ==>
              (r.Some? <==> -MaxTime <= parse(input.startsAt).value + services[serviceId.value].durationMinutes * 60000 <= MaxTime)
  {
    if input.endsAt != "" then parse(input.endsAt)
    else if serviceId.Some? && serviceId.value in services then
      var start := parse(input.startsAt);
      if start.None? then None
      else TimeClip(start.value + services[serviceId.value].durationMinutes * 60000)
    else None
  }

  /**
   * The row `save` stores once the ids are resolved, or `None` when the database refuses
   * it: a missing id (NOT NULL), an id with no row (foreign key) or an Invalid Date.
   */
  function NewBooking(services: map<Id, Service>, barbers: map<Id, Barber>,
                      barberId: Option<Id>, serviceId: Option<Id>, input: BookingInput,
                      parse: string -> Option<Timestamp>): (r: Option<Appointment>)
    ensures r.Some? <==>
              && barberId.Some? && barberId.value in barbers
              && serviceId.Some? && serviceId.value in services
              && parse(input.startsAt).Some?
              && ResolvedEnd(services, serviceId, input, parse).Some?
    ensures r.Some? ==>
              && r.value.status == Reserved && r.value.customerId.None?
              && r.value.barberId == barberId.value && r.value.serviceId == serviceId.value
              && r.value.startsAt == parse(input.startsAt).value
              && r.value.notes == Some(NotesOrEmpty(input.notes))
    ensures r.Some? && input.endsAt == "" ==>
              r.value.endsAt - r.value.startsAt == services[serviceId.value].durationMinutes * 60000
  {
    var start := parse(input.startsAt);
    var end := ResolvedEnd(services, serviceId, input, parse);
    if barberId.None? || barberId.value !in barbers || serviceId.None? || serviceId.value !in services
       || start.None? || end.None? then None
    else Some(Appointment(None, barberId.value, serviceId.value, start.value, end.value,
                          Reserved, Some(NotesOrEmpty(input.notes))))
  }

  /** A barber name is given without an id, and no barber has that name. */
  predicate BarberUnmatched(barbers: map<Id, Barber>, input: BookingInput) {
    && input.barberId.None? && Truthy(input.barberName)
    && forall id :: id in barbers ==> !NameMatches(barbers[id].name, input.barberName.value)
  }

  /** A service name is given without an id, and no service has that name. */
  predicate ServiceUnmatched(services: map<Id, Service>, input: BookingInput) {
    && input.serviceId.None? && Truthy(input.serviceName)
    && forall id :: id in services ==> !NameMatches(services[id].name, input.serviceName.value)
  }

  /** `barberId` is what the input's barber resolves to: a barber of that name, else the given id. */
  predicate ResolvesBarber(barbers: map<Id, Barber>, input: BookingInput, barberId: Option<Id>) {
    if input.barberId.None? && Truthy(input.barberName) then
      barberId.Some? && barberId.value in barbers && NameMatches(barbers[barberId.value].name, input.barberName.value)
    else barberId == input.barberId
  }

  /** `serviceId` is what the input's service resolves to: a service of that name, else the given id. */
  predicate ResolvesService(services: map<Id, Service>, input: BookingInput, serviceId: Option<Id>) {
    if input.serviceId.None? && Truthy(input.serviceName) then
      serviceId.Some? && serviceId.value in services
      && NameMatches(services[serviceId.value].name, input.serviceName.value)
    else serviceId == input.serviceId
  }

  /** `createAppointment`: resolves names to ids, fills in the end, and saves a reserved row. */
  method CreateAppointment(appointments: Repository<Appointment>, services: map<Id, Service>,
                           barbers: map<Id, Barber>, input: BookingInput,
                           parse: string -> Option<Timestamp>) returns (r: BookingReply)
    requires appointments.Valid()
    modifies appointments
    ensures appointments.Valid()
    ensures BarberUnmatched(barbers, input) ==>
              && r == Failed(BarberNotFound, Some("No encontré al peluquero \"" + input.barberName.value + "\""))
              && appointments.rows == old(appointments.rows)
    ensures !BarberUnmatched(barbers, input) && ServiceUnmatched(services, input) ==>
              && r == Failed(ServiceNotFound, Some("No encontré el servicio \"" + input.serviceName.value + "\""))
              && appointments.rows == old(appointments.rows)
    ensures !BarberUnmatched(barbers, input) && !ServiceUnmatched(services, input) ==>
              exists barberId, serviceId ::
                && ResolvesBarber(barbers, input, barberId) && ResolvesService(services, input, serviceId)
                && (NewBooking(services, barbers, barberId, serviceId, input, parse).None? ==>
                      r == Failed(ScheduleFailed, None))
                && (NewBooking(services, barbers, barberId, serviceId, input, parse).Some? ==> r.Booked?)
    ensures r.Failed? && r.code == ServiceNotFound ==>
              && input.serviceId.None? && Truthy(input.serviceName)
              && (forall id :: id in services ==> !NameMatches(services[id].name, input.serviceName.value))
              && r.error == Some("No encontré el servicio \"" + input.serviceName.value + "\"")
    ensures r.Failed? ==> appointments.rows == old(appointments.rows)
    ensures r.Booked? ==>
              exists barberId, serviceId ::
                && barberId in barbers && serviceId in services
                && (input.barberId.Some? ==> barberId == input.barberId.value)
                && (input.barberId.None? && Truthy(input.barberName) ==>
                      NameMatches(barbers[barberId].name, input.barberName.value))
                && (input.serviceId.Some? ==> serviceId == input.serviceId.value)
                && (input.serviceId.None? && Truthy(input.serviceName) ==>
                      NameMatches(services[serviceId].name, input.serviceName.value))
                && NewBooking(services, barbers, Some(barberId), Some(serviceId), input, parse).Some?
                && var row := NewBooking(services, barbers, Some(barberId), Some(serviceId), input, parse).value;
                   && r == Booked(r.appointmentId, row.startsAt, row.endsAt, Reserved)
                   && r.appointmentId !in old(appointments.rows)
                   && appointments.rows == old(appointments.rows)[r.appointmentId := row]
  {
    var barberId := input.barberId;
    var serviceId := input.serviceId;

    if Truthy(input.barberName) && barberId.None? {
      var found := FindByName(barbers, BarberName, input.barberName.value);
      if found.None? {
        return Failed(BarberNotFound, Some("No encontré al peluquero \"" + input.barberName.value + "\""));
      }
      barberId := found;
    }

    if Truthy(input.serviceName) && serviceId.None? {
      var found := FindByName(services, ServiceName, input.serviceName.value);
      if found.None? {
        return Failed(ServiceNotFound, Some("No encontré el servicio \"" + input.serviceName.value + "\""));
      }
      serviceId := found;
    }

    assert ResolvesBarber(barbers, input, barberId) && ResolvesService(services, input, serviceId);
    var row := NewBooking(services, barbers, barberId, serviceId, input, parse);
    if row.None? {
      return Failed(ScheduleFailed, None);
    }
    var id := appointments.Insert(row.value);
    r := Booked(id, row.value.startsAt, row.value.endsAt, row.value.status);
  }

  // ---------------------------------------------------------------------
  // cancelAppointment

  /** The row after cancelling: the reason, if any, is appended to the notes. */
  function CancelledRow(a: Appointment, reason: Option<string>): (c: Appointment)
    ensures c.status == Cancelled
    ensures c.(status := a.status, notes := a.notes) == a
    ensures !Truthy(reason) ==> c.notes == a.notes
    ensures Truthy(reason) ==> c.notes == Some(NotesOrEmpty(a.notes) + "\nMotivo cancelación: " + reason.value)
    ensures Truthy(reason) ==>
              && c.notes.Some? && NotesOrEmpty(a.notes) <= c.notes.value
              && Contains(c.notes.value, reason.value)
  {
    if Truthy(reason) then
      var notes := NotesOrEmpty(a.notes) + "\nMotivo cancelación: " + reason.value;
      ContainsAt(notes, reason.value, |notes| - |reason.value|);
      a.(status := Cancelled, notes := Some(notes))
    else a.(status := Cancelled)
  }

  const NotFoundText := "Turno no encontrado. Verifica el ID proporcionado."
  const AlreadyCancelledText := "Este turno ya fue cancelado previamente."

  function CancelledText(id: Id): string {
    "Turno cancelado exitosamente. ID: " + NatToString(id)
  }

  /** The reply of `cancelAppointment` and the table it leaves. */
  function CancelOutcome(rows: map<Id, Appointment>, id: Id, reason: Option<string>)
    : (r: (string, map<Id, Appointment>))
    ensures id !in rows ==> r == (NotFoundText, rows)
    ensures id in rows && rows[id].status == Cancelled ==> r == (AlreadyCancelledText, rows)
    ensures id in rows && rows[id].status != Cancelled ==>
              r == (CancelledText(id), rows[id := CancelledRow(rows[id], reason)])
  {
    if id !in rows then (NotFoundText, rows)
    else if rows[id].status == Cancelled then (AlreadyCancelledText, rows)
    else (CancelledText(id), rows[id := CancelledRow(rows[id], reason)])
  }

  method CancelAppointment(appointments: Repository<Appointment>, id: Id, reason: Option<string>)
    returns (message: string)
    requires appointments.Valid()
    modifies appointments`rows
    ensures appointments.Valid()
    ensures (message, appointments.rows) == CancelOutcome(old(appointments.rows), id, reason)
  {
    var found := appointments.FindOne(id);
    if found.None? {
      return NotFoundText;
    }
    var appointment := found.value;
    if appointment.status == Cancelled {
      return AlreadyCancelledText;
    }
    appointment := appointment.(status := Cancelled);
    if Truthy(reason) {
      appointment := appointment.(notes := Some(NotesOrEmpty(appointment.notes) + "\nMotivo cancelación: " + reason.value));
    }
    appointments.Save(id, appointment);
    message := CancelledText(id);
  }

  /** Cancelling twice: the second call refuses and changes nothing, whatever its reason. */
  lemma CancelIsFinal(rows: map<Id, Appointment>, id: Id, reason: Option<string>, reason2: Option<string>)
    requires id in rows
    ensures var after := CancelOutcome(rows, id, reason).1;
            && after[id].status == Cancelled
            && CancelOutcome(after, id, reason2) == (AlreadyCancelledText, after)
  {
  }

  /** Cancelling touches only the row it names. */
  lemma CancelTouchesOneRow(rows: map<Id, Appointment>, id: Id, reason: Option<string>, other: Id)
    requires other != id
    ensures var after := CancelOutcome(rows, id, reason).1;
            (other in after <==> other in rows) && (other in rows ==> after[other] == rows[other])
  {
  }

  // ---------------------------------------------------------------------
  // getServices, listServices, listBarbers

  /** One entry of the `services` listing; `price` is the text of `priceCents / 100`. */
  datatype ServiceInfo = ServiceInfo(id: Id, name: string, description: Option<string>, price: string, duration: int)

  datatype InfoReply = InfoText(text: string) | ServiceInfoList(items: seq<ServiceInfo>)

  const NoServicesText := "No hay servicios disponibles en este momento."
  const InvalidInfoTypeText := "Tipo de información no válido. Usa \"services\" o \"prices\"."

  /** The end of a price line: the duration in minutes. */
  function MinutesText(durationMinutes: int): string {
    " (" + IntToString(durationMinutes) + " minutos)"
  }

  /** One line of the `prices` listing: the name, then the price after "$", then the duration. */
  function PriceLine(s: Service): (line: string)
    ensures |s.name| + 3 + |MinutesText(s.durationMinutes)| <= |line|
    ensures line[..|s.name| + 3] == s.name + ": $"
    ensures line[|line| - |MinutesText(s.durationMinutes)|..] == MinutesText(s.durationMinutes)
    ensures line[|s.name| + 3..|line| - |MinutesText(s.durationMinutes)|] == CentsToNumberText(s.priceCents)
    ensures s.priceCents >= 0 ==>
              DecimalToCents(line[|s.name| + 3..|line| - |MinutesText(s.durationMinutes)|]) == Some(s.priceCents)
  {
    var head, price, tail := s.name + ": $", CentsToNumberText(s.priceCents), MinutesText(s.durationMinutes);
    ThreeParts(head, price, tail);
    head + price + tail
  }

  /** A price line breaks no line unless the service's name does. */
  lemma PriceLineOneLine(s: Service)
    requires '\n' !in s.name
    ensures '\n' !in PriceLine(s)
  {
    var head, price, tail := s.name + ": $", CentsToNumberText(s.priceCents), MinutesText(s.durationMinutes);
    CentsTextOneLine(s.priceCents);
    MinutesTextOneLine(s.durationMinutes);
    assert PriceLine(s) == head + price + tail;
    NoNewlineInThree(head, price, tail);
  }

  lemma MinutesTextOneLine(durationMinutes: int)
    ensures '\n' !in MinutesText(durationMinutes)
  {
    var n := if durationMinutes < 0 then -durationMinutes else durationMinutes;
    assert AllDigits(NatToString(n));
  }

  /** The three parts of a text built from three parts are found back by slicing. */
  lemma ThreeParts(head: string, mid: string, tail: string)
    ensures var line := head + mid + tail;
            && line[..|head|] == head && line[|line| - |tail|..] == tail
            && line[|head|..|line| - |tail|] == mid
  {
    var line := head + mid + tail;
    assert line[..|head|] == head;
    assert line[|line| - |tail|..] == tail;
    assert line[|head|..|line| - |tail|] == mid;
  }

  lemma NoNewlineInThree(a: string, b: string, c: string)
    requires '\n' !in a && '\n' !in b && '\n' !in c
    ensures '\n' !in a + b + c
  {
  }

  function ToInfo(e: (Id, Service)): (i: ServiceInfo)
    ensures i.id == e.0 && i.name == e.1.name && i.description == e.1.description
    ensures i.duration == e.1.durationMinutes
    ensures e.1.priceCents >= 0 ==> DecimalToCents(i.price) == Some(e.1.priceCents)
  {
    CentsTextRoundTrip(if e.1.priceCents >= 0 then e.1.priceCents else 0);
    ServiceInfo(e.0, e.1.name, e.1.description, CentsToNumberText(e.1.priceCents), e.1.durationMinutes)
  }

  /** The reply for the active services `active`, listed in the order the database gave them. */
  function InfoReplyFor(active: seq<(Id, Service)>, kind: string): (r: InfoReply)
    ensures active == [] ==> r == InfoText(NoServicesText)
    ensures active != [] && kind == "services" ==>
              r.ServiceInfoList? && |r.items| == |active|
              && forall k :: 0 <= k < |active| ==> r.items[k] == ToInfo(active[k])
    ensures active != [] && kind == "prices" ==>
              r == InfoText(Join(seq(|active|, k requires 0 <= k < |active| => PriceLine(active[k].1)), "\n"))
    ensures active != [] && kind != "services" && kind != "prices" ==> r == InfoText(InvalidInfoTypeText)
  {
    if active == [] then InfoText(NoServicesText)
    else if kind == "services" then ServiceInfoList(seq(|active|, k requires 0 <= k < |active| => ToInfo(active[k])))
    else if kind == "prices" then InfoText(Join(seq(|active|, k requires 0 <= k < |active| => PriceLine(active[k].1)), "\n"))
    else InfoText(InvalidInfoTypeText)
  }

  /**
   * When no active service's name breaks a line, the `prices` reply splits at its line
   * breaks into exactly one price line per active service, in the listing's order.
   */
  lemma {:induction false} PricesReplyLines(active: seq<(Id, Service)>)
    requires active != []
    requires forall k :: 0 <= k < |active| ==> '\n' !in active[k].1.name
    ensures var r := InfoReplyFor(active, "prices");
            r.InfoText? && Split(r.text, '\n') == seq(|active|, k requires 0 <= k < |active| => PriceLine(active[k].1))
  {
    var lines := seq(|active|, k requires 0 <= k < |active| => PriceLine(active[k].1));
    forall k | 0 <= k < |lines|
      ensures '\n' !in lines[k]
    {
      PriceLineOneLine(active[k].1);
    }
    SplitJoin(lines, '\n');
  }

  /** `getServices(type)`: the active services, as records or as one price line each. */
  method GetServices(services: map<Id, Service>, kind: string) returns (r: InfoReply, active: seq<(Id, Service)>)
    ensures forall e :: e in active <==> e.0 in services && e.1 == services[e.0] && e.1.isActive
    ensures DistinctIds(active)
    ensures r == InfoReplyFor(active, kind)
    ensures active == [] <==> forall id :: id in services ==> !services[id].isActive
  {
    AnyOrderIsTotalPreorder<Service>();
    active := SelectOrdered(services, IsActiveService, AnyOrder());
    r := InfoReplyFor(active, kind);
    forall id | id in services && services[id].isActive
      ensures (id, services[id]) in active
    {
    }
    if active != [] {
      assert active[0] in active;
    }
  }

  /** The records of `listServices`: the price as `toFixed(2)` text. */
  datatype ServiceListing = ServiceListing(id: Id, name: string, description: Option<string>,
                                           durationMinutes: int, priceArs: string)

  function ToListing(e: (Id, Service)): (l: ServiceListing)
    ensures l.id == e.0 && l.name == e.1.name && l.durationMinutes == e.1.durationMinutes
    ensures l.description == e.1.description
    ensures l.priceArs == CentsToFixed2(e.1.priceCents)
    ensures e.1.priceCents >= 0 ==> DecimalToCents(l.priceArs) == Some(e.1.priceCents)
  {
    Fixed2RoundTrip(if e.1.priceCents >= 0 then e.1.priceCents else 0);
    ServiceListing(e.0, e.1.name, e.1.description, e.1.durationMinutes, CentsToFixed2(e.1.priceCents))
  }

  /** `listServices`: every active service once, in name order. */
  method ListServices(services: map<Id, Service>) returns (out: seq<ServiceListing>)
    ensures forall id :: id in services && services[id].isActive ==> ToListing((id, services[id])) in out
    ensures forall l :: l in out ==>
              l.id in services && services[l.id].isActive && l == ToListing((l.id, services[l.id]))
    ensures forall i, j :: 0 <= i < j < |out| ==> LexLe(out[i].name, out[j].name) && out[i].id != out[j].id
  {
    ByTextIsTotalPreorder(ServiceName);
    var active := SelectOrdered(services, IsActiveService, ByText(ServiceName));
    out := seq(|active|, k requires 0 <= k < |active| => ToListing(active[k]));
    forall i, j | 0 <= i < j < |out|
      ensures LexLe(out[i].name, out[j].name) && out[i].id != out[j].id
    {
      assert out[i].name == active[i].1.name && out[j].name == active[j].1.name;
      assert ByText(ServiceName)(active[i].1, active[j].1);
      assert LexLe(ServiceName(active[i].1), ServiceName(active[j].1));
      assert active[i].0 != active[j].0;
    }
    forall id | id in services && services[id].isActive
      ensures ToListing((id, services[id])) in out
    {
      assert (id, services[id]) in active;
      var k :| 0 <= k < |active| && active[k] == (id, services[id]);
      assert out[k] == ToListing(active[k]);
    }
    forall l | l in out
      ensures l.id in services && services[l.id].isActive && l == ToListing((l.id, services[l.id]))
    {
      var k :| 0 <= k < |out| && out[k] == l;
      assert active[k] in active;
    }
  }

  /** A record of `listBarbers`. */
  datatype BarberListing = BarberListing(id: Id, name: string, isAvailable: bool)

  function ToBarberListing(e: (Id, Barber)): (l: BarberListing)
    ensures l.id == e.0 && l.name == e.1.name && l.isAvailable == e.1.isActive
  {
    BarberListing(e.0, e.1.name, e.1.isActive)
  }

  /** `listBarbers`: every active barber once, in name order; all of them show as available. */
  method ListBarbers(barbers: map<Id, Barber>) returns (out: seq<BarberListing>)
    ensures forall id :: id in barbers && barbers[id].isActive ==> BarberListing(id, barbers[id].name, true) in out
    ensures forall l :: l in out ==>
              l.id in barbers && barbers[l.id].isActive && l == BarberListing(l.id, barbers[l.id].name, true)
    ensures forall i, j :: 0 <= i < j < |out| ==> LexLe(out[i].name, out[j].name) && out[i].id != out[j].id
  {
    ByTextIsTotalPreorder(BarberName);
    var active := SelectOrdered(barbers, IsActiveBarber, ByText(BarberName));
    out := seq(|active|, k requires 0 <= k < |active| => ToBarberListing(active[k]));
    forall i, j | 0 <= i < j < |out|
      ensures LexLe(out[i].name, out[j].name) && out[i].id != out[j].id
    {
      assert out[i].name == active[i].1.name && out[j].name == active[j].1.name;
      assert ByText(BarberName)(active[i].1, active[j].1);
      assert LexLe(BarberName(active[i].1), BarberName(active[j].1));
      assert active[i].0 != active[j].0;
    }
    forall id | id in barbers && barbers[id].isActive
      ensures BarberListing(id, barbers[id].name, true) in out
    {
      assert (id, barbers[id]) in active;
      var k :| 0 <= k < |active| && active[k] == (id, barbers[id]);
      assert out[k] == ToBarberListing(active[k]);
    }
    forall l | l in out
      ensures l.id in barbers && barbers[l.id].isActive && l == BarberListing(l.id, barbers[l.id].name, true)
    {
      var k :| 0 <= k < |out| && out[k] == l;
      assert active[k] in active;
    }
  }

  // ---------------------------------------------------------------------
  // checkStatus

  datatype StatusReply =
    | StatusText(text: string)
    | AppointmentSnapshot(id: Id, customerId: Option<Id>, barberId: Id, serviceId: Id,
                          scheduledTime: Timestamp, status: Status, notes: Option<string>)
    | BarberSnapshot(id: Id, name: string, isAvailable: bool, specialties: string)

  const InvalidStatusTypeText := "Tipo de consulta no válido. Usa \"appointment\" o \"barber\"."

  /** `checkStatus(type, id)`: a snapshot of one appointment or one barber. */
  function CheckStatus(appointments: map<Id, Appointment>, barbers: map<Id, Barber>, kind: string, id: Id)
    : (r: StatusReply)
    ensures kind == "appointment" && id !in appointments ==> r == StatusText("Turno no encontrado.")
    ensures kind == "appointment" && id in appointments ==>
              && r.AppointmentSnapshot? && r.id == id
              && r.customerId == appointments[id].customerId
              && r.barberId == appointments[id].barberId && r.serviceId == appointments[id].serviceId
              && r.scheduledTime == appointments[id].startsAt
              && r.status == appointments[id].status && r.notes == appointments[id].notes
    ensures kind == "barber" && id !in barbers ==> r == StatusText("Peluquero no encontrado.")
    ensures kind == "barber" && id in barbers ==>
              r == BarberSnapshot(id, barbers[id].name, barbers[id].isActive, "No especificado")
    ensures kind != "appointment" && kind != "barber" ==> r == StatusText(InvalidStatusTypeText)
  {
    if kind == "appointment" then
      if id !in appointments then StatusText("Turno no encontrado.")
      else
        var a := appointments[id];
        AppointmentSnapshot(id, a.customerId, a.barberId, a.serviceId, a.startsAt, a.status, a.notes)
    else if kind == "barber" then
      if id !in barbers then StatusText("Peluquero no encontrado.")
      else BarberSnapshot(id, barbers[id].name, barbers[id].isActive, "No especificado")
    else StatusText(InvalidStatusTypeText)
  }
}

=== FILE: clock.dfy ===
/**
 * Wall-clock arithmetic on millisecond timestamps, standing in for the JS `Date`
 * getters and setters the source uses. The server's local time is UTC shifted by a
 * fixed `offset` in milliseconds (no daylight-saving changes).
 */
module Clock {
  import opened Common
  import opened Text

  const SecondMs: int := 1000
  const MinuteMs: int := 60000
  const HourMs: int := 3600000
  const DayMs: int := 86400000

  /** The largest distance from the epoch a JS `Date` can hold; beyond it the time value is NaN. */
  const MaxTime := 8640000000000000

  /** A time value, or NaN (`None`) once it leaves the range a `Date` can hold. */
  function TimeClip(t: int): (r: Option<Timestamp>)
    ensures r.Some? <==> -MaxTime <= t <= MaxTime
    ensures r.Some? ==> r.value == t
  {
    if -MaxTime <= t <= MaxTime then Some(t) else None
  }

  /** `t` is 00:00:00.000 local time. */
  predicate IsLocalMidnight(t: int, offset: int) {
    (t + offset) % DayMs == 0
  }

  /** Local midnight of the day holding `t` (`new Date(y, m, d)` / `setHours(0, 0, 0, 0)`). */
  function LocalDayStart(t: int, offset: int): (r: int)
    ensures r <= t < r + DayMs
    ensures IsLocalMidnight(r, offset)
  {
    t - (t + offset) % DayMs
  }

  /** `getHours()`. */
  function LocalHours(t: int, offset: int): (h: int)
    ensures 0 <= h < 24
  {
    (t + offset) % DayMs / HourMs
  }

  /** `getMinutes()`. */
  function LocalMinutes(t: int, offset: int): (m: int)
    ensures 0 <= m < 60
  {
    (t + offset) % HourMs / MinuteMs
  }

  /** `getSeconds() * 1000 + getMilliseconds()`: the milliseconds past the local minute. */
  function LocalSecondsMs(t: int, offset: int): (ms: int)
    ensures 0 <= ms < MinuteMs
  {
    (t + offset) % MinuteMs
  }

  /**
   * `d.setHours(hours, minutes, 0, 0)`: the given wall-clock time on `d`'s local day.
   * Out-of-range hours and minutes roll over into neighbouring days, as in JS.
   */
  function SetLocalTime(t: int, offset: int, hours: int, minutes: int): (x: int)
    ensures 0 <= hours < 24 && 0 <= minutes < 60 ==>
              && LocalDayStart(x, offset) == LocalDayStart(t, offset)
              && LocalHours(x, offset) == hours && LocalMinutes(x, offset) == minutes
              && LocalSecondsMs(x, offset) == 0
  {
    var d := LocalDayStart(t, offset);
    if 0 <= hours < 24 && 0 <= minutes < 60 then
      MidnightPlusTimeReadsBack(d, offset, hours, minutes, d + hours * HourMs + minutes * MinuteMs);
      d + hours * HourMs + minutes * MinuteMs
    else d + hours * HourMs + minutes * MinuteMs
  }

  /** An instant set to an in-range wall-clock time reads back as that time, with no seconds. */
  lemma SetLocalTimeReadsBack(t: int, offset: int, hours: int, minutes: int, x: int)
    requires 0 <= hours < 24 && 0 <= minutes < 60 && x == SetLocalTime(t, offset, hours, minutes)
    ensures LocalHours(x, offset) == hours && LocalMinutes(x, offset) == minutes
    ensures LocalSecondsMs(x, offset) == 0
  {
    var d := LocalDayStart(t, offset);
    MidnightPlusTimeReadsBack(d, offset, hours, minutes, x);
  }

  /** A positive multiple of `m` is at least `m`. */
  lemma MultipleAtLeast(x: int, m: int)
    requires x >= 1 && m > 0
    ensures x * m >= m
  {
    var y := x - 1;
    assert x * m == y * m + m;
    assert y * m >= 0;
  }

  /** Euclidean division is unique: a quotient and a remainder in range are the ones `/` and `%` give. */
  lemma DivModUnique(n: int, m: int, k: int, r: int)
    requires m > 0 && 0 <= r < m && n == k * m + r
    ensures n / m == k && n % m == r
  {
    var q, s := n / m, n % m;
    assert n == q * m + s;
    assert k * m - q * m == (k - q) * m;
    if k > q {
      MultipleAtLeast(k - q, m);
    } else if k < q {
      assert q * m - k * m == (q - k) * m;
      MultipleAtLeast(q - k, m);
    }
  }

  /** Setting a date's own hours and minutes only drops its seconds and milliseconds. */
  lemma SetLocalTimeOwnTime(t: int, offset: int)
    ensures SetLocalTime(t, offset, LocalHours(t, offset), LocalMinutes(t, offset))
            == t - LocalSecondsMs(t, offset)
  {
    var u := t + offset;
    var q, r := u / DayMs, u % DayMs;
    var a, b := r / HourMs, r % HourMs;
    var c, e := b / MinuteMs, b % MinuteMs;
    assert r == a * HourMs + b;
    assert b == c * MinuteMs + e;
    DivModUnique(u, HourMs, q * 24 + a, b);
    DivModUnique(u, MinuteMs, (q * 24 + a) * 60 + c, e);
    assert LocalHours(t, offset) == a;
    assert LocalMinutes(t, offset) == c;
  }

  /** A wall-clock time within one day, added to a local midnight, reads back as itself on that day. */
  lemma {:induction false} MidnightPlusTimeReadsBack(d: int, offset: int, hours: int, minutes: int, x: int)
    requires IsLocalMidnight(d, offset)
    requires 0 <= hours < 24 && 0 <= minutes < 60
    requires x == d + hours * HourMs + minutes * MinuteMs
    ensures LocalDayStart(x, offset) == d
    ensures LocalHours(x, offset) == hours && LocalMinutes(x, offset) == minutes
    ensures LocalSecondsMs(x, offset) == 0
  {
    var q := (d + offset) / DayMs;
    assert d + offset == q * DayMs;
    var w := hours * HourMs + minutes * MinuteMs;
    DivModUnique(x + offset, DayMs, q, w);
    DivModUnique(w, HourMs, hours, minutes * MinuteMs);
    DivModUnique(x + offset, HourMs, q * 24 + hours, minutes * MinuteMs);
    DivModUnique(minutes * MinuteMs, MinuteMs, minutes, 0);
    DivModUnique(x + offset, MinuteMs, (q * 24 + hours) * 60 + minutes, 0);
  }

  /** Whole days later, local midnight is still local midnight. */
  lemma {:induction false} DaysLaterIsMidnight(d: int, offset: int, days: int)
    requires IsLocalMidnight(d, offset)
    ensures LocalDayStart(d + days * DayMs, offset) == d + days * DayMs
  {
    var q := (d + offset) / DayMs;
    assert d + offset == q * DayMs;
    assert d + days * DayMs + offset == (q + days) * DayMs;
  }

  // ---------------------------------------------------------------------
  // Calendar fields (`getFullYear`, `getMonth`, `getDate`) of a local day

  /** What the JS `Date` getters report for one instant. */
  datatype DateParts = DateParts(year: int, monthIndex: int, day: int, hours: int, minutes: int)

  /**
   * A day of a 400-year era (eras start on 1 March) split into its century, its 4-year
   * group, its year and its day of year. Each of these has its leap day, if any, at its
   * end, so the last century and the last year of a group are capped at 3.
   */
  function EraDayParts(doe: int): (r: (int, int, int, int))
    requires 0 <= doe < 146097
    ensures 0 <= r.0 <= 3 && 0 <= r.1 <= 24 && 0 <= r.2 <= 3 && 0 <= r.3 <= 365
    ensures doe == r.0 * 36524 + r.1 * 1461 + r.2 * 365 + r.3
  {
    var c := if doe / 36524 == 4 then 3 else doe / 36524;
    var r1 := doe - c * 36524;
    var q := r1 / 1461;
    var r2 := r1 - q * 1461;
    var y := if r2 / 365 == 4 then 3 else r2 / 365;
    (c, q, y, r2 - y * 365)
  }

  /** The calendar date of day `doy` (counted from 1 March) of year `c·100 + q·4 + y` of an era. */
  function EraDate(era: int, c: int, q: int, y: int, doy: int): (r: (int, int, int))
    requires 0 <= doy <= 365
    ensures 1 <= r.1 <= 12 && 1 <= r.2 <= 31
  {
    var mp := (5 * doy + 2) / 153;
    var d := doy - (153 * mp + 2) / 5 + 1;
    var m := if mp < 10 then mp + 3 else mp - 9;
    var yoe := c * 100 + q * 4 + y;
    (era * 400 + yoe + (if m <= 2 then 1 else 0), m, d)
  }

  /** Proleptic Gregorian date of a day number (days since 1970-01-01). */
  function CivilFromDays(days: int): (r: (int, int, int))
    ensures 1 <= r.1 <= 12 && 1 <= r.2 <= 31
  {
    var z := days + 719468;
    var p := EraDayParts(z % 146097);
    EraDate(z / 146097, p.0, p.1, p.2, p.3)
  }

  /** Day number of a proleptic Gregorian date: the count `Date.UTC(year, month - 1, day)` divides out. */
  function DaysFromCivil(year: int, month: int, day: int): int {
    var y := if month <= 2 then year - 1 else year;
    var era := y / 400;
    var yoe := y - era * 400;
    var mp := if month > 2 then month - 3 else month + 9;
    var doy := (153 * mp + 2) / 5 + day - 1;
    var doe := yoe * 365 + yoe / 4 - yoe / 100 + doy;
    era * 146097 + doe - 719468
  }

  /** Day 0 is 1 January 1970. */
  lemma CivilEpoch()
    ensures CivilFromDays(0) == (1970, 1, 1)
    ensures DaysFromCivil(1970, 1, 1) == 0
  {
    // 719468 days from 0000-03-01: 4 eras, 3 centuries, 17 four-year groups, 1 year and 306 days
    DivModUnique(719468, 146097, 4, 135080);
    DivModUnique(135080, 36524, 3, 25508);
    DivModUnique(25508, 1461, 17, 671);
    DivModUnique(671, 365, 1, 306);
    assert EraDayParts(135080) == (3, 17, 1, 306);
    DivModUnique(5 * 306 + 2, 153, 10, 2);
    DivModUnique(153 * 10 + 2, 5, 306, 2);
    assert EraDate(4, 3, 17, 1, 306) == (1970, 1, 1);
    DivModUnique(1969, 400, 4, 369);
    DivModUnique(369, 4, 92, 1);
    DivModUnique(369, 100, 3, 69);
  }

  /** The date a day number is given as names that same day again. */
  lemma {:induction false} CivilFromDaysRoundTrip(days: int)
    ensures var r := CivilFromDays(days); DaysFromCivil(r.0, r.1, r.2) == days
  {
    var z := days + 719468;
    var era, doe := z / 146097, z % 146097;
    var p := EraDayParts(doe);
    var r := EraDate(era, p.0, p.1, p.2, p.3);
    assert CivilFromDays(days) == r;
    EraDateRoundTrip(era, p.0, p.1, p.2, p.3);
    assert DaysFromCivil(r.0, r.1, r.2) == era * 146097 + doe - 719468;
  }

  /** The date built from the parts of a day of an era counts back to that day. */
  lemma EraDateRoundTrip(era: int, c: int, q: int, y: int, doy: int)
    requires 0 <= c <= 3 && 0 <= q <= 24 && 0 <= y <= 3 && 0 <= doy <= 365
    ensures var r := EraDate(era, c, q, y, doy);
            DaysFromCivil(r.0, r.1, r.2) == era * 146097 + c * 36524 + q * 1461 + y * 365 + doy - 719468
  {
    var yoe := c * 100 + q * 4 + y;
    var mp := (5 * doy + 2) / 153;
    var m := if mp < 10 then mp + 3 else mp - 9;
    assert 0 <= mp <= 11;
    DivModUnique(era * 400 + yoe, 400, era, yoe);
    YearOfEraDays(c, q, y);
  }

  /** Days before year `yoe` of an era, counting a leap day every 4 years but not every 100. */
  lemma YearOfEraDays(c: int, q: int, y: int)
    requires 0 <= c <= 3 && 0 <= q <= 24 && 0 <= y <= 3
    ensures var yoe := c * 100 + q * 4 + y;
            yoe * 365 + yoe / 4 - yoe / 100 == c * 36524 + q * 1461 + y * 365
  {
    var yoe := c * 100 + q * 4 + y;
    DivModUnique(yoe, 4, c * 25 + q, y);
    DivModUnique(yoe, 100, c, q * 4 + y);
  }

  /** The local calendar fields of `t`; `monthIndex` is 0-based like `getMonth()`. */
  function LocalParts(t: int, offset: int): (p: DateParts)
    ensures 0 <= p.monthIndex < 12 && 1 <= p.day <= 31
    ensures 0 <= p.hours < 24 && 0 <= p.minutes < 60
    ensures DaysFromCivil(p.year, p.monthIndex + 1, p.day) * DayMs - offset == LocalDayStart(t, offset)
    ensures p.hours == LocalHours(t, offset) && p.minutes == LocalMinutes(t, offset)
  {
    var n := (t + offset) / DayMs;
    var ymd := CivilFromDays(n);
    CivilFromDaysRoundTrip(n);
    DateParts(ymd.0, ymd.1 - 1, ymd.2, LocalHours(t, offset), LocalMinutes(t, offset))
  }

  // ---------------------------------------------------------------------
  // "HH:MM" texts

  /** A wall-clock time after `"HH:MM".split(':').map(Number)`. */
  datatype TimeOfDay = TimeOfDay(hours: int, minutes: int)

  /** Hours and minutes, each `toString().padStart(2, '0')`, joined by a colon. */
  function ClockText(hours: nat, minutes: nat): string {
    TwoDigits(hours) + ":" + TwoDigits(minutes)
  }

  predicate IsTimeText(s: string) {
    |s| == 5 && s[2] == ':' && AllDigits(s[..2]) && AllDigits(s[3..])
  }

  /** `s.split(':').map(Number)` on an "HH:MM" text. */
  function ParseTime(s: string): (t: TimeOfDay)
    requires IsTimeText(s)
    ensures 0 <= t.hours < 100 && 0 <= t.minutes < 100
    ensures t.hours == DigitValue(s[0]) * 10 + DigitValue(s[1])
    ensures t.minutes == DigitValue(s[3]) * 10 + DigitValue(s[4])
  {
    ParseTwoDigits(s[..2]);
    ParseTwoDigits(s[3..]);
    TimeOfDay(ParseNat(s[..2]), ParseNat(s[3..]))
  }

  /** A clock text reads back as the time it shows. */
  lemma ClockTextRoundTrip(hours: nat, minutes: nat)
    requires hours < 100 && minutes < 100
    ensures IsTimeText(ClockText(hours, minutes))
    ensures ParseTime(ClockText(hours, minutes)) == TimeOfDay(hours, minutes)
  {
    TwoDigitsRoundTrip(hours);
    TwoDigitsRoundTrip(minutes);
    var s := ClockText(hours, minutes);
    assert s[..2] == TwoDigits(hours);
    assert s[3..] == TwoDigits(minutes);
  }
}

=== FILE: common.dfy ===
/** Shared vocabulary: optional values, service-layer errors, identifiers. */
module Common {

  /** A value that may be absent (`undefined`/`null` in the source). */
  datatype Option<+T> = None | Some(value: T) {
    function GetOr(default: T): T {
      match this
      case Some(v) => v
      case None => default
    }
  }

  /** The exceptions the NestJS services throw, as values. */
  datatype Error =
    | NotFound      // NotFoundException: no row with that id
    | BadRequest    // BadRequestException: a referenced row does not exist
    | Internal      // an uncaught error: a TypeError on an absent relation, or a broken foreign key

  datatype Result<+T> = Ok(value: T) | Err(error: Error)

  /** Row identifiers: the database's generated uuids, abstracted to naturals. */
  type Id = nat

  /** Instants in milliseconds since the epoch (a JS `Date`'s time value). */
  type Timestamp = int

  /** `x !== undefined ? x : current`: the "only supplied fields change" idiom. */
  function Pick<T>(supplied: Option<T>, current: T): (r: T)
    ensures supplied.Some? ==> r == supplied.value
    ensures supplied.None? ==> r == current
  {
    if supplied.Some? then supplied.value else current
  }

  /** A JS string is truthy when it is present and non-empty. */
  predicate Truthy(s: Option<string>) {
    s.Some? && s.value != ""
  }
}

=== FILE: confirm_booking_tool.dfy ===
/**
 * The `confirm_booking` tool (src/agent/tools/confirm-booking.tool.ts): it books the
 * booking staged in a conversation, clears it, and remembers the new appointment.
 *
 * The booking itself is made by `scheduleAppointment`, which is not part of this model and
 * is a parameter: it yields `None` when it throws.
 */
module ConfirmBookingTool {
  import opened Common
  import opened Text
  import opened Clock
  import opened Entities
  import opened Repositories
  import opened Tools

  datatype ConfirmRequest = ConfirmRequest(
    conversationId: Id,
    customerName: string,
    customerEmail: Option<string>,
    customerPhone: Option<string>)

  /** The arguments handed to `scheduleAppointment`. */
  datatype ScheduleRequest = ScheduleRequest(
    barberId: Id,
    serviceId: Id,
    startsAt: Option<Timestamp>,
    customerName: string,
    customerEmail: Option<string>,
    customerPhone: Option<string>)

  /** What `scheduleAppointment` resolves to. */
  datatype ScheduleResult = ScheduleResult(ok: bool, message: Option<string>, appointmentId: Option<Id>)

  const NoPendingText := "No hay ninguna reserva pendiente de confirmación. Primero debes crear una reserva."
  const MissingDataText := "Faltan datos para confirmar la reserva. Por favor vuelve a intentarlo."
  const NotBookedText := "No se pudo confirmar la reserva. Por favor intenta con otro horario."
  const NoIdText := "Error interno: la reserva se creó pero no se obtuvo el ID. Contacta al administrador."
  const ConfirmErrorText := "Ocurrió un error al confirmar la reserva. Por favor intenta nuevamente."

  // ---------------------------------------------------------------------
  // formatDateSpanish

  const Months: seq<string> := [
    "enero", "febrero", "marzo", "abril", "mayo", "junio",
    "julio", "agosto", "septiembre", "octubre", "noviembre", "diciembre"]

  /**
   * "27 de diciembre de 2025 a las 10:00", from the local calendar fields of the date: the
   * day, the month's name, the year and the local time of the instant.
   */
  function FormatDateSpanish(t: Option<Timestamp>, offset: int): (s: string)
    ensures t.None? ==> s == "NaN de undefined de NaN a las NaN:NaN"
    ensures t.Some? ==>
              var p := LocalParts(t.value, offset);
              s == NatToString(p.day) + " de " + Months[p.monthIndex] + " de " + IntToString(p.year)
                   + " a las " + ClockText(p.hours, p.minutes)
  {
    if t.None? then "NaN de undefined de NaN a las NaN:NaN"
    else
      var p := LocalParts(t.value, offset);
      NatToString(p.day) + " de " + Months[p.monthIndex] + " de " + IntToString(p.year)
        + " a las " + ClockText(p.hours, p.minutes)
  }

  /**
   * The date text names the instant's local day and its local time: the day number of
   * its day, month and year is that of the local day, and its last five characters read
   * back as the local hours and minutes.
   */
  lemma {:induction false} FormatDateSpanishReadsBack(t: Timestamp, offset: int)
    ensures var s := FormatDateSpanish(Some(t), offset);
            var p := LocalParts(t, offset);
            && NatToString(p.day) + " de " + Months[p.monthIndex] + " de " <= s
            && DaysFromCivil(p.year, p.monthIndex + 1, p.day) * DayMs - offset == LocalDayStart(t, offset)
            && |s| >= 5 && IsTimeText(s[|s| - 5..])
            && ParseTime(s[|s| - 5..]) == TimeOfDay(LocalHours(t, offset), LocalMinutes(t, offset))
  {
    var p := LocalParts(t, offset);
    var s := FormatDateSpanish(Some(t), offset);
    var head := NatToString(p.day) + " de " + Months[p.monthIndex] + " de ";
    var clock := ClockText(p.hours, p.minutes);
    var rest := IntToString(p.year) + " a las ";
    ClockTextRoundTrip(p.hours, p.minutes);
    assert s == head + rest + clock;
    ThreePieces(head, rest, clock);
  }

  /** The first and the last of three joined texts can be read back off the whole. */
  lemma ThreePieces(head: string, middle: string, tail: string)
    ensures var s := head + middle + tail;
            head <= s && s[|s| - |tail|..] == tail
  {
    var s := head + middle + tail;
    assert s == head + (middle + tail);
    assert s[..|head|] == head;
  }

  // ---------------------------------------------------------------------
  // The tool

  /** The success message: it names the service, the barber and the date; a missing name prints as "undefined". */
  function ConfirmedText(pending: PendingBooking, formattedDate: string): (m: string)
    ensures Contains(m, TextOrUndefined(pending.serviceName))
    ensures Contains(m, TextOrUndefined(pending.barberName))
    ensures Contains(m, formattedDate)
  {
    var p1 := "✅ ¡Turno confirmado! Tu reserva para " + TextOrUndefined(pending.serviceName);
    var p2 := p1 + " con " + TextOrUndefined(pending.barberName);
    var p3 := p2 + " el " + formattedDate;
    var m := p3 + " ha sido registrada. Te esperamos!";
    ContainsAt(m, TextOrUndefined(pending.serviceName), |p1| - |TextOrUndefined(pending.serviceName)|);
    ContainsAt(m, TextOrUndefined(pending.barberName), |p2| - |TextOrUndefined(pending.barberName)|);
    ContainsAt(m, formattedDate, |p3| - |formattedDate|);
    m
  }

  /** `conversation.context?.pendingBooking`. */
  function PendingOf(c: Conversation): Option<PendingBooking> {
    if c.context.Some? then c.context.value.pendingBooking else None
  }

  /** The staged booking carries its service, its barber and a non-empty date. */
  predicate Complete(p: PendingBooking) {
    p.serviceId.Some? && p.barberId.Some? && Truthy(p.datetime)
  }

  /** The request made for a staged booking that carries its service, barber and date. */
  function RequestFor(pending: PendingBooking, req: ConfirmRequest, parse: string -> Option<Timestamp>): (r: ScheduleRequest)
    requires pending.serviceId.Some? && pending.barberId.Some? && pending.datetime.Some?
    ensures Some(r.barberId) == pending.barberId && Some(r.serviceId) == pending.serviceId
    ensures r.startsAt == parse(pending.datetime.value)
    ensures (r.customerName, r.customerEmail, r.customerPhone) == (req.customerName, req.customerEmail, req.customerPhone)
  {
    ScheduleRequest(pending.barberId.value, pending.serviceId.value, parse(pending.datetime.value),
                    req.customerName, req.customerEmail, req.customerPhone)
  }

  /** The tool's reply and the conversations table it leaves. */
  function ConfirmOutcome(conversations: map<Id, Conversation>, req: ConfirmRequest,
                          parse: string -> Option<Timestamp>,
                          schedule: ScheduleRequest -> Option<ScheduleResult>, offset: int)
    : (r: (ToolReply, map<Id, Conversation>))
    ensures !r.0.ToolStaged?
    ensures req.conversationId !in conversations ==> r == (ToolFailed(NoConversationText), conversations)
    ensures req.conversationId in conversations ==>
              var pending := PendingOf(conversations[req.conversationId]);
              (pending.None? || pending.value.confirmed) ==> r == (ToolFailed(NoPendingText), conversations)
    ensures req.conversationId in conversations ==>
              var c := conversations[req.conversationId];
              var pending := PendingOf(c);
              pending.Some? && !pending.value.confirmed ==>
                var p := pending.value;
                if !Complete(p) then r == (ToolFailed(MissingDataText), conversations)
                else
                  var result := schedule(RequestFor(p, req, parse));
                  if result.None? then r == (ToolFailed(ConfirmErrorText), conversations)
                  else if !result.value.ok then
                    r == (ToolFailed(if Truthy(result.value.message) then result.value.message.value else NotBookedText),
                          conversations)
                  else if result.value.appointmentId.None? then r == (ToolFailed(NoIdText), conversations)
                  else
                    var id := result.value.appointmentId.value;
                    r == (ToolBooked(id, ConfirmedText(p, FormatDateSpanish(parse(p.datetime.value), offset))),
                          conversations[req.conversationId :=
                            c.(context := Some(ConversationContext(None, Some(id))))])
    ensures !r.0.ToolBooked? ==> r.1 == conversations
    ensures r.0.ToolBooked? ==>
              && req.conversationId in conversations
              && var c := conversations[req.conversationId];
                 var pending := PendingOf(c);
                 && pending.Some? && !pending.value.confirmed
                 && Complete(pending.value)
                 && var result := schedule(RequestFor(pending.value, req, parse));
                    && result.Some? && result.value.ok && result.value.appointmentId == Some(r.0.appointmentId)
                    && r.0.message == ConfirmedText(pending.value, FormatDateSpanish(parse(pending.value.datetime.value), offset))
                    && r.1 == conversations[req.conversationId :=
                         c.(context := Some(ConversationContext(None, Some(r.0.appointmentId))))]
  {
    if req.conversationId !in conversations then (ToolFailed(NoConversationText), conversations)
    else
      var c := conversations[req.conversationId];
      var pending := PendingOf(c);
      if pending.None? || pending.value.confirmed then (ToolFailed(NoPendingText), conversations)
      else
        var p := pending.value;
        if !Complete(p) then (ToolFailed(MissingDataText), conversations)
        else
          match schedule(RequestFor(p, req, parse))
          case None => (ToolFailed(ConfirmErrorText), conversations)
          case Some(result) =>
            if !result.ok then
              (ToolFailed(if Truthy(result.message) then result.message.value else NotBookedText), conversations)
            else if result.appointmentId.None? then (ToolFailed(NoIdText), conversations)
            else
              var id := result.appointmentId.value;
              (ToolBooked(id, ConfirmedText(p, FormatDateSpanish(parse(p.datetime.value), offset))),
               conversations[req.conversationId := c.(context := Some(ConversationContext(None, Some(id))))])
  }

  /** The tool itself. */
  method Confirm(conversations: Repository<Conversation>, req: ConfirmRequest,
                 parse: string -> Option<Timestamp>,
                 schedule: ScheduleRequest -> Option<ScheduleResult>, offset: int)
    returns (reply: ToolReply)
    requires conversations.Valid()
    modifies conversations`rows
    ensures conversations.Valid()
    ensures (reply, conversations.rows) == ConfirmOutcome(old(conversations.rows), req, parse, schedule, offset)
  {
    var found := conversations.FindOne(req.conversationId);
    if found.None? {
      return ToolFailed(NoConversationText);
    }
    var conversation := found.value;

    var pending := if conversation.context.Some? then conversation.context.value.pendingBooking else None;
    if pending.None? || pending.value.confirmed {
      return ToolFailed(NoPendingText);
    }
    var p := pending.value;

    if p.serviceId.None? || p.barberId.None? || p.datetime.None? || p.datetime.value == "" {
      return ToolFailed(MissingDataText);
    }

    var result := schedule(ScheduleRequest(p.barberId.value, p.serviceId.value, parse(p.datetime.value),
                                           req.customerName, req.customerEmail, req.customerPhone));
    if result.None? {
      return ToolFailed(ConfirmErrorText);
    }
    if !result.value.ok {
      var message := result.value.message;
      return ToolFailed(if message.Some? && message.value != "" then message.value else NotBookedText);
    }
    if result.value.appointmentId.None? {
      return ToolFailed(NoIdText);
    }

    var id := result.value.appointmentId.value;
    conversation := conversation.(context := Some(conversation.context.value.(
      pendingBooking := None, lastMentionedAppointmentId := Some(id))));
    conversations.Save(req.conversationId, conversation);

    var formattedDate := FormatDateSpanish(parse(p.datetime.value), offset);
    reply := ToolBooked(id, ConfirmedText(p, formattedDate));
  }
}

=== FILE: customers.dfy ===
/**
 * The customer book (src/customers/customers.service.ts): list, look up by id or by
 * phone, create, edit the supplied fields, delete. The statistics attached to a customer
 * are placeholders that are always zero.
 *
 * The database stamps `createdAt` when a row is inserted; that clock is the `now`
 * parameter of `Create`.
 */
module Customers {
  import opened Common
  import opened Entities
  import opened Repositories
  import opened Query

  datatype CreateCustomerDto = CreateCustomerDto(
    name: string,
    phone: string,
    email: Option<string>,
    notes: Option<string>)

  datatype UpdateCustomerDto = UpdateCustomerDto(
    name: Option<string>,
    phone: Option<string>,
    email: Option<string>,
    notes: Option<string>)

  /** `CustomerWithStats`: the row and its id, with statistics not yet computed. */
  datatype CustomerWithStats = CustomerWithStats(
    id: Id,
    customer: Customer,
    totalVisits: int,
    totalSpent: int,
    favoriteServices: seq<string>,
    averageFrequency: int)

  /** The row as listed: every statistic zero, no favourite services. */
  function WithStats(e: (Id, Customer)): (v: CustomerWithStats)
    ensures v.id == e.0 && v.customer == e.1
    ensures v.totalVisits == 0 && v.totalSpent == 0 && v.averageFrequency == 0
    ensures v.favoriteServices == []
  {
    CustomerWithStats(e.0, e.1, 0, 0, [], 0)
  }

  // ---------------------------------------------------------------------
  // findAll, findOne, findByPhone

  /** `findAll`: every customer once, newest first. */
  method FindAll(rows: map<Id, Customer>) returns (out: seq<CustomerWithStats>)
    ensures forall v :: v in out <==> v.id in rows && v == WithStats((v.id, rows[v.id]))
    ensures forall i, j :: 0 <= i < j < |out| ==> out[i].customer.createdAt >= out[j].customer.createdAt
    ensures forall i, j :: 0 <= i < j < |out| ==> out[i].id != out[j].id
  {
    ByIntDescIsTotalPreorder(CustomerCreatedAt);
    var all := SelectOrdered(rows, (c: Customer) => true, ByIntDesc(CustomerCreatedAt));
    out := [];
    for k := 0 to |all|
      invariant |out| == k
      invariant forall i :: 0 <= i < k ==> out[i] == WithStats(all[i])
    {
      out := out + [WithStats(all[k])];
    }
    forall v
      ensures v in out <==> v.id in rows && v == WithStats((v.id, rows[v.id]))
    {
      if v in out {
        var i :| 0 <= i < |out| && out[i] == v;
        assert all[i] in all;
      }
      if v.id in rows && v == WithStats((v.id, rows[v.id])) {
        var e := (v.id, rows[v.id]);
        assert e in all;
        var i :| 0 <= i < |all| && all[i] == e;
        assert out[i] == v;
      }
    }
    forall i, j | 0 <= i < j < |out|
      ensures out[i].customer.createdAt >= out[j].customer.createdAt && out[i].id != out[j].id
    {
      assert ByIntDesc(CustomerCreatedAt)(all[i].1, all[j].1);
      assert CustomerCreatedAt(all[i].1) >= CustomerCreatedAt(all[j].1);
    }
  }

  /** `findOne`: the customer with zeroed statistics, or NotFound. */
  function FindOne(rows: map<Id, Customer>, id: Id): (r: Result<CustomerWithStats>)
    ensures r.Ok? <==> id in rows
    ensures r.Ok? ==> r.value == WithStats((id, rows[id]))
    ensures r.Err? ==> r.error == NotFound
  {
    if id in rows then Ok(WithStats((id, rows[id]))) else Err(NotFound)
  }

  predicate HasPhone(rows: map<Id, Customer>, phone: string) {
    exists id :: id in rows && rows[id].phone == Some(phone)
  }

  /** `findByPhone`: some customer with exactly that phone, or none (`null`) when no one has it. */
  method FindByPhone(rows: map<Id, Customer>, phone: string) returns (r: Option<(Id, Customer)>)
    ensures r.None? <==> !HasPhone(rows, phone)
    ensures r.Some? ==> r.value.0 in rows && r.value.1 == rows[r.value.0] && r.value.1.phone == Some(phone)
  {
    if HasPhone(rows, phone) {
      var id :| id in rows && rows[id].phone == Some(phone);
      r := Some((id, rows[id]));
    } else {
      r := None;
    }
  }

  // ---------------------------------------------------------------------
  // create, update, remove

  /** The new row: the four fields copied from the input, stamped with the insertion time. */
  function NewCustomer(dto: CreateCustomerDto, now: Timestamp): (c: Customer)
    ensures c.name == dto.name && c.phone == Some(dto.phone)
    ensures c.email == dto.email && c.notes == dto.notes && c.createdAt == now
  {
    Customer(dto.name, Some(dto.phone), dto.email, dto.notes, now)
  }

  method Create(customers: Repository<Customer>, dto: CreateCustomerDto, now: Timestamp)
    returns (id: Id, c: Customer)
    requires customers.Valid()
    modifies customers
    ensures customers.Valid()
    ensures id !in old(customers.rows) && customers.rows == old(customers.rows)[id := c]
    ensures c == NewCustomer(dto, now)
  {
    c := Customer(dto.name, Some(dto.phone), dto.email, dto.notes, now);
    id := customers.Insert(c);
  }

  /** The supplied fields replace the stored ones; `createdAt` and the rest stay. */
  function Updated(c: Customer, dto: UpdateCustomerDto): (u: Customer)
    ensures u.name == Pick(dto.name, c.name)
    ensures u.phone == (if dto.phone.Some? then dto.phone else c.phone)
    ensures u.email == (if dto.email.Some? then dto.email else c.email)
    ensures u.notes == (if dto.notes.Some? then dto.notes else c.notes)
    ensures u.createdAt == c.createdAt
  {
    c.(name := Pick(dto.name, c.name),
       phone := if dto.phone.Some? then dto.phone else c.phone,
       email := if dto.email.Some? then dto.email else c.email,
       notes := if dto.notes.Some? then dto.notes else c.notes)
  }

  /** An update that supplies nothing leaves the customer as it was. */
  lemma UpdateWithNothingKeepsCustomer(c: Customer)
    ensures Updated(c, UpdateCustomerDto(None, None, None, None)) == c
  {
  }

  /** Applying the same update twice is applying it once. */
  lemma UpdateIsIdempotent(c: Customer, dto: UpdateCustomerDto)
    ensures Updated(Updated(c, dto), dto) == Updated(c, dto)
  {
  }

  /** The field edits of `update`: each supplied field is copied onto the loaded customer. */
  method ApplyFieldEdits(x: Customer, dto: UpdateCustomerDto) returns (u: Customer)
    ensures u == Updated(x, dto)
  {
    u := x;
    if dto.name.Some? {
      u := u.(name := dto.name.value);
    }
    if dto.phone.Some? {
      u := u.(phone := dto.phone);
    }
    if dto.email.Some? {
      u := u.(email := dto.email);
    }
    if dto.notes.Some? {
      u := u.(notes := dto.notes);
    }
  }

  method Update(customers: Repository<Customer>, id: Id, dto: UpdateCustomerDto) returns (r: Result<Customer>)
    requires customers.Valid()
    modifies customers`rows
    ensures customers.Valid()
    ensures id !in old(customers.rows) ==> r == Err(NotFound) && customers.rows == old(customers.rows)
    ensures id in old(customers.rows) ==>
              && r == Ok(Updated(old(customers.rows)[id], dto))
              && customers.rows == old(customers.rows)[id := r.value]
  {
    var found := customers.FindOne(id);
    if found.None? {
      return Err(NotFound);
    }
    var customer := ApplyFieldEdits(found.value, dto);
    customers.Save(id, customer);
    r := Ok(customer);
  }

  /** Some appointment names the customer. */
  predicate HasAppointments(appointments: map<Id, Appointment>, id: Id) {
    exists k :: k in appointments && appointments[k].customerId == Some(id)
  }

  /**
   * `remove`: NotFound on an unknown id. A customer some appointment names is kept: the
   * appointments' foreign key makes the delete fail. Otherwise that row alone goes.
   */
  method Remove(customers: Repository<Customer>, appointments: map<Id, Appointment>, id: Id) returns (r: Result<()>)
    requires customers.Valid()
    modifies customers`rows
    ensures customers.Valid()
    ensures id !in old(customers.rows) ==> r == Err(NotFound) && customers.rows == old(customers.rows)
    ensures id in old(customers.rows) && HasAppointments(appointments, id) ==>
              r == Err(Internal) && customers.rows == old(customers.rows)
    ensures id in old(customers.rows) && !HasAppointments(appointments, id) ==>
              r == Ok(()) && customers.rows == old(customers.rows) - {id}
    ensures forall k :: k in appointments && appointments[k].customerId.Some?
                        && appointments[k].customerId.value in old(customers.rows) ==>
              appointments[k].customerId.value in customers.rows
  {
    var found := customers.FindOne(id);
    if found.None? {
      return Err(NotFound);
    }
    if HasAppointments(appointments, id) {
      return Err(Internal);
    }
    customers.Remove(id);
    r := Ok(());
  }
}

=== FILE: entities.dfy ===
/**
 * The persisted records. A record does not carry its own id: a table maps ids to
 * records. The database-managed `createdAt` column is kept where a list is ordered by it
 * (services, barbers, customers); `updatedAt` is read by nothing in the model.
 */
module Entities {
  import opened Common

  /** The five appointment statuses; `Reserved` is the column default. */
  datatype Status = Reserved | Confirmed | Cancelled | Completed | NoShow

  datatype Appointment = Appointment(
    customerId: Option<Id>,   // nullable: walk-ins have no customer
    barberId: Id,
    serviceId: Id,
    startsAt: Timestamp,
    endsAt: Timestamp,
    status: Status,
    notes: Option<string>)

  datatype Service = Service(
    name: string,
    description: Option<string>,
    durationMinutes: int,
    priceCents: int,
    isActive: bool,
    createdAt: Timestamp)

  /** One weekly working-hours row: day 0-6 (0 = Sunday) and "HH:mm" bounds. */
  datatype WorkSlot = WorkSlot(dayOfWeek: int, startTime: string, endTime: string)

  /** A `barber_schedules` row: one weekly slot of one barber (deleted with the barber). */
  datatype ScheduleRow = ScheduleRow(barberId: Id, slot: WorkSlot)

  datatype Barber = Barber(
    name: string,
    phone: Option<string>,
    email: Option<string>,
    specialty: Option<string>,
    isActive: bool,
    createdAt: Timestamp)

  datatype Customer = Customer(
    name: string,
    phone: Option<string>,
    email: Option<string>,
    notes: Option<string>,
    createdAt: Timestamp)

  datatype Role = User | Assistant | System

  datatype Message = Message(role: Role, content: string, timestamp: Timestamp)

  /**
   * The staged booking the scheduling tool writes into a conversation's context. Every
   * field is optional because the context is free-form JSON; the tool always writes all
   * of them, with `confirmed` false.
   */
  datatype PendingBooking = PendingBooking(
    serviceId: Option<Id>,
    serviceName: Option<string>,
    barberId: Option<Id>,
    barberName: Option<string>,
    datetime: Option<string>,   // the ISO text the tool was given
    priceCents: Option<int>,
    confirmed: bool)

  datatype ConversationContext = ConversationContext(
    pendingBooking: Option<PendingBooking>,
    lastMentionedAppointmentId: Option<Id>)

  /** `{}`: the context a conversation starts from when its column is null. */
  const EmptyContext := ConversationContext(None, None)

  datatype Conversation = Conversation(
    userId: string,
    messages: seq<Message>,
    context: Option<ConversationContext>)

  // Column accessors, used as filter and ORDER BY keys.
  function ServiceName(s: Service): string { s.name }
  function BarberName(b: Barber): string { b.name }
  function IsActiveService(s: Service): bool { s.isActive }
  function IsActiveBarber(b: Barber): bool { b.isActive }
  function ServiceCreatedAt(s: Service): int { s.createdAt }
  function BarberCreatedAt(b: Barber): int { b.createdAt }
  function CustomerCreatedAt(c: Customer): int { c.createdAt }
}

=== FILE: query.dfy ===
/**
 * `find({ where, order })`: the rows of a table that satisfy a filter, listed in the
 * order an ORDER BY clause asks for. Ties may come out in any order.
 */
module Query {
  import opened Common
  import Text

  /** `before` can serve as an ORDER BY: it is total and transitive (so also reflexive). */
  ghost predicate TotalPreorder<R(!new)>(before: (R, R) -> bool) {
    && (forall a, b :: before(a, b) || before(b, a))
    && (forall a, b, c :: before(a, b) && before(b, c) ==> before(a, c))
  }

  ghost predicate Ordered<R>(s: seq<(Id, R)>, before: (R, R) -> bool) {
    forall i, j :: 0 <= i < j < |s| ==> before(s[i].1, s[j].1)
  }

  ghost predicate DistinctIds<R>(s: seq<(Id, R)>) {
    forall i, j :: 0 <= i < j < |s| ==> s[i].0 != s[j].0
  }

  /** Puts `x` in front of the first element it may precede. */
  function InsertOrdered<R>(s: seq<(Id, R)>, x: (Id, R), before: (R, R) -> bool): (r: seq<(Id, R)>)
    ensures multiset(r) == multiset(s) + multiset{x}
  {
    if s == [] then [x]
    else if before(x.1, s[0].1) then [x] + s
    else
      assert s == [s[0]] + s[1..];
      [s[0]] + InsertOrdered(s[1..], x, before)
  }

  lemma {:induction false} InsertOrderedKeepsOrder<R(!new)>(s: seq<(Id, R)>, x: (Id, R), before: (R, R) -> bool)
    requires TotalPreorder(before) && Ordered(s, before)
    ensures Ordered(InsertOrdered(s, x, before), before)
  {
    if s != [] && !before(x.1, s[0].1) {
      InsertOrderedKeepsOrder(s[1..], x, before);
      var t := InsertOrdered(s[1..], x, before);
      forall j | 0 <= j < |t|
        ensures before(s[0].1, t[j].1)
      {
        assert t[j] in multiset(t);
        if t[j] != x {
          assert t[j] in s[1..];
        }
      }
    }
  }

  lemma {:induction false} InsertOrderedKeepsIdsDistinct<R>(s: seq<(Id, R)>, x: (Id, R), before: (R, R) -> bool)
    requires DistinctIds(s)
    requires forall e :: e in s ==> e.0 != x.0
    ensures DistinctIds(InsertOrdered(s, x, before))
  {
    if s != [] && !before(x.1, s[0].1) {
      InsertOrderedKeepsIdsDistinct(s[1..], x, before);
      var t := InsertOrdered(s[1..], x, before);
      forall j | 0 <= j < |t|
        ensures s[0].0 != t[j].0
      {
        assert t[j] in multiset(t);
        if t[j] != x {
          assert t[j] in s[1..];
        }
      }
    }
  }

  /** The rows `keep` accepts, each once, ordered by `before`. */
  method SelectOrdered<R(!new)>(rows: map<Id, R>, keep: R -> bool, before: (R, R) -> bool)
    returns (out: seq<(Id, R)>)
    requires TotalPreorder(before)
    ensures Ordered(out, before) && DistinctIds(out)
    ensures forall e :: e in out <==> e.0 in rows && e.1 == rows[e.0] && keep(e.1)
  {
    var pending := rows.Keys;
    out := [];
    while pending != {}
      invariant pending <= rows.Keys
      invariant Ordered(out, before) && DistinctIds(out)
      invariant forall e :: e in out <==> e.0 in rows.Keys - pending && e.1 == rows[e.0] && keep(e.1)
      decreases pending
    {
      var id :| id in pending;
      if keep(rows[id]) {
        var x := (id, rows[id]);
        InsertOrderedKeepsOrder(out, x, before);
        InsertOrderedKeepsIdsDistinct(out, x, before);
        ghost var was := out;
        out := InsertOrdered(out, x, before);
        forall e
          ensures e in out <==> e in was || e == x
        {
          assert e in out <==> e in multiset(out);
        }
      }
      pending := pending - {id};
    }
  }

  // ---------------------------------------------------------------------
  // The orders the services ask for

  /** `ORDER BY key ASC` on a text column. */
  function ByText<R>(key: R -> string): (R, R) -> bool {
    (a: R, b: R) => Text.LexLe(key(a), key(b))
  }

  /** `ORDER BY key DESC` on a timestamp column. */
  function ByIntDesc<R>(key: R -> int): (R, R) -> bool {
    (a: R, b: R) => key(a) >= key(b)
  }

  /** No ORDER BY: any order will do. */
  function AnyOrder<R>(): (R, R) -> bool {
    (a: R, b: R) => true
  }

  lemma ByTextIsTotalPreorder<R(!new)>(key: R -> string)
    ensures TotalPreorder(ByText(key))
  {
    forall a: R, b: R
      ensures ByText(key)(a, b) || ByText(key)(b, a)
    {
      Text.LexLeTotal(key(a), key(b));
    }
    forall a: R, b: R, c: R | ByText(key)(a, b) && ByText(key)(b, c)
      ensures ByText(key)(a, c)
    {
      Text.LexLeTransitive(key(a), key(b), key(c));
    }
  }

  lemma ByIntDescIsTotalPreorder<R(!new)>(key: R -> int)
    ensures TotalPreorder(ByIntDesc(key))
  {
  }

  lemma AnyOrderIsTotalPreorder<R(!new)>()
    ensures TotalPreorder(AnyOrder<R>())
  {
  }
}

=== FILE: repository.dfy ===
/** A TypeORM repository, modelled as a table held in an object. */
module Repositories {
  import opened Common

  /** `findOne({ where: { id } })` on a table's contents. */
  function Lookup<R>(rows: map<Id, R>, id: Id): (r: Option<R>)
    ensures r.Some? <==> id in rows
    ensures r.Some? ==> r.value == rows[id]
  {
    if id in rows then Some(rows[id]) else None
  }

  /** One table: rows by id, and the generator of fresh ids for inserted rows. */
  class Repository<R> {
    var rows: map<Id, R>
    var nextId: Id

    /** Every stored id was handed out by the generator. */
    ghost predicate Valid()
      reads this
    {
      forall id :: id in rows ==> id < nextId
    }

    constructor ()
      ensures Valid() && rows == map[]
    {
      rows := map[];
      nextId := 0;
    }

    /** `save` of a new entity: the database generates an id no row has. */
    method Insert(r: R) returns (id: Id)
      requires Valid()
      modifies this
      ensures Valid()
      ensures id !in old(rows) && rows == old(rows)[id := r]
    {
      id := nextId;
      rows := rows[id := r];
      nextId := nextId + 1;
    }

    /** `save` of a loaded entity: its row is overwritten. */
    method Save(id: Id, r: R)
      requires Valid() && id in rows
      modifies this`rows
      ensures Valid() && rows == old(rows)[id := r]
    {
      rows := rows[id := r];
    }

    /** `remove`: the row is deleted. */
    method Remove(id: Id)
      requires Valid()
      modifies this`rows
      ensures Valid() && rows == old(rows) - {id}
    {
      rows := rows - {id};
    }

    /** `delete(where)`: every row the condition matches is deleted, the others stay. */
    method DeleteWhere(matches: R -> bool)
      requires Valid()
      modifies this`rows
      ensures Valid()
      ensures rows == map id | id in old(rows) && !matches(old(rows)[id]) :: old(rows)[id]
    {
      rows := map id | id in rows && !matches(rows[id]) :: rows[id];
    }

    method FindOne(id: Id) returns (r: Option<R>)
      ensures r == Lookup(rows, id)
    {
      r := if id in rows then Some(rows[id]) else None;
    }
  }
}

=== FILE: resolve_datetime.dfy ===
/**
 * The `resolve_datetime` tool (src/agent/tools/resolve-datetime.tool.ts): turns a phrase
 * such as "mañana 15:00" or "hoy 10:30 pm" into an instant. A keyword picks the day
 * relative to today, otherwise the text is tried as an absolute date; the first "H:MM"
 * in the text gives the time (12-hour when followed by am/pm), and 15:00 is the default.
 *
 * The clock (`now`), `new Date(text)`, the set of time zones the runtime knows and the
 * `es-AR` formatter are parameters.
 */
module ResolveDatetime {
  import opened Common
  import opened Text
  import opened Clock

  const DefaultTimezone := "America/Argentina/Cordoba"

  datatype Period = Am | Pm

  /** The groups of `/(\d{1,2}):(\d{2})\s*(am|pm)?/i` once matched. */
  datatype TimeMatch = TimeMatch(hours: nat, minutes: nat, period: Option<Period>)

  /** `{ ok: true, data: { original, iso, formatted, timezone } }` or the DATETIME_PARSE_FAILED reply. */
  datatype ResolveReply =
    | Resolved(original: string, iso: Timestamp, formatted: string, timezone: string)
    | ResolveFailed(error: string)

  function FailedText(text: string): string {
    "No pude interpretar la fecha \"" + text + "\". Usá formato claro como \"mañana 15:00\" o \"2025-12-20T15:00:00\""
  }

  // ---------------------------------------------------------------------
  // Keyword day offsets

  predicate MentionsTomorrow(lower: string) {
    Contains(lower, "mañana") || Contains(lower, "tomorrow")
  }

  predicate MentionsDayAfterTomorrow(lower: string) {
    Contains(lower, "pasado mañana") || Contains(lower, "day after tomorrow")
  }

  predicate MentionsToday(lower: string) {
    Contains(lower, "hoy") || Contains(lower, "today")
  }

  /** The if/else chain as written: days after today, or `None` to try an absolute date. */
  function DayOffsetAsWritten(lower: string): (r: Option<int>)
    ensures r == Some(1) <==> MentionsTomorrow(lower)
    ensures r == Some(0) <==> MentionsToday(lower) && !MentionsTomorrow(lower) && !MentionsDayAfterTomorrow(lower)
    ensures r.None? <==> !MentionsTomorrow(lower) && !MentionsDayAfterTomorrow(lower) && !MentionsToday(lower)
  {
    if MentionsTomorrow(lower) then Some(1)
    else if MentionsDayAfterTomorrow(lower) then Some(2)
    else if MentionsToday(lower) then Some(0)
    else None
  }

  /** Each longer phrase contains the shorter one, so the first test already catches it. */
  lemma DayAfterTomorrowMentionsTomorrow(lower: string)
    requires MentionsDayAfterTomorrow(lower)
    ensures MentionsTomorrow(lower)
  {
    if Contains(lower, "pasado mañana") {
      ContainsAt("pasado mañana", "mañana", 7);
      ContainsTransitive(lower, "pasado mañana", "mañana");
    } else {
      ContainsAt("day after tomorrow", "tomorrow", 10);
      ContainsTransitive(lower, "day after tomorrow", "tomorrow");
    }
  }

  /** As written, the two-day branch is dead: no text resolves to the day after tomorrow. */
  lemma DayOffsetAsWrittenNeverTwo(lower: string)
    ensures DayOffsetAsWritten(lower) != Some(2)
  {
    if MentionsDayAfterTomorrow(lower) {
      DayAfterTomorrowMentionsTomorrow(lower);
    }
  }

  /** "pasado mañana" (the day after tomorrow) resolves to tomorrow as written. */
  lemma PasadoMananaIsTomorrowAsWritten()
    ensures DayOffsetAsWritten("pasado mañana 10:00") == Some(1)
  {
    ContainsAt("pasado mañana 10:00", "mañana", 7);
  }

  /** The chain that tries the longer phrases first. */
  function DayOffset(lower: string): (r: Option<int>)
    ensures r == Some(2) <==> MentionsDayAfterTomorrow(lower)
    ensures r == Some(1) <==> MentionsTomorrow(lower) && !MentionsDayAfterTomorrow(lower)
    ensures r == Some(0) <==> MentionsToday(lower) && !MentionsTomorrow(lower)
    ensures r.None? <==> !MentionsTomorrow(lower) && !MentionsToday(lower)
  {
    if MentionsDayAfterTomorrow(lower) then
      DayAfterTomorrowMentionsTomorrow(lower);
      Some(2)
    else if MentionsTomorrow(lower) then Some(1)
    else if MentionsToday(lower) then Some(0)
    else None
  }

  /** The correction changes only texts that name the day after tomorrow. */
  lemma DayOffsetAgreesAsWritten(lower: string)
    requires !MentionsDayAfterTomorrow(lower)
    ensures DayOffset(lower) == DayOffsetAsWritten(lower)
  {
  }

  // ---------------------------------------------------------------------
  // The time pattern

  /** The optional `(am|pm)` group, case-insensitive, at position `j`. */
  function PeriodAt(s: string, j: nat): (r: Option<Period>)
    ensures r.Some? ==> j + 2 <= |s| && LowerChar(s[j + 1]) == 'm'
    ensures r == Some(Am) ==> LowerChar(s[j]) == 'a'
    ensures r == Some(Pm) ==> LowerChar(s[j]) == 'p'
  {
    if j + 2 <= |s| && LowerChar(s[j + 1]) == 'm' && LowerChar(s[j]) == 'a' then Some(Am)
    else if j + 2 <= |s| && LowerChar(s[j + 1]) == 'm' && LowerChar(s[j]) == 'p' then Some(Pm)
    else None
  }

  /**
   * The pattern anchored at position `i`: two hour digits are tried before one, `\s*`
   * takes every following white space character, and the period is whatever follows that.
   */
  function MatchAt(s: string, i: nat): (r: Option<TimeMatch>)
    requires i <= |s|
    ensures r.Some? ==> r.value.hours < 100 && r.value.minutes < 100
  {
    if i + 5 <= |s| && IsDigit(s[i]) && IsDigit(s[i + 1]) && s[i + 2] == ':'
       && IsDigit(s[i + 3]) && IsDigit(s[i + 4]) then
      Some(TimeMatch(DigitValue(s[i]) * 10 + DigitValue(s[i + 1]),
                     DigitValue(s[i + 3]) * 10 + DigitValue(s[i + 4]),
                     PeriodAt(s, TrimStartIndex(s, i + 5))))
    else if i + 4 <= |s| && IsDigit(s[i]) && s[i + 1] == ':' && IsDigit(s[i + 2]) && IsDigit(s[i + 3]) then
      Some(TimeMatch(DigitValue(s[i]),
                     DigitValue(s[i + 2]) * 10 + DigitValue(s[i + 3]),
                     PeriodAt(s, TrimStartIndex(s, i + 4))))
    else None
  }

  /** Where the leftmost match at or after `i` starts. */
  function FirstMatchIndex(s: string, i: nat): (r: Option<nat>)
    requires i <= |s|
    ensures r.Some? ==> i <= r.value <= |s| && MatchAt(s, r.value).Some?
    ensures r.Some? ==> forall k :: i <= k < r.value ==> MatchAt(s, k).None?
    ensures r.None? ==> forall k :: i <= k <= |s| ==> MatchAt(s, k).None?
    decreases |s| - i
  {
    if MatchAt(s, i).Some? then Some(i)
    else if i == |s| then None
    else FirstMatchIndex(s, i + 1)
  }

  /** `text.match(pattern)`: the leftmost match, if any. */
  function FirstTimeMatch(s: string): (r: Option<TimeMatch>)
    ensures r.Some? ==> r.value.hours < 100 && r.value.minutes < 100
  {
    var k := FirstMatchIndex(s, 0);
    if k.Some? then MatchAt(s, k.value) else None
  }

  /** A text holding no digit has no time in it. */
  lemma NoDigitNoTime(s: string)
    requires forall k :: 0 <= k < |s| ==> !IsDigit(s[k])
    ensures FirstTimeMatch(s).None?
  {
  }

  /** An "HH:MM" text is read as that time, with no period. */
  lemma ClockTextMatches(hours: nat, minutes: nat)
    requires hours < 100 && minutes < 100
    ensures FirstTimeMatch(ClockText(hours, minutes)) == Some(TimeMatch(hours, minutes, None))
  {
    var s := ClockText(hours, minutes);
    ClockTextRoundTrip(hours, minutes);
    assert |s| == 5 && s[2] == ':';
    assert IsDigit(s[0]) && IsDigit(s[1]) by { assert s[0] == s[..2][0] && s[1] == s[..2][1]; }
    assert IsDigit(s[3]) && IsDigit(s[4]) by { assert s[3] == s[3..][0] && s[4] == s[3..][1]; }
    ParseTwoDigits(s[..2]);
    ParseTwoDigits(s[3..]);
    assert TrimStartIndex(s, 5) == 5;
    assert MatchAt(s, 0) == Some(TimeMatch(hours, minutes, None));
  }

  /** `if (pm && hours !== 12) hours += 12; else if (am && hours === 12) hours = 0`. */
  function ConvertHour(hours: nat, period: Option<Period>): (h: nat)
    ensures period.None? ==> h == hours
    ensures period.Some? && 1 <= hours <= 12 ==>
              h < 24 && h % 12 == hours % 12 && (h >= 12 <==> period.value == Pm)
  {
    match period
    case Some(Pm) => if hours != 12 then hours + 12 else hours
    case Some(Am) => if hours == 12 then 0 else hours
    case None => hours
  }

  /** The wall-clock time the text asks for, 15:00 when it has none. */
  function RequestedTime(text: string): (t: TimeOfDay)
    ensures FirstTimeMatch(text).None? ==> t == TimeOfDay(15, 0)
    ensures FirstTimeMatch(text).Some? ==>
              t.minutes == FirstTimeMatch(text).value.minutes
              && t.hours == ConvertHour(FirstTimeMatch(text).value.hours, FirstTimeMatch(text).value.period)
  {
    var m := FirstTimeMatch(text);
    if m.Some? then TimeOfDay(ConvertHour(m.value.hours, m.value.period), m.value.minutes)
    else TimeOfDay(15, 0)
  }

  // ---------------------------------------------------------------------
  // The tool

  /** The date before its time is set: today moved by the keyword, the parsed text, or today. */
  function TargetDay(text: string, today: Timestamp, parse: string -> Option<Timestamp>): (r: Option<Timestamp>)
    ensures DayOffsetAsWritten(Trim(ToLower(text))) == Some(0) ==> r == Some(today)
    ensures DayOffsetAsWritten(Trim(ToLower(text))).Some? && DayOffsetAsWritten(Trim(ToLower(text))) != Some(0) ==>
              r == TimeClip(today + DayOffsetAsWritten(Trim(ToLower(text))).value * DayMs)
    ensures DayOffsetAsWritten(Trim(ToLower(text))).None? ==> r == if parse(text).Some? then parse(text) else Some(today)
  {
    var lower := Trim(ToLower(text));
    var offset := DayOffsetAsWritten(lower);
    if offset == Some(0) then Some(today)
    else if offset.Some? then TimeClip(today + offset.value * DayMs)
    else if parse(text).Some? then parse(text)
    else Some(today)
  }

  /** What the tool replies, with `today` the local midnight of `now`. */
  function ResolveOutcome(text: string, timezone: Option<string>, now: Timestamp, offset: int,
                          parse: string -> Option<Timestamp>, validZone: string -> bool,
                          localeFormat: (Timestamp, string) -> string): (r: ResolveReply)
    ensures r.ResolveFailed? ==> r.error == FailedText(text)
    ensures r.Resolved? ==> r.original == text && r.timezone == timezone.GetOr(DefaultTimezone)
    ensures r.Resolved? ==> validZone(r.timezone) && -MaxTime <= r.iso <= MaxTime
    ensures r.Resolved? ==> r.formatted == localeFormat(r.iso, r.timezone)
    ensures !validZone(timezone.GetOr(DefaultTimezone)) ==> r == ResolveFailed(FailedText(text))
    ensures r.Resolved? ==>
              var day := TargetDay(text, LocalDayStart(now, offset), parse);
              day.Some? && r.iso == SetLocalTime(day.value, offset, RequestedTime(text).hours, RequestedTime(text).minutes)
    ensures var day := TargetDay(text, LocalDayStart(now, offset), parse);
            r.Resolved? <==>
              && validZone(timezone.GetOr(DefaultTimezone)) && day.Some?
              && -MaxTime <= SetLocalTime(day.value, offset, RequestedTime(text).hours, RequestedTime(text).minutes) <= MaxTime
  {
    var zone := timezone.GetOr(DefaultTimezone);
    var day := TargetDay(text, LocalDayStart(now, offset), parse);
    var time := RequestedTime(text);
    var target := if day.Some? then TimeClip(SetLocalTime(day.value, offset, time.hours, time.minutes)) else None;
    if target.None? || !validZone(zone) then ResolveFailed(FailedText(text))
    else Resolved(text, target.value, localeFormat(target.value, zone), zone)
  }

  /** The if/else chain on the lower-cased text: move today by the keyword, or take the parsed date. */
  method PickDay(text: string, today: Timestamp, parse: string -> Option<Timestamp>)
    returns (targetDate: Option<Timestamp>)
    ensures targetDate == TargetDay(text, today, parse)
  {
    targetDate := Some(today);
    var lowerText := Trim(ToLower(text));
    ghost var days := DayOffsetAsWritten(lowerText);
    if MentionsTomorrow(lowerText) {
      targetDate := TimeClip(today + DayMs);
      assert days == Some(1);
    } else if MentionsDayAfterTomorrow(lowerText) {
      targetDate := TimeClip(today + 2 * DayMs);
      assert days == Some(2);
    } else if MentionsToday(lowerText) {
      assert days == Some(0);
    } else {
      assert days.None?;
      var parsedDate := parse(text);
      if parsedDate.Some? {
        targetDate := parsedDate;
      }
    }
  }

  /** The time from the first match, converted from 12-hour form when it has a period. */
  method PickTime(text: string) returns (hours: int, minutes: int)
    ensures TimeOfDay(hours, minutes) == RequestedTime(text)
  {
    hours, minutes := 15, 0;
    var timeMatch := FirstTimeMatch(text);
    if timeMatch.Some? {
      hours := timeMatch.value.hours;
      minutes := timeMatch.value.minutes;
      if timeMatch.value.period == Some(Pm) && hours != 12 {
        hours := hours + 12;
      } else if timeMatch.value.period == Some(Am) && hours == 12 {
        hours := 0;
      }
    }
  }

  /**
   * The tool itself: start from today's local midnight, move the date, set the time,
   * then render; a NaN date or an unknown time zone is caught as DATETIME_PARSE_FAILED.
   */
  method Resolve(text: string, timezone: Option<string>, now: Timestamp, offset: int,
                 parse: string -> Option<Timestamp>, validZone: string -> bool,
                 localeFormat: (Timestamp, string) -> string) returns (r: ResolveReply)
    ensures r == ResolveOutcome(text, timezone, now, offset, parse, validZone, localeFormat)
  {
    var zone := if timezone.Some? then timezone.value else DefaultTimezone;
    var today := LocalDayStart(now, offset);
    var targetDate := PickDay(text, today, parse);
    var hours, minutes := PickTime(text);
    if targetDate.Some? {
      targetDate := TimeClip(SetLocalTime(targetDate.value, offset, hours, minutes));
    }
    if targetDate.None? || !validZone(zone) {
      return ResolveFailed(FailedText(text));
    }
    r := Resolved(text, targetDate.value, localeFormat(targetDate.value, zone), zone);
  }

  // ---------------------------------------------------------------------
  // What the reply means

  /**
   * A text with no day keyword that the date parser reads resolves to that date at the
   * requested time, whenever the zone is known and the instant is one a `Date` can hold.
   */
  lemma ParsedDateResolves(text: string, timezone: Option<string>, now: Timestamp, offset: int,
                           parse: string -> Option<Timestamp>, validZone: string -> bool,
                           localeFormat: (Timestamp, string) -> string)
    requires DayOffsetAsWritten(Trim(ToLower(text))).None? && parse(text).Some?
    requires validZone(timezone.GetOr(DefaultTimezone))
    requires -MaxTime <= SetLocalTime(parse(text).value, offset, RequestedTime(text).hours, RequestedTime(text).minutes)
             <= MaxTime
    ensures var r := ResolveOutcome(text, timezone, now, offset, parse, validZone, localeFormat);
            && r.Resolved?
            && r.iso == SetLocalTime(parse(text).value, offset, RequestedTime(text).hours, RequestedTime(text).minutes)
            && r.formatted == localeFormat(r.iso, timezone.GetOr(DefaultTimezone))
  {
  }

  /** With no time in the text, the instant is 15:00:00.000 local time. */
  lemma DefaultTimeIsThreePm(text: string, timezone: Option<string>, now: Timestamp, offset: int,
                             parse: string -> Option<Timestamp>, validZone: string -> bool,
                             localeFormat: (Timestamp, string) -> string)
    requires FirstTimeMatch(text).None?
    ensures var r := ResolveOutcome(text, timezone, now, offset, parse, validZone, localeFormat);
            r.Resolved? ==>
              LocalHours(r.iso, offset) == 15 && LocalMinutes(r.iso, offset) == 0 && LocalSecondsMs(r.iso, offset) == 0
  {
    var day := TargetDay(text, LocalDayStart(now, offset), parse);
    var r := ResolveOutcome(text, timezone, now, offset, parse, validZone, localeFormat);
    assert RequestedTime(text) == TimeOfDay(15, 0);
    if r.Resolved? {
      SetLocalTimeReadsBack(day.value, offset, 15, 0, r.iso);
    }
  }

  /**
   * A keyword moves the day: "hoy"/"today" keeps today, "mañana"/"tomorrow" gives the next
   * day and "pasado mañana"/"day after tomorrow" the one after, at the requested time.
   */
  lemma KeywordPicksTheDay(text: string, timezone: Option<string>, now: Timestamp, offset: int,
                           parse: string -> Option<Timestamp>, validZone: string -> bool,
                           localeFormat: (Timestamp, string) -> string)
    requires DayOffsetAsWritten(Trim(ToLower(text))).Some?
    requires var t := RequestedTime(text); 0 <= t.hours < 24 && 0 <= t.minutes < 60
    ensures var r := ResolveOutcome(text, timezone, now, offset, parse, validZone, localeFormat);
            var t := RequestedTime(text);
            r.Resolved? ==>
              && LocalDayStart(r.iso, offset)
                 == LocalDayStart(now, offset) + DayOffsetAsWritten(Trim(ToLower(text))).value * DayMs
              && LocalHours(r.iso, offset) == t.hours && LocalMinutes(r.iso, offset) == t.minutes
  {
    var today := LocalDayStart(now, offset);
    var k := DayOffsetAsWritten(Trim(ToLower(text))).value;
    var t := RequestedTime(text);
    var d := today + k * DayMs;
    var day := TargetDay(text, today, parse);
    assert day.Some? ==> day.value == d;
    DaysLaterIsMidnight(today, offset, k);
    assert LocalDayStart(d, offset) == d;
    var x := SetLocalTime(d, offset, t.hours, t.minutes);
    assert LocalDayStart(x, offset) == d;
    var r := ResolveOutcome(text, timezone, now, offset, parse, validZone, localeFormat);
    if r.Resolved? {
      assert r.iso == x;
    }
  }

  /** Text that is neither a keyword nor a date keeps today: it does not fail. */
  lemma UnparsableKeepsToday(text: string, timezone: Option<string>, now: Timestamp, offset: int,
                             parse: string -> Option<Timestamp>, validZone: string -> bool,
                             localeFormat: (Timestamp, string) -> string)
    requires DayOffsetAsWritten(Trim(ToLower(text))).None? && parse(text).None?
    requires var t := RequestedTime(text); 0 <= t.hours < 24 && 0 <= t.minutes < 60
    requires -MaxTime + DayMs <= now <= MaxTime - DayMs && validZone(timezone.GetOr(DefaultTimezone))
    ensures var r := ResolveOutcome(text, timezone, now, offset, parse, validZone, localeFormat);
            r.Resolved? && LocalDayStart(r.iso, offset) == LocalDayStart(now, offset)
  {
  }

  /**
   * A keyword never makes the tool fail when the zone is known and the date is not near
   * the end of the range a `Date` holds.
   */
  lemma KeywordResolves(text: string, timezone: Option<string>, now: Timestamp, offset: int,
                        parse: string -> Option<Timestamp>, validZone: string -> bool,
                        localeFormat: (Timestamp, string) -> string)
    requires DayOffsetAsWritten(Trim(ToLower(text))).Some?
    requires var t := RequestedTime(text); 0 <= t.hours < 24 && 0 <= t.minutes < 60
    requires -MaxTime + DayMs <= now <= MaxTime - 3 * DayMs && validZone(timezone.GetOr(DefaultTimezone))
    ensures ResolveOutcome(text, timezone, now, offset, parse, validZone, localeFormat).Resolved?
  {
    var today := LocalDayStart(now, offset);
    var k := DayOffsetAsWritten(Trim(ToLower(text))).value;
    var t := RequestedTime(text);
    KeywordInstantInRange(now, offset, k, t.hours, t.minutes);
    KeywordTargetDay(text, today, parse);
  }

  /** A keyword moves today by its number of days, when that stays a valid `Date`. */
  lemma KeywordTargetDay(text: string, today: Timestamp, parse: string -> Option<Timestamp>)
    requires DayOffsetAsWritten(Trim(ToLower(text))).Some?
    requires -MaxTime <= today + DayOffsetAsWritten(Trim(ToLower(text))).value * DayMs <= MaxTime
    ensures TargetDay(text, today, parse) == Some(today + DayOffsetAsWritten(Trim(ToLower(text))).value * DayMs)
  {
  }

  /** A day at most two days after today's local midnight, at any wall-clock time, is a valid `Date`. */
  lemma KeywordInstantInRange(now: Timestamp, offset: int, k: int, hours: int, minutes: int)
    requires 0 <= k <= 2 && 0 <= hours < 24 && 0 <= minutes < 60
    requires -MaxTime + DayMs <= now <= MaxTime - 3 * DayMs
    ensures var d := LocalDayStart(now, offset) + k * DayMs;
            && TimeClip(d) == Some(d)
            && TimeClip(SetLocalTime(d, offset, hours, minutes)).Some?
  {
    var today := LocalDayStart(now, offset);
    var d := today + k * DayMs;
    DaysLaterIsMidnight(today, offset, k);
    var x := SetLocalTime(d, offset, hours, minutes);
    assert LocalDayStart(x, offset) == d;
  }

}

=== FILE: schedule_tool.dfy ===
/**
 * The `schedule_appointment` tool (src/agent/tools/schedule.tool.ts): it does not book. It
 * checks that the slot is free, stages the booking in the conversation's context with
 * `confirmed` false, and replies with a summary for the customer to confirm.
 *
 * `new Date(text)`, the availability check and the `es-AR` locale formatter are outside
 * the model and are parameters: `parse` yields `None` for an Invalid Date, `available`
 * yields `None` when the check throws.
 */
module ScheduleTool {
  import opened Common
  import opened Text
  import opened Entities
  import opened Repositories
  import opened Tools

  /** The validated tool arguments. */
  datatype StageRequest = StageRequest(
    conversationId: Id,
    barberId: Id,
    barberName: string,
    serviceId: Id,
    serviceName: string,
    dateTimeIso: string,
    priceCents: int)

  const UnavailableText := "Ese horario no está disponible. Por favor elige otro horario."
  const StageErrorText := "Ocurrió un error al preparar la reserva. Intenta de nuevo."

  /** The staged booking: every field taken from the request, not yet confirmed. */
  function PendingFor(req: StageRequest): (p: PendingBooking)
    ensures !p.confirmed
    ensures p.serviceId == Some(req.serviceId) && p.barberId == Some(req.barberId)
    ensures p.serviceName == Some(req.serviceName) && p.barberName == Some(req.barberName)
    ensures p.datetime == Some(req.dateTimeIso) && p.priceCents == Some(req.priceCents)
  {
    PendingBooking(Some(req.serviceId), Some(req.serviceName), Some(req.barberId),
                   Some(req.barberName), Some(req.dateTimeIso), Some(req.priceCents), false)
  }

  /** `context = context || {}` followed by setting `pendingBooking`: nothing else in it changes. */
  function StagedContext(context: Option<ConversationContext>, req: StageRequest): (c: ConversationContext)
    ensures c.pendingBooking == Some(PendingFor(req))
    ensures c.lastMentionedAppointmentId ==
              (if context.Some? then context.value.lastMentionedAppointmentId else None)
  {
    context.GetOr(EmptyContext).(pendingBooking := Some(PendingFor(req)))
  }

  /** `toLocaleString` of a parsed date; an Invalid Date prints as "Invalid Date". */
  function FormatLocale(t: Option<Timestamp>, localeFormat: Timestamp -> string): string {
    if t.Some? then localeFormat(t.value) else "Invalid Date"
  }

  /** The summary the customer is asked to confirm. */
  function SummaryText(req: StageRequest, formattedDate: string): (m: string)
    ensures Contains(m, req.serviceName) && Contains(m, req.barberName) && Contains(m, formattedDate)
    ensures Contains(m, "$" + CentsToFixed2(req.priceCents) + " ARS")
  {
    var head := "Perfecto! Aquí está el resumen de tu turno:\n\n📋 Servicio: ";
    var price := "$" + CentsToFixed2(req.priceCents) + " ARS";
    var r3 := "\n💰 Precio: " + price + "\n\n¿Confirmas esta reserva?";
    var r2 := "\n📅 Fecha y hora: " + formattedDate + r3;
    var r1 := "\n👤 Peluquero: " + req.barberName + r2;
    var m := head + req.serviceName + r1;
    ContainsPart(head, req.serviceName, r1);
    ContainsTail(head + req.serviceName, r1);
    ContainsPart("\n👤 Peluquero: ", req.barberName, r2);
    ContainsTransitive(m, r1, req.barberName);
    ContainsTail("\n👤 Peluquero: " + req.barberName, r2);
    ContainsTransitive(m, r1, r2);
    ContainsPart("\n📅 Fecha y hora: ", formattedDate, r3);
    ContainsTransitive(m, r2, formattedDate);
    ContainsTail("\n📅 Fecha y hora: " + formattedDate, r3);
    ContainsTransitive(m, r2, r3);
    ContainsPart("\n💰 Precio: ", price, "\n\n¿Confirmas esta reserva?");
    ContainsTransitive(m, r3, price);
    m
  }

  /** The price shown in the summary reads back as the staged number of cents. */
  lemma SummaryPriceRoundTrip(req: StageRequest)
    requires req.priceCents > 0
    ensures DecimalToCents(CentsToFixed2(req.priceCents)) == Some(req.priceCents)
  {
    Fixed2RoundTrip(req.priceCents);
  }

  /** The tool's reply and the conversations table it leaves. */
  function StageOutcome(conversations: map<Id, Conversation>, req: StageRequest,
                        parse: string -> Option<Timestamp>,
                        available: (Id, Option<Timestamp>) -> Option<bool>,
                        localeFormat: Timestamp -> string)
    : (r: (ToolReply, map<Id, Conversation>))
    ensures req.conversationId !in conversations ==> r == (ToolFailed(NoConversationText), conversations)
    ensures req.conversationId in conversations ==>
              match available(req.barberId, parse(req.dateTimeIso))
              case None => r == (ToolFailed(StageErrorText), conversations)
              case Some(free) => !free ==> r == (ToolFailed(UnavailableText), conversations)
    ensures r.0.ToolStaged? <==>
              req.conversationId in conversations && available(req.barberId, parse(req.dateTimeIso)) == Some(true)
    ensures r.0.ToolStaged? ==>
              && r.0.message == SummaryText(req, FormatLocale(parse(req.dateTimeIso), localeFormat))
              && var c := conversations[req.conversationId];
                 r.1 == conversations[req.conversationId := c.(context := Some(StagedContext(c.context, req)))]
    ensures !r.0.ToolBooked?
  {
    if req.conversationId !in conversations then (ToolFailed(NoConversationText), conversations)
    else
      var when := parse(req.dateTimeIso);
      match available(req.barberId, when)
      case None => (ToolFailed(StageErrorText), conversations)
      case Some(free) =>
        if !free then (ToolFailed(UnavailableText), conversations)
        else
          var c := conversations[req.conversationId];
          (ToolStaged(SummaryText(req, FormatLocale(when, localeFormat))),
           conversations[req.conversationId := c.(context := Some(StagedContext(c.context, req)))])
  }

  /** The tool itself: read the conversation, check the slot, stage, save, summarise. */
  method Stage(conversations: Repository<Conversation>, req: StageRequest,
               parse: string -> Option<Timestamp>,
               available: (Id, Option<Timestamp>) -> Option<bool>,
               localeFormat: Timestamp -> string) returns (reply: ToolReply)
    requires conversations.Valid()
    requires req.priceCents > 0      // the tool's schema: a positive integer
    modifies conversations`rows
    ensures conversations.Valid()
    ensures (reply, conversations.rows) == StageOutcome(old(conversations.rows), req, parse, available, localeFormat)
  {
    var found := conversations.FindOne(req.conversationId);
    if found.None? {
      return ToolFailed(NoConversationText);
    }
    var conversation := found.value;

    var isAvailable := available(req.barberId, parse(req.dateTimeIso));
    if isAvailable.None? {
      return ToolFailed(StageErrorText);
    }
    if !isAvailable.value {
      return ToolFailed(UnavailableText);
    }

    var context := if conversation.context.Some? then conversation.context.value else EmptyContext;
    context := context.(pendingBooking := Some(PendingBooking(
      Some(req.serviceId), Some(req.serviceName), Some(req.barberId), Some(req.barberName),
      Some(req.dateTimeIso), Some(req.priceCents), false)));
    conversation := conversation.(context := Some(context));
    conversations.Save(req.conversationId, conversation);

    var formattedDate := FormatLocale(parse(req.dateTimeIso), localeFormat);
    reply := ToolStaged(SummaryText(req, formattedDate));
  }

  /** Staging again replaces the staged booking: the last request wins. */
  lemma RestageReplacesPending(conversations: map<Id, Conversation>, first: StageRequest, second: StageRequest,
                               parse: string -> Option<Timestamp>,
                               available: (Id, Option<Timestamp>) -> Option<bool>,
                               localeFormat: Timestamp -> string)
    requires first.conversationId == second.conversationId
    requires StageOutcome(conversations, first, parse, available, localeFormat).0.ToolStaged?
    ensures var after := StageOutcome(conversations, first, parse, available, localeFormat).1;
            var again := StageOutcome(after, second, parse, available, localeFormat);
            again.0.ToolStaged? ==>
              && again.1[second.conversationId].context.Some?
              && again.1[second.conversationId].context.value.pendingBooking == Some(PendingFor(second))
  {
  }

  /** Staging keeps the conversation's messages and its last mentioned appointment. */
  lemma StageKeepsRestOfConversation(conversations: map<Id, Conversation>, req: StageRequest,
                                     parse: string -> Option<Timestamp>,
                                     available: (Id, Option<Timestamp>) -> Option<bool>,
                                     localeFormat: Timestamp -> string)
    requires req.conversationId in conversations
    ensures var after := StageOutcome(conversations, req, parse, available, localeFormat).1;
            var before := conversations[req.conversationId];
            && after.Keys == conversations.Keys
            && after[req.conversationId].messages == before.messages
            && after[req.conversationId].userId == before.userId
            && (before.context.Some? && after[req.conversationId].context.Some? ==>
                  after[req.conversationId].context.value.lastMentionedAppointmentId
                  == before.context.value.lastMentionedAppointmentId)
            && forall id :: id in conversations && id != req.conversationId ==> after[id] == conversations[id]
  {
  }
}

=== FILE: services.dfy ===
/**
 * The services catalogue (src/services/services.service.ts): look services up, create
 * them, edit the supplied fields, switch them on and off, delete them, and list the
 * active ones by name.
 *
 * The database stamps `createdAt` when a row is inserted; that clock is the `now`
 * parameter of `Create`.
 */
module Services {
  import opened Common
  import opened Entities
  import opened Repositories
  import opened Query
  import Text

  datatype CreateServiceDto = CreateServiceDto(
    name: string,
    description: Option<string>,
    duration: int,      // minutes
    price: int)         // cents

  /** Every field optional: only the supplied ones change. */
  datatype UpdateServiceDto = UpdateServiceDto(
    name: Option<string>,
    description: Option<string>,
    duration: Option<int>,
    price: Option<int>,
    isActive: Option<bool>)

  /** The DTO validation on creation: a duration of at least one minute, a price of at least zero. */
  predicate ValidCreate(dto: CreateServiceDto) {
    dto.duration >= 1 && dto.price >= 0
  }

  /** The same bounds on the fields an update supplies. */
  predicate ValidUpdate(dto: UpdateServiceDto) {
    && (dto.duration.Some? ==> dto.duration.value >= 1)
    && (dto.price.Some? ==> dto.price.value >= 0)
  }

  /** A catalogue row as validated input leaves it. */
  predicate WellFormed(s: Service) {
    s.durationMinutes >= 1 && s.priceCents >= 0
  }

  ghost predicate AllWellFormed(rows: map<Id, Service>) {
    forall id :: id in rows ==> WellFormed(rows[id])
  }

  // ---------------------------------------------------------------------
  // findAll, findActive, findOne

  /** `findAll`: every service once, newest first. */
  method FindAll(rows: map<Id, Service>) returns (out: seq<(Id, Service)>)
    ensures forall e :: e in out <==> e.0 in rows && e.1 == rows[e.0]
    ensures forall i, j :: 0 <= i < j < |out| ==> out[i].1.createdAt >= out[j].1.createdAt
    ensures DistinctIds(out)
  {
    ByIntDescIsTotalPreorder(ServiceCreatedAt);
    out := SelectOrdered(rows, (s: Service) => true, ByIntDesc(ServiceCreatedAt));
    forall i, j | 0 <= i < j < |out|
      ensures out[i].1.createdAt >= out[j].1.createdAt
    {
      assert ByIntDesc(ServiceCreatedAt)(out[i].1, out[j].1);
      assert ServiceCreatedAt(out[i].1) >= ServiceCreatedAt(out[j].1);
    }
  }

  /** `findOne`: the service, or NotFound. */
  function FindOne(rows: map<Id, Service>, id: Id): (r: Result<Service>)
    ensures r.Ok? <==> id in rows
    ensures r.Ok? ==> r.value == rows[id]
    ensures r.Err? ==> r.error == NotFound
  {
    if id in rows then Ok(rows[id]) else Err(NotFound)
  }

  /** `findActive`: exactly the active services, each once, by name ascending. */
  method FindActive(rows: map<Id, Service>) returns (out: seq<(Id, Service)>)
    ensures forall e :: e in out <==> e.0 in rows && e.1 == rows[e.0] && e.1.isActive
    ensures forall i, j :: 0 <= i < j < |out| ==> Text.LexLe(out[i].1.name, out[j].1.name)
    ensures DistinctIds(out)
  {
    ByTextIsTotalPreorder(ServiceName);
    out := SelectOrdered(rows, IsActiveService, ByText(ServiceName));
    forall i, j | 0 <= i < j < |out|
      ensures Text.LexLe(out[i].1.name, out[j].1.name)
    {
      assert ByText(ServiceName)(out[i].1, out[j].1);
      assert Text.LexLe(ServiceName(out[i].1), ServiceName(out[j].1));
    }
  }

  // ---------------------------------------------------------------------
  // create

  /**
   * The new row: `duration` becomes `durationMinutes`, `price` becomes `priceCents`, it is
   * active, and it is stamped with the insertion time.
   */
  function NewService(dto: CreateServiceDto, now: Timestamp): (s: Service)
    requires ValidCreate(dto)
    ensures WellFormed(s) && s.isActive && s.createdAt == now
    ensures s.name == dto.name && s.description == dto.description
    ensures s.durationMinutes == dto.duration && s.priceCents == dto.price
  {
    Service(dto.name, dto.description, dto.duration, dto.price, true, now)
  }

  method Create(services: Repository<Service>, dto: CreateServiceDto, now: Timestamp) returns (id: Id, s: Service)
    requires services.Valid() && ValidCreate(dto)
    modifies services
    ensures services.Valid()
    ensures id !in old(services.rows) && services.rows == old(services.rows)[id := s]
    ensures s == NewService(dto, now)
    ensures AllWellFormed(old(services.rows)) ==> AllWellFormed(services.rows)
  {
    s := Service(dto.name, dto.description, dto.duration, dto.price, true, now);
    id := services.Insert(s);
  }

  // ---------------------------------------------------------------------
  // update, toggleActive, remove

  /** The fields an update supplies replace the stored ones; the rest stay. */
  function Updated(s: Service, dto: UpdateServiceDto): (u: Service)
    ensures u.name == Pick(dto.name, s.name)
    ensures u.description == (if dto.description.Some? then dto.description else s.description)
    ensures u.durationMinutes == Pick(dto.duration, s.durationMinutes)
    ensures u.priceCents == Pick(dto.price, s.priceCents)
    ensures u.isActive == Pick(dto.isActive, s.isActive)
    ensures u.createdAt == s.createdAt
  {
    s.(name := Pick(dto.name, s.name),
       description := if dto.description.Some? then dto.description else s.description,
       durationMinutes := Pick(dto.duration, s.durationMinutes),
       priceCents := Pick(dto.price, s.priceCents),
       isActive := Pick(dto.isActive, s.isActive))
  }

  const NoChange := UpdateServiceDto(None, None, None, None, None)

  /** An update that supplies nothing leaves the service as it was. */
  lemma UpdateWithNothingKeepsService(s: Service)
    ensures Updated(s, NoChange) == s
  {
  }

  /** Applying the same update twice is applying it once. */
  lemma UpdateIsIdempotent(s: Service, dto: UpdateServiceDto)
    ensures Updated(Updated(s, dto), dto) == Updated(s, dto)
  {
  }

  /** A validated update keeps a well-formed service well-formed. */
  lemma UpdateKeepsWellFormed(s: Service, dto: UpdateServiceDto)
    requires WellFormed(s) && ValidUpdate(dto)
    ensures WellFormed(Updated(s, dto))
  {
  }

  /** The field edits of `update`: each supplied field is copied onto the loaded service. */
  method ApplyFieldEdits(x: Service, dto: UpdateServiceDto) returns (u: Service)
    ensures u == Updated(x, dto)
  {
    u := x;
    if dto.name.Some? {
      u := u.(name := dto.name.value);
    }
    if dto.description.Some? {
      u := u.(description := dto.description);
    }
    if dto.duration.Some? {
      u := u.(durationMinutes := dto.duration.value);
    }
    if dto.price.Some? {
      u := u.(priceCents := dto.price.value);
    }
    if dto.isActive.Some? {
      u := u.(isActive := dto.isActive.value);
    }
  }

  method Update(services: Repository<Service>, id: Id, dto: UpdateServiceDto) returns (r: Result<Service>)
    requires services.Valid()
    modifies services`rows
    ensures services.Valid()
    ensures id !in old(services.rows) ==> r == Err(NotFound) && services.rows == old(services.rows)
    ensures id in old(services.rows) ==>
              && r == Ok(Updated(old(services.rows)[id], dto))
              && services.rows == old(services.rows)[id := r.value]
    ensures ValidUpdate(dto) && AllWellFormed(old(services.rows)) ==> AllWellFormed(services.rows)
  {
    var found := FindOne(services.rows, id);
    if found.Err? {
      return Err(found.error);
    }
    var service := ApplyFieldEdits(found.value, dto);
    if ValidUpdate(dto) && AllWellFormed(services.rows) {
      UpdateKeepsWellFormed(found.value, dto);
    }
    services.Save(id, service);
    r := Ok(service);
  }

  /** The service with its `isActive` flag negated and nothing else changed. */
  function Toggled(s: Service): (t: Service)
    ensures t.isActive == !s.isActive
    ensures t.name == s.name && t.description == s.description
    ensures t.durationMinutes == s.durationMinutes && t.priceCents == s.priceCents
    ensures t.createdAt == s.createdAt
  {
    s.(isActive := !s.isActive)
  }

  /** Toggling twice restores the service. */
  lemma ToggleTwiceRestores(s: Service)
    ensures Toggled(Toggled(s)) == s
  {
  }

  method ToggleActive(services: Repository<Service>, id: Id) returns (r: Result<Service>)
    requires services.Valid()
    modifies services`rows
    ensures services.Valid()
    ensures id !in old(services.rows) ==> r == Err(NotFound) && services.rows == old(services.rows)
    ensures id in old(services.rows) ==>
              && r == Ok(Toggled(old(services.rows)[id]))
              && services.rows == old(services.rows)[id := r.value]
    ensures AllWellFormed(old(services.rows)) ==> AllWellFormed(services.rows)
  {
    var found := FindOne(services.rows, id);
    if found.Err? {
      return Err(found.error);
    }
    var service := found.value.(isActive := !found.value.isActive);
    services.Save(id, service);
    r := Ok(service);
  }

  /** Some appointment books the service. */
  predicate HasAppointments(appointments: map<Id, Appointment>, id: Id) {
    exists k :: k in appointments && appointments[k].serviceId == id
  }

  /**
   * `remove`: NotFound on an unknown id. A service some appointment books is kept: the
   * appointments' foreign key makes the delete fail. Otherwise that row alone goes.
   */
  method Remove(services: Repository<Service>, appointments: map<Id, Appointment>, id: Id) returns (r: Result<()>)
    requires services.Valid()
    modifies services`rows
    ensures services.Valid()
    ensures id !in old(services.rows) ==> r == Err(NotFound) && services.rows == old(services.rows)
    ensures id in old(services.rows) && HasAppointments(appointments, id) ==>
              r == Err(Internal) && services.rows == old(services.rows)
    ensures id in old(services.rows) && !HasAppointments(appointments, id) ==>
              r == Ok(()) && services.rows == old(services.rows) - {id}
    ensures forall k :: k in appointments && appointments[k].serviceId in old(services.rows) ==>
              appointments[k].serviceId in services.rows
  {
    var found := FindOne(services.rows, id);
    if found.Err? {
      return Err(found.error);
    }
    if HasAppointments(appointments, id) {
      return Err(Internal);
    }
    services.Remove(id);
    r := Ok(());
  }
}

=== FILE: table.dfy ===
/**
 * The data table of the web client (apps/web/src/components/kibo-ui/table.tsx): a search
 * box filters the rows, a click on a sortable header cycles the sort of that column
 * (ascending, descending, unsorted), and the rows are shown a page at a time.
 *
 * Rows are the JSON objects the API returns. A column's key may be a dotted path
 * ("customer.name"): cells follow it through nested objects with `getValue`.
 */
module Table {
  import opened Common
  import opened Text

  // ---------------------------------------------------------------------
  // JSON values

  /** A JSON value; `Undefined` is what reading a missing property yields. */
  datatype Value =
    | Undefined
    | Null
    | Bool(b: bool)
    | Num(n: int)
    | Str(s: string)
    | Arr(items: seq<Value>)
    | Obj(fields: seq<(string, Value)>)   // in insertion order, keys distinct

  /** A row of the table: the fields of one object. */
  type Row = seq<(string, Value)>

  /** `String(v)`: arrays join their items with commas (null and undefined items print empty). */
  function ToText(v: Value): (r: string)
    ensures v.Str? ==> r == v.s
    ensures v.Num? && v.n >= 0 ==> r != [] && AllDigits(r) && ParseNat(r) == v.n
    decreases v, 1
  {
    match v
    case Undefined => "undefined"
    case Null => "null"
    case Bool(b) => if b then "true" else "false"
    case Num(n) =>
      assert n >= 0 ==> ParseNat(NatToString(n)) == n by {
        if n >= 0 {
          ParseNatToString(n);
        }
      }
      IntToString(n)
    case Str(s) => s
    case Arr(items) => ItemsText(v, 0)
    case Obj(_) => "[object Object]"
  }

  /** The items of an array from index `i` on, joined with commas. */
  function ItemsText(v: Value, i: nat): string
    requires v.Arr? && i <= |v.items|
    decreases v, 0, |v.items| - i
  {
    if i == |v.items| then ""
    else
      var item := v.items[i];
      var text := if item.Null? || item.Undefined? then "" else ToText(item);
      if i + 1 == |v.items| then text else text + "," + ItemsText(v, i + 1)
  }

  /** `v?.[k]`: a property of an object, or undefined (properties of primitives and arrays are not modelled). */
  function Prop(v: Value, k: string): Value {
    if v.Obj? then Field(v.fields, k) else Undefined
  }

  /** `row[k]`: the first field named `k`, or undefined. */
  function Field(fields: seq<(string, Value)>, k: string): (r: Value)
    ensures (forall i :: 0 <= i < |fields| ==> fields[i].0 != k) ==> r == Undefined
    ensures r != Undefined ==> exists i :: 0 <= i < |fields| && fields[i] == (k, r)
  {
    if fields == [] then Undefined
    else if fields[0].0 == k then fields[0].1
    else Field(fields[1..], k)
  }

  // ---------------------------------------------------------------------
  // getValue

  /** The value at the end of a path of property names. */
  function Path(v: Value, keys: seq<string>): Value
    decreases |keys|
  {
    if keys == [] then v else Prop(Path(v, keys[..|keys| - 1]), keys[|keys| - 1])
  }

  /** Following a path in two legs is following it in one. */
  lemma {:induction false} PathConcat(v: Value, a: seq<string>, b: seq<string>)
    ensures Path(v, a + b) == Path(Path(v, a), b)
    decreases |b|
  {
    if b == [] {
      assert a + b == a;
    } else {
      assert (a + b)[..|a + b| - 1] == a + b[..|b| - 1];
      PathConcat(v, a, b[..|b| - 1]);
    }
  }

  /** Once a path reaches null or a missing property, the rest of it stays undefined. */
  lemma {:induction false} PathFromUndefined(keys: seq<string>)
    requires keys != []
    ensures Path(Undefined, keys) == Undefined
    decreases |keys|
  {
    if |keys| > 1 {
      PathFromUndefined(keys[..|keys| - 1]);
    }
  }

  /** The specification of `getValue`: the value at the dotted path. */
  function ValueAt(row: Row, key: string): Value {
    Path(Obj(row), Split(key, '.'))
  }

  /** `getValue`: split the key, then walk the row one property at a time. */
  method GetValue(row: Row, key: string) returns (val: Value)
    ensures val == ValueAt(row, key)
  {
    var keys := Split(key, '.');
    val := Obj(row);
    for i := 0 to |keys|
      invariant val == Path(Obj(row), keys[..i])
    {
      assert keys[..i + 1][..i] == keys[..i];
      val := Prop(val, keys[i]);
    }
    assert keys[..|keys|] == keys;
  }

  /** A key without dots reads the top-level field, as `row[key]` does. */
  lemma ValueAtPlainKey(row: Row, key: string)
    requires '.' !in key
    ensures ValueAt(row, key) == Field(row, key)
  {
    SplitPlainKey(key, '.');
    assert [key][..0] == [];
    assert Path(Obj(row), [key]) == Prop(Path(Obj(row), []), key);
  }

  /** A dotted key reads the named field of the nested object. */
  lemma ValueAtNested(row: Row, outer: string, inner: string, nested: seq<(string, Value)>)
    requires '.' !in outer && '.' !in inner
    requires Field(row, outer) == Obj(nested)
    ensures ValueAt(row, outer + "." + inner) == Field(nested, inner)
  {
    SplitOfTwo(outer, inner);
    var parts := [outer, inner];
    assert parts[..1] == [outer] && [outer][..0] == [];
    assert Path(Obj(row), [outer]) == Obj(nested);
    assert Path(Obj(row), parts) == Prop(Path(Obj(row), [outer]), inner);
  }

  lemma SplitOfTwo(a: string, b: string)
    requires '.' !in a && '.' !in b
    ensures Split(a + "." + b, '.') == [a, b]
  {
    SplitAppend(a + ".", b, '.');
    assert (a + ".")[..|a + "."| - 1] == a;
    SplitPlainKey(a, '.');
  }


  // ---------------------------------------------------------------------
  // filteredData

  /** Some value of the row, printed and lower-cased, contains the lower-cased search. */
  predicate RowMatches(row: Row, lower: string) {
    exists i :: 0 <= i < |row| && Contains(ToLower(ToText(row[i].1)), lower)
  }

  /** The rows that match, in their order. */
  function Keep(data: seq<Row>, lower: string): (r: seq<Row>)
    ensures |r| <= |data|
    ensures forall row :: row in r <==> row in data && RowMatches(row, lower)
  {
    if data == [] then []
    else
      assert forall row :: row in data <==> row == data[0] || row in data[1..];
      (if RowMatches(data[0], lower) then [data[0]] else []) + Keep(data[1..], lower)
  }

  /** Filtering keeps the order of the rows: it distributes over concatenation. */
  lemma {:induction false} KeepConcat(a: seq<Row>, b: seq<Row>, lower: string)
    ensures Keep(a + b, lower) == Keep(a, lower) + Keep(b, lower)
    decreases |a|
  {
    if a == [] {
      assert a + b == b;
    } else {
      assert (a + b)[0] == a[0] && (a + b)[1..] == a[1..] + b;
      KeepConcat(a[1..], b, lower);
    }
  }

  /** `filteredData`: an empty search shows every row; otherwise the matching rows, in order. */
  function FilteredData(data: seq<Row>, search: string): (r: seq<Row>)
    ensures search == "" ==> r == data
    ensures search != "" ==> r == Keep(data, ToLower(search))
    ensures search != "" ==> forall row :: row in r <==> row in data && RowMatches(row, ToLower(search))
    ensures |r| <= |data|
  {
    if search == "" then data else Keep(data, ToLower(search))
  }

  /**
   * A nested object prints as "[object Object]", so a search for "object" keeps every row
   * that holds one, whatever it contains.
   */
  lemma ObjectSearchKeepsNestedRows(data: seq<Row>, row: Row, i: nat)
    requires row in data && i < |row| && row[i].1.Obj?
    ensures row in FilteredData(data, "object")
  {
    var text := ToLower(ToText(row[i].1));
    assert ToLower("object") == "object";
    assert text == "[object object]";
    ContainsAt(text, "object", 1);
  }

  // ---------------------------------------------------------------------
  // The comparator of sortedData

  datatype Direction = Asc | Desc

  predicate Nullish(v: Value) {
    v.Null? || v.Undefined?
  }

  /** `===`: primitives by value; every object and array is a distinct reference. */
  predicate StrictEquals(a: Value, b: Value) {
    !a.Arr? && !a.Obj? && a == b
  }

  /** The number a value converts to, or `None` for NaN (signs, decimals and blanks in text are not modelled). */
  function ToNumber(v: Value): (r: Option<int>)
    ensures v.Num? ==> r == Some(v.n)
    ensures v.Str? && v.s != [] && AllDigits(v.s) ==> r == Some(ParseNat(v.s))
    ensures Nullish(v) ==> (r.Some? <==> v.Null?)
  {
    match v
    case Undefined => None
    case Null => Some(0)
    case Bool(b) => Some(if b then 1 else 0)
    case Num(n) => Some(n)
    case Str(s) => if s == "" then Some(0) else if AllDigits(s) then Some(ParseNat(s)) else None
    case _ => None
  }

  /** `a < b`: two texts compare by code point, anything else as numbers (false when either is NaN). */
  predicate Less(a: Value, b: Value)
    ensures a.Str? && b.Str? ==> (Less(a, b) <==> LexLe(a.s, b.s) && a.s != b.s)
    ensures a.Num? && b.Num? ==> (Less(a, b) <==> a.n < b.n)
    ensures Less(a, b) ==> !(a.Str? && b.Str? && a == b)
  {
    var p := if a.Arr? || a.Obj? then Str(ToText(a)) else a;
    var q := if b.Arr? || b.Obj? then Str(ToText(b)) else b;
    if p.Str? && q.Str? then LexLe(p.s, q.s) && p.s != q.s
    else
      var x := ToNumber(p);
      var y := ToNumber(q);
      x.Some? && y.Some? && x.value < y.value
  }

  /** The comparator handed to `sort`. */
  function Compare(a: Value, b: Value, dir: Direction): (r: int)
    ensures r == -1 || r == 0 || r == 1
    ensures r == 0 <==> StrictEquals(a, b)
    ensures !StrictEquals(a, b) && Nullish(a) ==> r == 1
    ensures !StrictEquals(a, b) && !Nullish(a) && Nullish(b) ==> r == -1
    ensures !StrictEquals(a, b) && !Nullish(a) && !Nullish(b) ==>
              (r == -1 <==> (Less(a, b) <==> dir == Asc))
  {
    if StrictEquals(a, b) then 0
    else if Nullish(a) then 1
    else if Nullish(b) then -1
    else
      var cmp := if Less(a, b) then -1 else 1;
      if dir == Asc then cmp else -cmp
  }

  /** `a` may stay in front of `b`. */
  predicate Before(a: Value, b: Value, dir: Direction) {
    Compare(a, b, dir) <= 0
  }

  /** Equal values compare as 0; a blank value goes after every other value, in both directions. */
  lemma NullsLast(blank: Value, v: Value, dir: Direction)
    requires Nullish(blank) && !Nullish(v)
    ensures Compare(blank, blank, dir) == 0
    ensures Compare(blank, v, dir) == 1 && Compare(v, blank, dir) == -1
  {
  }

  /** Descending negates the comparison of two values, and only when neither is blank. */
  lemma DescNegatesOnlyValues(a: Value, b: Value)
    ensures !Nullish(a) && !Nullish(b) ==> Compare(a, b, Desc) == -Compare(a, b, Asc)
    ensures Nullish(a) || Nullish(b) ==> Compare(a, b, Desc) == Compare(a, b, Asc)
  {
  }

  /** null and undefined each claim to go after the other: the comparator is not antisymmetric there. */
  lemma NullAndUndefinedBothLast(dir: Direction)
    ensures Compare(Null, Undefined, dir) == 1 && Compare(Undefined, Null, dir) == 1
  {
  }

  /** On two texts the comparator is the code-point order, reversed for descending. */
  lemma {:induction false} TextOrder(a: string, b: string)
    ensures Before(Str(a), Str(b), Asc) <==> LexLe(a, b)
    ensures Before(Str(a), Str(b), Desc) <==> LexLe(b, a)
  {
    if a != b {
      LexLeTotal(a, b);
      if LexLe(a, b) && LexLe(b, a) {
        LexLeAntisymmetric(a, b);
      }
    } else {
      LexLeTotal(a, a);
    }
  }

  /** On two numbers the comparator is the numeric order, reversed for descending. */
  lemma NumberOrder(a: int, b: int)
    ensures Before(Num(a), Num(b), Asc) <==> a <= b
    ensures Before(Num(a), Num(b), Desc) <==> b <= a
  {
  }

  datatype ColumnKind = TextColumn | NumberColumn

  /** A column whose values are all texts (or all numbers), or one blank, `null` or `undefined`. */
  predicate OfKind(v: Value, kind: ColumnKind, blank: Value) {
    v == blank || (kind == TextColumn && v.Str?) || (kind == NumberColumn && v.Num?)
  }

  /** Within such a column the comparator is a total preorder: `sort` can order it. */
  lemma {:induction false} ColumnIsTotalPreorder(a: Value, b: Value, c: Value, kind: ColumnKind, blank: Value, dir: Direction)
    requires Nullish(blank)
    requires OfKind(a, kind, blank) && OfKind(b, kind, blank) && OfKind(c, kind, blank)
    ensures Before(a, b, dir) || Before(b, a, dir)
    ensures Before(a, b, dir) && Before(b, c, dir) ==> Before(a, c, dir)
  {
    if a.Str? && b.Str? {
      TextOrder(a.s, b.s);
      LexLeTotal(a.s, b.s);
      if c.Str? {
        TextOrder(b.s, c.s);
        TextOrder(a.s, c.s);
        if Before(a, b, dir) && Before(b, c, dir) {
          if dir == Asc {
            LexLeTransitive(a.s, b.s, c.s);
          } else {
            LexLeTransitive(c.s, b.s, a.s);
          }
        }
      }
    }
  }

  // ---------------------------------------------------------------------
  // sortedData

  /** Inserts `x` after the last element that may precede it (a stable insertion). */
  function Insert<X>(t: seq<X>, x: X, before: (X, X) -> bool): (r: seq<X>)
    ensures multiset(r) == multiset(t) + multiset{x}
    decreases |t|
  {
    if t == [] then [x]
    else if before(t[|t| - 1], x) then t + [x]
    else
      assert t == t[..|t| - 1] + [t[|t| - 1]];
      Insert(t[..|t| - 1], x, before) + [t[|t| - 1]]
  }

  /** Insertion sort: a permutation of the input. */
  function Sort<X>(s: seq<X>, before: (X, X) -> bool): (r: seq<X>)
    ensures multiset(r) == multiset(s)
    decreases |s|
  {
    if s == [] then []
    else
      assert s == s[..|s| - 1] + [s[|s| - 1]];
      Insert(Sort(s[..|s| - 1], before), s[|s| - 1], before)
  }

  ghost predicate Sorted<X>(s: seq<X>, before: (X, X) -> bool) {
    forall i, j :: 0 <= i < j < |s| ==> before(s[i], s[j])
  }

  /** `before` is total and transitive on the elements of `s`. */
  ghost predicate PreorderOn<X>(s: seq<X>, before: (X, X) -> bool) {
    && (forall a, b :: a in s && b in s ==> before(a, b) || before(b, a))
    && (forall a, b, c :: a in s && b in s && c in s && before(a, b) && before(b, c) ==> before(a, c))
  }

  lemma PreorderOnSubset<X>(small: seq<X>, big: seq<X>, before: (X, X) -> bool)
    requires PreorderOn(big, before) && forall a :: a in small ==> a in big
    ensures PreorderOn(small, before)
  {
  }

  lemma SortedAppend<X>(u: seq<X>, y: X, before: (X, X) -> bool)
    requires Sorted(u, before) && forall i :: 0 <= i < |u| ==> before(u[i], y)
    ensures Sorted(u + [y], before)
  {
  }

  lemma {:induction false} InsertSorted<X>(t: seq<X>, x: X, before: (X, X) -> bool)
    requires Sorted(t, before) && PreorderOn(t + [x], before)
    ensures Sorted(Insert(t, x, before), before)
    decreases |t|
  {
    if t != [] {
      var last := t[|t| - 1];
      var init := t[..|t| - 1];
      assert t == init + [last];
      assert last in t + [x] && x in t + [x];
      if before(last, x) {
        forall i | 0 <= i < |t|
          ensures before(t[i], x)
        {
          if i < |t| - 1 {
            assert before(t[i], last);
            assert t[i] in t + [x];
          }
        }
        SortedAppend(t, x, before);
      } else {
        assert before(x, last);
        PreorderOnSubset(init + [x], t + [x], before);
        InsertSorted(init, x, before);
        var u := Insert(init, x, before);
        forall i | 0 <= i < |u|
          ensures before(u[i], last)
        {
          assert u[i] in multiset(u);
          if u[i] != x {
            assert u[i] in multiset(init);
            var k :| 0 <= k < |init| && init[k] == u[i];
            assert t[k] == u[i];
          }
        }
        SortedAppend(u, last, before);
      }
    }
  }

  lemma {:induction false} SortSorted<X>(s: seq<X>, before: (X, X) -> bool)
    requires PreorderOn(s, before)
    ensures Sorted(Sort(s, before), before)
    decreases |s|
  {
    if s != [] {
      var init := s[..|s| - 1];
      var last := s[|s| - 1];
      assert s == init + [last];
      PreorderOnSubset(init, s, before);
      SortSorted(init, before);
      var t := Sort(init, before);
      forall a | a in t + [last]
        ensures a in s
      {
        if a != last {
          assert a in multiset(t);
          assert a in multiset(init);
        }
      }
      PreorderOnSubset(t + [last], s, before);
      InsertSorted(t, last, before);
    }
  }

  /** Two orders that agree everywhere sort alike. */
  lemma {:induction false} InsertAgrees<X>(t: seq<X>, x: X, b1: (X, X) -> bool, b2: (X, X) -> bool)
    requires forall a, b :: b1(a, b) == b2(a, b)
    ensures Insert(t, x, b1) == Insert(t, x, b2)
    decreases |t|
  {
    if t != [] {
      InsertAgrees(t[..|t| - 1], x, b1, b2);
    }
  }

  lemma {:induction false} SortAgrees<X>(s: seq<X>, b1: (X, X) -> bool, b2: (X, X) -> bool)
    requires forall a, b :: b1(a, b) == b2(a, b)
    ensures Sort(s, b1) == Sort(s, b2)
    decreases |s|
  {
    if s != [] {
      SortAgrees(s[..|s| - 1], b1, b2);
      InsertAgrees(Sort(s[..|s| - 1], b1), s[|s| - 1], b1, b2);
    }
  }

  /** Rows ordered by the value a key reads in each. */
  function RowsBefore(read: Row -> Value, dir: Direction): (Row, Row) -> bool {
    (a: Row, b: Row) => Before(read(a), read(b), dir)
  }

  /** `a[sortKey]`: the top-level field, which is how the comparator reads a row. */
  function TopLevel(key: string): Row -> Value {
    (row: Row) => Field(row, key)
  }

  /** The dotted path the cells display. */
  function Dotted(key: string): Row -> Value {
    (row: Row) => ValueAt(row, key)
  }

  /** `sortedData` as written: no key or direction (or an empty key) leaves the order; otherwise sort by `a[sortKey]`. */
  function SortedDataAsWritten(rows: seq<Row>, sortKey: Option<string>, sortDir: Option<Direction>): (r: seq<Row>)
    ensures multiset(r) == multiset(rows)
    ensures sortKey.None? || sortKey.value == "" || sortDir.None? ==> r == rows
  {
    if sortKey.None? || sortKey.value == "" || sortDir.None? then rows
    else Sort(rows, RowsBefore(TopLevel(sortKey.value), sortDir.value))
  }

  /** Sorting by a key that no row holds at top level leaves the rows where they were. */
  lemma {:induction false} SortByMissingKeyKeepsOrder(rows: seq<Row>, key: string, dir: Direction)
    requires forall row :: row in rows ==> Field(row, key) == Undefined
    ensures Sort(rows, RowsBefore(TopLevel(key), dir)) == rows
    decreases |rows|
  {
    if rows != [] {
      var before := RowsBefore(TopLevel(key), dir);
      var init, last := rows[..|rows| - 1], rows[|rows| - 1];
      assert rows == init + [last];
      assert last in rows;
      forall row | row in init
        ensures Field(row, key) == Undefined
      {
        assert row in rows;
      }
      SortByMissingKeyKeepsOrder(init, key, dir);
      assert Sort(rows, before) == Insert(init, last, before);
      if init != [] {
        assert init[|init| - 1] in rows;
        UndefinedKeysTie(init[|init| - 1], last, key, dir);
      }
    }
  }

  /** Two rows that both lack the key compare equal, so the later one stays after the earlier. */
  lemma UndefinedKeysTie(a: Row, b: Row, key: string, dir: Direction)
    requires Field(a, key) == Undefined && Field(b, key) == Undefined
    ensures RowsBefore(TopLevel(key), dir)(a, b)
  {
    var read := TopLevel(key);
    assert read(a) == Undefined && read(b) == Undefined;
    assert Before(read(a), read(b), dir);
  }

  /**
   * A sortable column with a dotted key ("customer.name"): the API's objects have no
   * top-level field with a dot in its name, so `a[sortKey]` is undefined in every row and
   * the click changes the arrow but not the order.
   */
  lemma DottedKeyNeverSortsAsWritten(rows: seq<Row>, key: string, dir: Direction)
    requires '.' in key
    requires forall row: Row, i :: row in rows && 0 <= i < |row| ==> '.' !in row[i].0
    ensures SortedDataAsWritten(rows, Some(key), Some(dir)) == rows
  {
    forall row: Row | row in rows
      ensures Field(row, key) == Undefined
    {
      assert forall i :: 0 <= i < |row| ==> row[i].0 != key;
    }
    SortByMissingKeyKeepsOrder(rows, key, dir);
  }

  /** `sortedData`, reading each row's sort value with `getValue` as its cells do. */
  function SortedData(rows: seq<Row>, sortKey: Option<string>, sortDir: Option<Direction>): (r: seq<Row>)
    ensures multiset(r) == multiset(rows)
    ensures sortKey.None? || sortKey.value == "" || sortDir.None? ==> r == rows
  {
    if sortKey.None? || sortKey.value == "" || sortDir.None? then rows
    else Sort(rows, RowsBefore(Dotted(sortKey.value), sortDir.value))
  }

  /** For a top-level key the two readings agree. */
  lemma SortedDataAgreesOnPlainKeys(rows: seq<Row>, key: string, dir: Direction)
    requires '.' !in key
    ensures SortedData(rows, Some(key), Some(dir)) == SortedDataAsWritten(rows, Some(key), Some(dir))
  {
    forall row: Row
      ensures ValueAt(row, key) == Field(row, key)
    {
      ValueAtPlainKey(row, key);
    }
    SortAgrees(rows, RowsBefore(Dotted(key), dir), RowsBefore(TopLevel(key), dir));
  }

  /** Only a blank may follow a blank. */
  lemma AfterBlankIsBlank(a: Value, b: Value, dir: Direction)
    requires Nullish(a) && Before(a, b, dir)
    ensures Nullish(b)
  {
  }

  /**
   * Sorted by a column of texts or of numbers, with one kind of blank: the rows come out
   * in the column's order for the direction, blanks last.
   */
  lemma SortedDataOrdersColumn(rows: seq<Row>, key: string, dir: Direction, kind: ColumnKind, blank: Value)
    requires key != "" && Nullish(blank)
    requires forall row :: row in rows ==> OfKind(ValueAt(row, key), kind, blank)
    ensures var r := SortedData(rows, Some(key), Some(dir));
            && multiset(r) == multiset(rows)
            && (forall i, j :: 0 <= i < j < |r| ==> Before(ValueAt(r[i], key), ValueAt(r[j], key), dir))
            && (forall i, j :: 0 <= i < j < |r| && Nullish(ValueAt(r[i], key)) ==> Nullish(ValueAt(r[j], key)))
  {
    var before := RowsBefore(Dotted(key), dir);
    ColumnRowsArePreordered(rows, key, dir, kind, blank);
    SortSorted(rows, before);
    var r := Sort(rows, before);
    forall i, j | 0 <= i < j < |r|
      ensures Before(ValueAt(r[i], key), ValueAt(r[j], key), dir)
      ensures Nullish(ValueAt(r[i], key)) ==> Nullish(ValueAt(r[j], key))
    {
      assert before(r[i], r[j]);
      if Nullish(ValueAt(r[i], key)) {
        AfterBlankIsBlank(ValueAt(r[i], key), ValueAt(r[j], key), dir);
      }
    }
  }

  lemma ColumnRowsArePreordered(rows: seq<Row>, key: string, dir: Direction, kind: ColumnKind, blank: Value)
    requires Nullish(blank)
    requires forall row :: row in rows ==> OfKind(ValueAt(row, key), kind, blank)
    ensures PreorderOn(rows, RowsBefore(Dotted(key), dir))
  {
    var before := RowsBefore(Dotted(key), dir);
    forall a, b | a in rows && b in rows
      ensures before(a, b) || before(b, a)
    {
      ColumnIsTotalPreorder(ValueAt(a, key), ValueAt(b, key), ValueAt(b, key), kind, blank, dir);
    }
    forall a, b, c | a in rows && b in rows && c in rows && before(a, b) && before(b, c)
      ensures before(a, c)
    {
      ColumnIsTotalPreorder(ValueAt(a, key), ValueAt(b, key), ValueAt(c, key), kind, blank, dir);
    }
  }

  /**
   * The defect on two rows whose nested names are out of order: as written they stay
   * put, read through `getValue` they are swapped into order.
   */
  lemma NestedColumnSortsOnlyThroughGetValue(outer: string, inner: string, a: string, b: string)
    requires '.' !in outer && '.' !in inner && !LexLe(a, b)
    ensures var first: Row := [(outer, Obj([(inner, Str(a))]))];
            var second: Row := [(outer, Obj([(inner, Str(b))]))];
            var key := outer + "." + inner;
            && SortedDataAsWritten([first, second], Some(key), Some(Asc)) == [first, second]
            && SortedData([first, second], Some(key), Some(Asc)) == [second, first]
  {
    var first: Row := [(outer, Obj([(inner, Str(a))]))];
    var second: Row := [(outer, Obj([(inner, Str(b))]))];
    var key := outer + "." + inner;
    assert key[|outer|] == '.';
    DottedKeyNeverSortsAsWritten([first, second], key, Asc);
    ValueAtNested(first, outer, inner, [(inner, Str(a))]);
    ValueAtNested(second, outer, inner, [(inner, Str(b))]);
    TextOrder(a, b);
    var before := RowsBefore(Dotted(key), Asc);
    assert !before(first, second);
    SortTwo(first, second, before);
  }

  lemma SortTwo<X>(x: X, y: X, before: (X, X) -> bool)
    ensures Sort([x, y], before) == if before(x, y) then [x, y] else [y, x]
  {
    var one := [x];
    assert one[..0] == [];
    assert Sort(one, before) == Insert([], x, before) == one;
    assert [x, y][..1] == one;
    assert Sort([x, y], before) == Insert(one, y, before);
  }

  // ---------------------------------------------------------------------
  // Pagination

  const DefaultPageSize := 10

  /** `Math.ceil(n / pageSize)`: the fewest pages that hold `n` rows. */
  function TotalPages(n: nat, pageSize: nat): (t: nat)
    requires pageSize >= 1
    ensures n <= t * pageSize
    ensures t > 0 ==> (t - 1) * pageSize < n
  {
    (n + pageSize - 1) / pageSize
  }

  function Min(a: int, b: int): int {
    if a <= b then a else b
  }

  /** `slice(page * pageSize, (page + 1) * pageSize)`, clamped to the rows there are. */
  function PageRows<X>(rows: seq<X>, page: nat, pageSize: nat): (r: seq<X>)
    ensures |r| <= pageSize
    ensures |rows| <= page * pageSize ==> r == []
    ensures forall x :: x in r ==> x in rows
  {
    rows[Min(page * pageSize, |rows|)..Min((page + 1) * pageSize, |rows|)]
  }

  /** Every page before the last is full, and the last one is not empty. */
  lemma PageSizes<X>(rows: seq<X>, page: nat, pageSize: nat)
    requires pageSize >= 1 && page < TotalPages(|rows|, pageSize)
    ensures |PageRows(rows, page, pageSize)| >= 1
    ensures page < TotalPages(|rows|, pageSize) - 1 ==> |PageRows(rows, page, pageSize)| == pageSize
  {
    var t := TotalPages(|rows|, pageSize);
    assert page * pageSize <= (t - 1) * pageSize;
    if page < t - 1 {
      assert (page + 1) * pageSize <= (t - 1) * pageSize;
    }
  }

  /** The first `k` pages, one after the other. */
  function Pages<X>(rows: seq<X>, k: nat, pageSize: nat): seq<X> {
    if k == 0 then [] else Pages(rows, k - 1, pageSize) + PageRows(rows, k - 1, pageSize)
  }

  lemma {:induction false} PagesArePrefix<X>(rows: seq<X>, k: nat, pageSize: nat)
    ensures Pages(rows, k, pageSize) == rows[..Min(k * pageSize, |rows|)]
  {
    if k > 0 {
      PagesArePrefix(rows, k - 1, pageSize);
      var lo, hi := (k - 1) * pageSize, k * pageSize;
      assert hi == lo + pageSize;
      PrefixSplit(rows, Min(lo, |rows|), Min(hi, |rows|));
    }
  }

  lemma PrefixSplit<X>(s: seq<X>, a: nat, b: nat)
    requires a <= b <= |s|
    ensures s[..b] == s[..a] + s[a..b]
  {
  }

  /** The pages together show every row once, in order. */
  lemma PagesCoverRows<X>(rows: seq<X>, pageSize: nat)
    requires pageSize >= 1
    ensures Pages(rows, TotalPages(|rows|, pageSize), pageSize) == rows
  {
    PagesArePrefix(rows, TotalPages(|rows|, pageSize), pageSize);
  }

  /** "Mostrando first-last de n": the rows the footer says are shown. */
  function RangeShown(page: nat, pageSize: nat, n: nat): (nat, int) {
    (page * pageSize + 1, Min((page + 1) * pageSize, n))
  }

  /** On an existing page the footer counts exactly the rows shown. */
  lemma RangeShownCountsThePage<X>(rows: seq<X>, page: nat, pageSize: nat)
    requires pageSize >= 1 && page < TotalPages(|rows|, pageSize)
    ensures var range := RangeShown(page, pageSize, |rows|);
            range.1 - range.0 + 1 == |PageRows(rows, page, pageSize)|
  {
    PageSizes(rows, page, pageSize);
  }

  /** The pagination footer is rendered. */
  predicate ShowsPagination(n: nat, pageSize: nat)
    requires pageSize >= 1
  {
    TotalPages(n, pageSize) > 1
  }

  /** Exactly when the rows do not fit on one page. */
  lemma ShowsPaginationWhenRowsOverflow(n: nat, pageSize: nat)
    requires pageSize >= 1
    ensures ShowsPagination(n, pageSize) <==> n > pageSize
  {
    var t := TotalPages(n, pageSize);
    if n > pageSize {
      assert t * pageSize >= n > 1 * pageSize;
    }
  }

  predicate PrevDisabled(page: nat) {
    page == 0
  }

  /** "Next" and "last" are disabled from the last page on. */
  predicate NextDisabled(page: nat, totalPages: nat) {
    page >= totalPages - 1
  }

  /** While "next" is enabled, the next page holds rows. */
  lemma NextPageHasRows<X>(rows: seq<X>, page: nat, pageSize: nat)
    requires pageSize >= 1 && !NextDisabled(page, TotalPages(|rows|, pageSize))
    ensures |PageRows(rows, page + 1, pageSize)| >= 1
  {
    PageSizes(rows, page + 1, pageSize);
  }

  // ---------------------------------------------------------------------
  // The component's state

  /** Clicking a header: a new column sorts ascending; the same one goes ascending, descending, unsorted. */
  function NextSort(sortKey: Option<string>, sortDir: Option<Direction>, key: string)
    : (r: (Option<string>, Option<Direction>))
    ensures sortKey != Some(key) ==> r == (Some(key), Some(Asc))
    ensures sortKey == Some(key) && sortDir == Some(Asc) ==> r == (Some(key), Some(Desc))
    ensures sortKey == Some(key) && sortDir == Some(Desc) ==> r == (None, None)
    ensures (sortKey.None? <==> sortDir.None?) ==> (r.0.None? <==> r.1.None?)
  {
    if sortKey == Some(key) then
      if sortDir == Some(Asc) then (sortKey, Some(Desc))
      else if sortDir == Some(Desc) then (None, None)
      else (sortKey, sortDir)
    else (Some(key), Some(Asc))
  }

  /** Three clicks on a column that is not the sorted one come back to unsorted. */
  lemma ThreeClicksUnsort(sortKey: Option<string>, sortDir: Option<Direction>, key: string)
    requires sortKey != Some(key)
    ensures var one := NextSort(sortKey, sortDir, key);
            var two := NextSort(one.0, one.1, key);
            && one == (Some(key), Some(Asc))
            && two == (Some(key), Some(Desc))
            && NextSort(two.0, two.1, key) == (None, None)
  {
  }

  /** A page of rows in a column's order is itself in that order. */
  lemma PageKeepsOrder(rows: seq<Row>, page: nat, pageSize: nat, key: string, dir: Direction)
    requires forall i, j :: 0 <= i < j < |rows| ==> Before(ValueAt(rows[i], key), ValueAt(rows[j], key), dir)
    ensures var r := PageRows(rows, page, pageSize);
            forall i, j :: 0 <= i < j < |r| ==> Before(ValueAt(r[i], key), ValueAt(r[j], key), dir)
  {
    var lo := Min(page * pageSize, |rows|);
    var r := PageRows(rows, page, pageSize);
    forall i, j | 0 <= i < j < |r|
      ensures Before(ValueAt(r[i], key), ValueAt(r[j], key), dir)
    {
      assert r[i] == rows[lo + i] && r[j] == rows[lo + j];
    }
  }

  class DataTable {
    var page: nat
    var search: string
    var sortKey: Option<string>
    var sortDir: Option<Direction>

    /** A key is set exactly when a direction is. */
    ghost predicate Valid()
      reads this
    {
      sortKey.None? <==> sortDir.None?
    }

    constructor ()
      ensures Valid()
      ensures page == 0 && search == "" && sortKey == None && sortDir == None
    {
      page := 0;
      search := "";
      sortKey := None;
      sortDir := None;
    }

    /**
     * The rows on screen: the current page of the matching rows, in the order `sortedData`
     * puts them, which is the data's own order while no column is sorted.
     */
    function Shown(data: seq<Row>, pageSize: nat): (r: seq<Row>)
      reads this
      ensures |r| <= pageSize
      ensures forall row :: row in r ==> row in data && (search != "" ==> RowMatches(row, ToLower(search)))
      ensures var sorted := SortedDataAsWritten(FilteredData(data, search), sortKey, sortDir);
              && multiset(sorted) == multiset(FilteredData(data, search))
              && r == PageRows(sorted, page, pageSize)
      ensures sortKey.None? || sortDir.None? ==> r == PageRows(FilteredData(data, search), page, pageSize)
    {
      var sorted := SortedDataAsWritten(FilteredData(data, search), sortKey, sortDir);
      assert forall row :: row in sorted ==> row in multiset(sorted);
      PageRows(sorted, page, pageSize)
    }

    /** `handleSort`: the page and the search stay. */
    method HandleSort(key: string)
      requires Valid()
      modifies this`sortKey, this`sortDir
      ensures Valid()
      ensures (sortKey, sortDir) == NextSort(old(sortKey), old(sortDir), key)
    {
      if sortKey == Some(key) {
        if sortDir == Some(Asc) {
          sortDir := Some(Desc);
        } else if sortDir == Some(Desc) {
          sortKey := None;
          sortDir := None;
        }
      } else {
        sortKey := Some(key);
        sortDir := Some(Asc);
      }
    }

    /** Typing in the search box: the new search, back to the first page. */
    method SetSearch(text: string)
      modifies this`search, this`page
      ensures search == text && page == 0
    {
      search := text;
      page := 0;
    }

    /** The "first" button, a no-op while disabled or not rendered. */
    method ClickFirst(n: nat, pageSize: nat)
      requires pageSize >= 1
      modifies this`page
      ensures page == if ShowsPagination(n, pageSize) && !PrevDisabled(old(page)) then 0 else old(page)
    {
      if ShowsPagination(n, pageSize) && page != 0 {
        page := 0;
      }
    }

    /** The "previous" button. */
    method ClickPrev(n: nat, pageSize: nat)
      requires pageSize >= 1
      modifies this`page
      ensures page == if ShowsPagination(n, pageSize) && !PrevDisabled(old(page)) then old(page) - 1 else old(page)
    {
      if ShowsPagination(n, pageSize) && page != 0 {
        page := page - 1;
      }
    }

    /** The "next" button: it never leaves the pages there are. */
    method ClickNext(n: nat, pageSize: nat)
      requires pageSize >= 1
      modifies this`page
      ensures page == if ShowsPagination(n, pageSize) && !NextDisabled(old(page), TotalPages(n, pageSize))
                      then old(page) + 1 else old(page)
      ensures old(page) < TotalPages(n, pageSize) ==> page < TotalPages(n, pageSize)
    {
      var totalPages := TotalPages(n, pageSize);
      if totalPages > 1 && page < totalPages - 1 {
        page := page + 1;
      }
    }

    /** The "last" button. */
    method ClickLast(n: nat, pageSize: nat)
      requires pageSize >= 1
      modifies this`page
      ensures page == if ShowsPagination(n, pageSize) && !NextDisabled(old(page), TotalPages(n, pageSize))
                      then TotalPages(n, pageSize) - 1 else old(page)
    {
      var totalPages := TotalPages(n, pageSize);
      if totalPages > 1 && page < totalPages - 1 {
        page := totalPages - 1;
      }
    }
  }

  /**
   * Sorted by a top-level column of texts or of numbers, the page on screen is in the
   * column's order for the direction, blanks last.
   */
  lemma ShownInColumnOrder(t: DataTable, data: seq<Row>, pageSize: nat, key: string, dir: Direction,
                           kind: ColumnKind, blank: Value)
    requires t.sortKey == Some(key) && t.sortDir == Some(dir) && key != "" && '.' !in key && Nullish(blank)
    requires forall row :: row in data ==> OfKind(ValueAt(row, key), kind, blank)
    ensures var r := t.Shown(data, pageSize);
            forall i, j :: 0 <= i < j < |r| ==> Before(ValueAt(r[i], key), ValueAt(r[j], key), dir)
  {
    var filtered := FilteredData(data, t.search);
    forall row | row in filtered
      ensures OfKind(ValueAt(row, key), kind, blank)
    {
      if t.search == "" {
        assert row in data;
      }
    }
    SortedDataOrdersColumn(filtered, key, dir, kind, blank);
    SortedDataAgreesOnPlainKeys(filtered, key, dir);
    PageKeepsOrder(SortedDataAsWritten(filtered, Some(key), Some(dir)), t.page, pageSize, key, dir);
  }
}

=== FILE: text.dfy ===
/**
 * The string operations the source relies on: lower-casing, `includes`,
 * decimal rendering of numbers (`String(n)`, `padStart`, `toFixed(2)`) and
 * the `Number(...)` parse that reads such renderings back.
 */
module Text {
  import opened Common

  /** `toLowerCase` on one character, over the Latin-1 range: A-Z and À-Þ (not ×) move up by 32. */
  function LowerChar(c: char): char {
    if 'A' <= c <= 'Z' || ('\U{C0}' <= c <= '\U{DE}' && c != '\U{D7}') then (c as int + 32) as char else c
  }

  function ToLower(s: string): (r: string)
    ensures |r| == |s|
    ensures forall i :: 0 <= i < |s| ==> r[i] == LowerChar(s[i])
  {
    seq(|s|, i requires 0 <= i < |s| => LowerChar(s[i]))
  }

  /** Lower-casing twice is lower-casing once. */
  lemma ToLowerIdempotent(s: string)
    ensures ToLower(ToLower(s)) == ToLower(s)
  {
    forall i | 0 <= i < |s|
      ensures ToLower(ToLower(s))[i] == ToLower(s)[i]
    {
      var c := s[i];
      assert LowerChar(LowerChar(c)) == LowerChar(c);
    }
  }

  /** `hay.includes(needle)`. */
  predicate Contains(hay: string, needle: string)
    ensures Contains(hay, needle) ==> |needle| <= |hay|
    decreases |hay|
  {
    needle <= hay || (hay != [] && Contains(hay[1..], needle))
  }

  lemma {:induction false} ContainsAt(hay: string, needle: string, i: nat)
    requires i <= |hay| && needle <= hay[i..]
    ensures Contains(hay, needle)
  {
    if i > 0 {
      assert hay[1..][i - 1..] == hay[i..];
      ContainsAt(hay[1..], needle, i - 1);
    } else {
      assert hay[0..] == hay;
    }
  }

  /** A text contains each of its tails. */
  lemma ContainsTail(pre: string, x: string)
    ensures Contains(pre + x, x)
  {
    assert (pre + x)[|pre|..] == x;
    ContainsAt(pre + x, x, |pre|);
  }

  /** A text contains each part it is joined from. */
  lemma ContainsPart(pre: string, x: string, post: string)
    ensures Contains(pre + x + post, x)
  {
    assert (pre + x + post)[|pre|..] == x + post;
    ContainsAt(pre + x + post, x, |pre|);
  }

  lemma {:induction false} ContainsWitness(hay: string, needle: string) returns (i: nat)
    requires Contains(hay, needle)
    ensures i <= |hay| && needle <= hay[i..]
  {
    if needle <= hay {
      i := 0;
      assert hay[0..] == hay;
    } else {
      var j := ContainsWitness(hay[1..], needle);
      assert hay[1..][j..] == hay[j + 1..];
      i := j + 1;
    }
  }

  /** `includes` is transitive: a text that contains a phrase contains every part of it. */
  lemma {:induction false} ContainsTransitive(a: string, b: string, c: string)
    requires Contains(a, b) && Contains(b, c)
    ensures Contains(a, c)
  {
    var i := ContainsWitness(a, b);
    var j := ContainsWitness(b, c);
    assert a[i..][..|b|] == b;
    assert b[j..][..|c|] == c;
    forall k | 0 <= k < |c|
      ensures a[i + j..][k] == c[k]
    {
      assert c[k] == b[j + k];
      assert b[j + k] == a[i + j + k];
    }
    assert c <= a[i + j..];
    ContainsAt(a, c, i + j);
  }

  /** The characters `trim()` removes: ECMAScript white space and line terminators. */
  predicate IsSpace(c: char) {
    c == ' ' || c == '\t' || c == '\n' || c == '\r' || c == '\U{B}' || c == '\U{C}'
    || c == '\U{A0}' || c == '\U{1680}' || ('\U{2000}' <= c <= '\U{200A}')
    || c == '\U{2028}' || c == '\U{2029}' || c == '\U{202F}' || c == '\U{205F}'
    || c == '\U{3000}' || c == '\U{FEFF}'
  }

  /** Where the text starts once leading white space is skipped. */
  function TrimStartIndex(s: string, i: nat): (j: nat)
    requires i <= |s|
    ensures i <= j <= |s|
    ensures forall k :: i <= k < j ==> IsSpace(s[k])
    ensures j < |s| ==> !IsSpace(s[j])
    decreases |s| - i
  {
    if i < |s| && IsSpace(s[i]) then TrimStartIndex(s, i + 1) else i
  }

  /** Where the text ends once trailing white space (down to `lo`) is dropped. */
  function TrimEndIndex(s: string, lo: nat, j: nat): (e: nat)
    requires lo <= j <= |s|
    ensures lo <= e <= j
    ensures forall k :: e <= k < j ==> IsSpace(s[k])
    ensures e > lo ==> !IsSpace(s[e - 1])
    decreases j
  {
    if j > lo && IsSpace(s[j - 1]) then TrimEndIndex(s, lo, j - 1) else j
  }

  /** `s.trim()`: the longest slice with no white space at either end; all that is cut is white space. */
  function Trim(s: string): (r: string)
    ensures r == [] || (!IsSpace(r[0]) && !IsSpace(r[|r| - 1]))
    ensures exists i, j :: 0 <= i <= j <= |s| && r == s[i..j]
                           && (forall k :: 0 <= k < i ==> IsSpace(s[k]))
                           && (forall k :: j <= k < |s| ==> IsSpace(s[k]))
  {
    var i := TrimStartIndex(s, 0);
    var j := TrimEndIndex(s, i, |s|);
    s[i..j]
  }

  // ---------------------------------------------------------------------
  // Decimal digits

  predicate IsDigit(c: char) {
    '0' <= c <= '9'
  }

  predicate AllDigits(s: string) {
    forall i :: 0 <= i < |s| ==> IsDigit(s[i])
  }

  function DigitValue(c: char): (d: nat)
    requires IsDigit(c)
    ensures d < 10
  {
    c as int - '0' as int
  }

  function DigitChar(d: nat): (c: char)
    requires d < 10
    ensures IsDigit(c) && DigitValue(c) == d
  {
    ('0' as int + d) as char
  }

  /** `String(n)` for a non-negative integer. */
  function NatToString(n: nat): (s: string)
    ensures s != [] && AllDigits(s)
    decreases n
  {
    if n < 10 then [DigitChar(n)] else NatToString(n / 10) + [DigitChar(n % 10)]
  }

  /** `Number(s)` / `parseInt(s)` on a string of decimal digits. */
  function ParseNat(s: string): nat
    requires AllDigits(s)
    decreases |s|
  {
    if s == [] then 0 else ParseNat(s[..|s| - 1]) * 10 + DigitValue(s[|s| - 1])
  }

  lemma {:induction false} ParseNatToString(n: nat)
    ensures ParseNat(NatToString(n)) == n
    decreases n
  {
    if n >= 10 {
      var s := NatToString(n);
      assert s[..|s| - 1] == NatToString(n / 10);
      ParseNatToString(n / 10);
    }
  }

  /** Two digits read as tens and units. */
  lemma ParseTwoDigits(s: string)
    requires |s| == 2 && AllDigits(s)
    ensures ParseNat(s) == DigitValue(s[0]) * 10 + DigitValue(s[1])
  {
    assert s[..1] == [s[0]];
    assert s[..1][..0] == [];
    assert ParseNat(s[..1]) == DigitValue(s[0]);
    assert s[..|s| - 1] == s[..1];
  }

  /** `String(i)` for any integer. */
  function IntToString(i: int): string {
    if i < 0 then "-" + NatToString(-i) else NatToString(i)
  }

  /** `s.padStart(2, '0')`. */
  function PadStart2(s: string): (r: string)
    ensures |s| >= 2 ==> r == s
    ensures |s| < 2 ==> |r| == 2 && r[2 - |s|..] == s
    ensures forall i :: 0 <= i < |r| - |s| ==> r[i] == '0'
  {
    if |s| >= 2 then s else seq(2 - |s|, _ => '0') + s
  }

  /** `n.toString().padStart(2, '0')`. */
  function TwoDigits(n: nat): string {
    PadStart2(NatToString(n))
  }

  /** A two-digit rendering reads back as the number it renders. */
  lemma {:induction false} TwoDigitsRoundTrip(n: nat)
    requires n < 100
    ensures |TwoDigits(n)| == 2 && AllDigits(TwoDigits(n))
    ensures ParseNat(TwoDigits(n)) == n
  {
    var s := NatToString(n);
    var r := TwoDigits(n);
    if n < 10 {
      assert s == [DigitChar(n)];
      assert r == ['0', DigitChar(n)];
      assert r[..1] == ['0'];
      assert ParseNat(r[..1]) == 0 by { assert r[..1][..0] == []; }
    } else {
      assert s == NatToString(n / 10) + [DigitChar(n % 10)];
      assert NatToString(n / 10) == [DigitChar(n / 10)];
      assert r == s;
      ParseNatToString(n);
    }
  }

  // ---------------------------------------------------------------------
  // Money: amounts are stored in cents and shown divided by 100

  function UnsignedCentsText(c: nat): string {
    var whole, frac := c / 100, c % 100;
    if frac == 0 then NatToString(whole)
    else if frac % 10 == 0 then NatToString(whole) + "." + [DigitChar(frac / 10)]
    else NatToString(whole) + "." + [DigitChar(frac / 10), DigitChar(frac % 10)]
  }

  /**
   * `String(cents / 100)`: JavaScript's shortest rendering of the quotient, which for a
   * whole number of cents has no fraction, or one or two fraction digits without a
   * trailing zero.
   */
  function CentsToNumberText(cents: int): (s: string)
    ensures var c, sign := if cents < 0 then -cents else cents, if cents < 0 then "-" else "";
            var whole := NatToString(c / 100);
            && (c % 100 == 0 ==> s == sign + whole)
            && (c % 100 != 0 && c % 10 == 0 ==> s == sign + (whole + "." + [DigitChar(c % 100 / 10)]))
            && (c % 10 != 0 ==> s == sign + (whole + "." + [DigitChar(c % 100 / 10), DigitChar(c % 10)]))
    ensures cents >= 0 ==> DecimalToCents(s) == Some(cents)
    ensures cents < 0 ==> s != [] && s[0] == '-' && DecimalToCents(s[1..]) == Some(-cents)
  {
    var c := if cents < 0 then -cents else cents;
    CentsTextRoundTrip(c);
    CentsTextDigits(c);
    if cents < 0 then
      assert ("-" + UnsignedCentsText(c))[1..] == UnsignedCentsText(c);
      "-" + UnsignedCentsText(c)
    else UnsignedCentsText(c)
  }

  /** The units digit of the cents is the units digit of the fraction. */
  lemma LastDigit(c: nat)
    ensures c % 100 % 10 == c % 10
  {
    assert c == (c / 100) * 100 + c % 100;
    assert c % 100 == (c % 100 / 10) * 10 + c % 100 % 10;
    assert c == ((c / 100) * 10 + c % 100 / 10) * 10 + c % 100 % 10;
  }

  /** The shortest rendering: no fraction, one digit, or two, by the trailing zeros of the cents. */
  lemma CentsTextDigits(c: nat)
    ensures c % 100 == 0 ==> UnsignedCentsText(c) == NatToString(c / 100)
    ensures c % 100 != 0 && c % 10 == 0 ==>
              UnsignedCentsText(c) == NatToString(c / 100) + "." + [DigitChar(c % 100 / 10)]
    ensures c % 10 != 0 ==>
              UnsignedCentsText(c) == NatToString(c / 100) + "." + [DigitChar(c % 100 / 10), DigitChar(c % 10)]
  {
    LastDigit(c);
  }

  function UnsignedFixed2(c: nat): string {
    NatToString(c / 100) + "." + [DigitChar(c % 100 / 10), DigitChar(c % 10)]
  }

  /** A price text has no line break in it. */
  lemma CentsTextOneLine(cents: int)
    ensures '\n' !in CentsToNumberText(cents)
  {
    var c := if cents < 0 then -cents else cents;
    var w := NatToString(c / 100);
    assert AllDigits(w);
    assert '\n' !in w;
    assert '\n' !in UnsignedCentsText(c);
  }

  /** `(cents / 100).toFixed(2)`: the sign, the whole part and exactly two fraction digits. */
  function CentsToFixed2(cents: int): (s: string)
    ensures var c, sign := if cents < 0 then -cents else cents, if cents < 0 then "-" else "";
            s == sign + (NatToString(c / 100) + "." + [DigitChar(c % 100 / 10), DigitChar(c % 10)])
    ensures cents >= 0 ==> DecimalToCents(s) == Some(cents)
    ensures cents < 0 ==> s != [] && s[0] == '-' && DecimalToCents(s[1..]) == Some(-cents)
    ensures |s| >= 4 && s[|s| - 3] == '.'
  {
    var c := if cents < 0 then -cents else cents;
    Fixed2RoundTrip(c);
    if cents < 0 then
      assert ("-" + UnsignedFixed2(c))[1..] == UnsignedFixed2(c);
      "-" + UnsignedFixed2(c)
    else UnsignedFixed2(c)
  }

  /** Reads a non-negative decimal amount with at most two fraction digits back into cents. */
  function DecimalToCents(s: string): Option<nat> {
    if AllDigits(s) && s != [] then Some(ParseNat(s) * 100)
    else if |s| >= 3 && s[|s| - 2] == '.' && AllDigits(s[..|s| - 2]) && s[..|s| - 2] != [] && IsDigit(s[|s| - 1]) then
      Some(ParseNat(s[..|s| - 2]) * 100 + DigitValue(s[|s| - 1]) * 10)
    else if |s| >= 4 && s[|s| - 3] == '.' && AllDigits(s[..|s| - 3]) && s[..|s| - 3] != []
         && IsDigit(s[|s| - 2]) && IsDigit(s[|s| - 1]) then
      Some(ParseNat(s[..|s| - 3]) * 100 + DigitValue(s[|s| - 2]) * 10 + DigitValue(s[|s| - 1]))
    else None
  }

  /** The `toFixed(2)` rendering of a price reads back as the same number of cents. */
  lemma {:induction false} Fixed2RoundTrip(c: nat)
    ensures DecimalToCents(UnsignedFixed2(c)) == Some(c)
  {
    var w := NatToString(c / 100);
    var s := UnsignedFixed2(c);
    assert s[..|s| - 3] == w;
    assert s[|s| - 3] == '.';
    assert !AllDigits(s) by { assert !IsDigit(s[|s| - 3]); }
    assert s[|s| - 2] != '.';
    ParseNatToString(c / 100);
  }

  /** The shortest rendering of a price reads back as the same number of cents. */
  lemma {:induction false} CentsTextRoundTrip(c: nat)
    ensures DecimalToCents(UnsignedCentsText(c)) == Some(c)
  {
    var w := NatToString(c / 100);
    var s := UnsignedCentsText(c);
    ParseNatToString(c / 100);
    if c % 100 == 0 {
      assert s == w;
    } else if c % 100 % 10 == 0 {
      assert s[..|s| - 2] == w;
      assert !AllDigits(s) by { assert !IsDigit(s[|s| - 2]); }
    } else {
      assert s[..|s| - 3] == w;
      assert !AllDigits(s) by { assert !IsDigit(s[|s| - 3]); }
      assert s[|s| - 2] != '.';
    }
  }

  /** `lines.join(sep)`. */
  function Join(lines: seq<string>, sep: string): (r: string)
    ensures lines == [] ==> r == ""
    ensures |lines| == 1 ==> r == lines[0]
  {
    if lines == [] then ""
    else if |lines| == 1 then lines[0]
    else Join(lines[..|lines| - 1], sep) + sep + lines[|lines| - 1]
  }

  /** Joining one more line adds the separator and that line. */
  lemma {:induction false} JoinSnoc(lines: seq<string>, x: string, sep: string)
    requires lines != []
    ensures Join(lines + [x], sep) == Join(lines, sep) + sep + x
  {
    assert (lines + [x])[..|lines + [x]| - 1] == lines;
  }

  /** `s.split(sep)`: the pieces between separators; the pieces joined back give the text. */
  function Split(s: string, sep: char): (parts: seq<string>)
    ensures |parts| >= 1
    ensures forall i :: 0 <= i < |parts| ==> sep !in parts[i]
    ensures Join(parts, [sep]) == s
  {
    if s == [] then [""]
    else
      var p := Split(s[..|s| - 1], sep);
      var c := s[|s| - 1];
      assert s == s[..|s| - 1] + [c];
      if c == sep then
        p + [""]
      else
        var q := p[..|p| - 1] + [p[|p| - 1] + [c]];
        assert q[..|q| - 1] == p[..|p| - 1];
        q
  }

  /** A text without separators splits into itself alone. */
  lemma {:induction false} SplitPlainKey(s: string, sep: char)
    requires sep !in s
    ensures Split(s, sep) == [s]
    decreases |s|
  {
    if s != [] {
      assert sep !in s[..|s| - 1] && s[|s| - 1] != sep;
      SplitPlainKey(s[..|s| - 1], sep);
      assert s == s[..|s| - 1] + [s[|s| - 1]];
    }
  }

  /** A character other than the separator extends the last piece. */
  lemma SplitSnoc(x: string, c: char, sep: char)
    requires c != sep
    ensures var p := Split(x, sep); Split(x + [c], sep) == p[..|p| - 1] + [p[|p| - 1] + [c]]
  {
    assert (x + [c])[..|x|] == x;
  }

  /** Splitting a text that ends in a separator, followed by a plain piece. */
  lemma {:induction false} SplitAppend(s: string, b: string, sep: char)
    requires s != [] && s[|s| - 1] == sep && sep !in b
    ensures Split(s + b, sep) == Split(s[..|s| - 1], sep) + [b]
    decreases |b|
  {
    if b == [] {
      assert s + b == s;
    } else {
      var init, c := b[..|b| - 1], b[|b| - 1];
      assert c != sep by { assert c in b; }
      assert s + b == (s + init) + [c] by { assert b == init + [c]; }
      SplitSnoc(s + init, c, sep);
      SplitAppend(s, init, sep);
      var before := Split(s[..|s| - 1], sep);
      assert (before + [init])[..|before|] == before;
      assert init + [c] == b;
    }
  }

  /** Lines without the separator, joined by it, split back into the same lines. */
  lemma {:induction false} SplitJoin(lines: seq<string>, sep: char)
    requires lines != []
    requires forall k :: 0 <= k < |lines| ==> sep !in lines[k]
    ensures Split(Join(lines, [sep]), sep) == lines
    decreases |lines|
  {
    if |lines| == 1 {
      SplitPlainKey(lines[0], sep);
    } else {
      var init, last := lines[..|lines| - 1], lines[|lines| - 1];
      assert lines == init + [last];
      var s := Join(init, [sep]) + [sep];
      assert Join(lines, [sep]) == s + last;
      assert s[..|s| - 1] == Join(init, [sep]);
      SplitAppend(s, last, sep);
      SplitJoin(init, sep);
    }
  }

  // ---------------------------------------------------------------------
  // Ordering of names

  /** Code-point lexicographic order: `ORDER BY name ASC` under a binary collation. */
  predicate LexLe(a: string, b: string)
    ensures a <= b ==> LexLe(a, b)
    decreases |a|
  {
    a == [] || (b != [] && (a[0] < b[0] || (a[0] == b[0] && LexLe(a[1..], b[1..]))))
  }

  lemma {:induction false} LexLeTotal(a: string, b: string)
    ensures LexLe(a, b) || LexLe(b, a)
    decreases |a|
  {
    if a != [] && b != [] && a[0] == b[0] {
      LexLeTotal(a[1..], b[1..]);
    }
  }

  lemma {:induction false} LexLeTransitive(a: string, b: string, c: string)
    requires LexLe(a, b) && LexLe(b, c)
    ensures LexLe(a, c)
    decreases |a|
  {
    if a != [] && a[0] == b[0] && b[0] == c[0] {
      LexLeTransitive(a[1..], b[1..], c[1..]);
    }
  }

  lemma {:induction false} LexLeAntisymmetric(a: string, b: string)
    requires LexLe(a, b) && LexLe(b, a)
    ensures a == b
    decreases |a|
  {
    if a != [] {
      LexLeAntisymmetric(a[1..], b[1..]);
      assert a == [a[0]] + a[1..] && b == [b[0]] + b[1..];
    }
  }
}

=== FILE: tools.dfy ===
/** What the agent's tools hand back to the language model. */
module Tools {
  import opened Common

  /**
   * `{ ok: false, message }`, the scheduling tool's `{ ok: true, pendingConfirmation: true,
   * message }`, or the confirmation tool's `{ ok: true, appointmentId, message }`.
   */
  datatype ToolReply =
    | ToolFailed(message: string)
    | ToolStaged(message: string)
    | ToolBooked(appointmentId: Id, message: string)

  const NoConversationText := "No se encontró la conversación."

  /** How JS template literals render an optional text: a missing one prints "undefined". */
  function TextOrUndefined(s: Option<string>): (r: string)
    ensures s.Some? ==> r == s.value
    ensures s.None? ==> r == "undefined"
  {
    if s.Some? then s.value else "undefined"
  }
}
